=== FILE: README.md ===
# Codemod task drivers and statement-list rules, in Dafny

This project models the core of a registry of JavaScript/TypeScript codemods.
A codemod rewrites one source file. A repomod runs over a whole repository and
can emit extra files.

Most of the codemods here share one design. A file is rewritten by "mod
functions" (tasks). Each task returns a changed flag and a list of follow-up
tasks. A driver runs the tasks and ORs their flags into `dirtyFlag`. When no
task reported a change, `transform` returns `undefined`, which here is `None`.

The model has four parts.

- **Task drivers** (`Engine`). There are two drivers.
  - The recursive driver runs every spawned task and its descendants before the
    next sibling: depth-first, pre-order. It terminates by a rank on tasks
    that spawning lowers. It is proved equal to an explicit stack machine.
  - The pop/unshift driver of `react-redux/8/add-state-type` is proved to be
    a FIFO queue. Spawned tasks run after everything already pending.
- **Statement-list rules.** A parsed file is a sequence of top-level
  statements (`Syntax.Stmt`). A small expression tree carries object
  literals, parameters and nested arrow functions.
  - `StaticPropsEdits` holds the anchors, guarded appends and guarded import
    insertion of `next/13/remove-get-static-props`.
  - `StaticProps` holds its tasks, driver and default-export move.
    `StaticPropsExample` runs it end to end on one page.
  - `SearchParams` models `next/13/replace-use-search-params`.
  - `TodoComments` (with `TodoCommentsExample`) models the jscodeshift
    `remove-get-static-props`.
  - `ReactRedux`, `ReactRouter` and `Ember` model one rule file each.
- **Run-state orchestration.** `StaticPropsRepomod` and `SearchParamsRepomod`
  model `initializeState`, `handleFile` and `handleData` as pure functions.
  They return commands and the new state, where the source mutates `state`
  in place.
  - `StaticPropsRepomod` states its "the util file is emitted once" property
    under an explicit engine order: each file's `handleFile` is followed by
    `handleData` of its commands.
  - The batched order, where every `handleFile` runs first, is modelled too.
    Under it the util file is emitted once per file.
- **Paths** (`Paths`, `AppBoilerplate`). `path.join`, `posix.parse` and
  `posix.format` are modelled on segment lists. This is enough to derive the
  `app/…` boilerplate paths of `app-directory-boilerplate` from a
  `pages/index` path.

Parsing and printing are function parameters. The template contents are
placeholder constants.

A guard in the source deserves a note: `openEl.attributes?.filter(…).length ?? 0 > 0`
in the react-router rule parses as `length ?? (0 > 0)`. The number it yields is
truthy exactly when the count is positive, and `false` when there is no
attribute list. `ReactRouter.HasPush` models that.

The import guard of `next/13/remove-get-static-props` (`addImportStatement`)
only matches an import whose source node is a `StringLiteral`. The import it
inserts has a `Literal` source, built with `j.literal`. So a second insertion of
the same import within one run is not caught, and the import appears twice.
`StaticPropsEdits.InsertImportOnce` and `StaticProps.ImportStepRepeats` model
that.

Where the repository's tests disagree with the code, the model follows the code:
- `next/13/remove-get-static-props/test.ts` imports a `transform` the module
  does not export. Its expected page also differs from what the code builds:
  - it imports `buildLegacyCtx` from the configured helper path
    `/opt/project/hooks/buildLegacyCtx.tsx`, where the code imports it from
    `@lib/buildLegacyCtx`;
  - it expects a `searchParams: Params` field in `PageProps`, where the code's
    `PageProps` holds only `params: Params`;
  - it expects the component to destructure `searchParams: pageSearchParams`
    and call `buildLegacyCtx(pageParams, pageSearchParams, headers(), cookies())`,
    where the code gives the component the pattern `{ params }` and awaits
    `getData` directly.
- `codemods/repomod-engine/next/13/app-directory-boilerplate/test.ts` expects
  ten commands, including route files. The code emits four, and only for
  `pages/index`.

## Model

| member | source | states |
|---|---|---|
| Common.FindLastIndex | next/13/remove-get-static-props/index.ts:70-79 | the result is -1 or an index whose element satisfies the predicate, and no later element does |
| Common.AnchorAfterLast | next/13/remove-get-static-props/index.ts:81-89 | "last match + 1" lies in [0, length], is 0 exactly when nothing matches, follows a match otherwise, and nothing from it on matches |
| Common.SplitJoin | next/13/remove-get-static-props/index.ts:487 | splitting a comma-joined list of comma-free names gives the names back |
| Common.FlatMapHolds | next/13/remove-get-static-props/index.ts:529-562 | every task of every element appears in the concatenation of the per-element task lists |
| StaticPropsEdits.FirstIndexAfterImports | next/13/remove-get-static-props/index.ts:81-89 | the insertion point after the last import: 0 iff there is no import, every import lies before it |
| StaticPropsEdits.FirstIndexAfterNamed | next/13/remove-get-static-props/index.ts:91-133 | the insertion point after the last anchor for the name, 0 iff there is none. An anchor is a function declaration of that name, exported or not, or an exported variable declaration whose first declarator binds it, so a plain `const Page = …` is none |
| StaticPropsEdits.AfterLastAnchorIsFirstIndexAfterNamed | next/13/remove-get-static-props/index.ts:91-133 | the insertion point is the one position right after an anchor for the name (a function declaration, or an exported variable declaration whose first declarator binds it) with no anchor from there on, and exists iff there is an anchor |
| StaticPropsEdits.InsertAfterImportsKeepsImportsFirst | next/13/remove-get-static-props/index.ts:197-233 | statements inserted after the imports leave every import before them |
| StaticPropsEdits.AppendExportOnce | next/13/remove-get-static-props/index.ts:685-731 | reports a change iff no exported declarator of the name exists; then exactly one `export const` is pushed at the end; the rest of the body is kept and the name is exported afterwards |
| StaticProps.AppendStepIdempotent | next/13/remove-get-static-props/index.ts:857-901 | a second guarded append of the same name reports no change and keeps the body |
| StaticPropsEdits.InsertImportOnce | next/13/remove-get-static-props/index.ts:235-272 | the body is unchanged iff an import from the source, written as a string literal, starts with those named specifiers; otherwise one import is inserted at index 0, and since its source is built with `j.literal` it never satisfies the guard itself |
| StaticProps.ImportStepRepeats | next/13/remove-get-static-props/index.ts:245-267 | the import builder never reports a change, and once it has inserted an import, running it again with the same settings inserts the same import a second time |
| StaticProps.TasksFor | next/13/remove-get-static-props/index.ts:529-562 | only `getServerSideProps`, `getStaticProps` and `getStaticPaths` spawn tasks; a data-fetching function spawns the return finder then the component finder, `getStaticPaths` its return finder then `generateStaticParams`, and `getStaticProps` also `dynamic` |
| StaticProps.TasksForAll | next/13/remove-get-static-props/index.ts:511-566 | the declared functions spawn nothing iff none of them is relevant, and every spawned task ranks below the finder |
| StaticProps.FinderRun | next/13/remove-get-static-props/index.ts:511-631 | a function finder's run is dirty iff some found function is relevant, and it changes the body only then |
| StaticProps.ReturnTasks | next/13/remove-get-static-props/index.ts:633-683 | `getStaticPaths` spawns one fallback finder per return and no getData; others spawn one revalidate finder per return, then the inline getData iff every return argument is an object literal and the wrapper otherwise |
| StaticProps.FallbackOf | next/13/remove-get-static-props/index.ts:747-757 | only a boolean or `'blocking'` value is recognised; a boolean is carried as that boolean and `'blocking'` as `Blocking` |
| StaticProps.FallbackTasks | next/13/remove-get-static-props/index.ts:733-768 | one `dynamicParams` task per recognised `fallback` property, in order, the i-th carrying the value of the i-th such property |
| StaticProps.DynamicParams | next/13/remove-get-static-props/index.ts:773-818 | `dynamicParams` is true exactly when fallback is `true` or `'blocking'` |
| StaticProps.FallbackDynamicParams | next/13/remove-get-static-props/index.ts:747-798 | read from the property, `dynamicParams` is true exactly when a recognised `fallback` value is `true` or `'blocking'` |
| StaticProps.RevalidateTasks | next/13/remove-get-static-props/index.ts:820-855 | one `revalidate` task per numeric `revalidate` property, in order, the i-th carrying the number of the i-th such property |
| StaticProps.NavigationNames | next/13/remove-get-static-props/index.ts:472-480 | `notFound` and `redirect` are imported exactly when a return uses that key |
| StaticProps.NavigationImportRoundTrip | next/13/remove-get-static-props/index.ts:482-491 | the comma-joined specifier names split back into the same names |
| StaticProps.InlineSpawns | next/13/remove-get-static-props/index.ts:470-506 | the inline getData ends with the context-type import from `next` and the type-alias task, all of rank 0 |
| StaticProps.InlineParams | next/13/remove-get-static-props/index.ts:427-440 | no parameters become one `props` parameter; every identifier or pattern parameter ends up annotated, and an existing annotation is kept |
| StaticProps.PropsReturnUnwraps | next/13/remove-get-static-props/index.ts:360-420 | `return { props: p }` becomes `return p` when nothing inside `p` is itself a `props`, `redirect` or `notFound` object |
| StaticProps.ComponentIndex | next/13/remove-get-static-props/index.ts:903-977 | only the first default export counts: a function declaration is itself the component; an identifier names the last top-level function declaration or first-declarator arrow or function expression of that name, exported or not, and none when there is none; anything else, or no default export, gives none |
| StaticProps.AwaitGetData | next/13/remove-get-static-props/index.ts:979-1052 | only a JSX or block body can take the `getData` await; the result is a block body taking `PageProps` |
| StaticProps.ApplyRankDecreases | next/13/remove-get-static-props/index.ts:1096-1118 | every task spawns only tasks of lower rank, so the recursive driver terminates |
| StaticProps.TransformSomeIff | next/13/remove-get-static-props/index.ts:1069-1118 | `transform` returns a file iff it declares a data-fetching function or `getStaticPaths` |
| StaticProps.CarryDeclaration | next/13/remove-get-static-props/index.ts:1144-1185 | with nothing to carry the body is kept; otherwise the first carried declaration (a non-exported function declaration of the default export's name, or an exported variable declaration whose first declarator binds it) is taken out and put right after the last `getData` anchor of the rest (a function declaration, or an exported variable declaration whose first declarator binds it), the other statements in order, and the step fails iff no `getData` is left |
| StaticProps.PlaceAfter | next/13/remove-get-static-props/index.ts:1187-1199 | fails iff there is no anchor for the name, that is a function declaration of that name, exported or not, or an exported variable declaration whose first declarator binds it; otherwise the export is inserted right after the last anchor, the other statements in order |
| StaticProps.MoveDefaultExport | next/13/remove-get-static-props/index.ts:1120-1200 | the move is a permutation; without a default export the body is unchanged; when the body changes, the default export sits right after the last anchor of its name: a function declaration of that name, exported or not, or an exported variable declaration whose first declarator binds it |
| StaticProps.MoveDefaultExportSteps | next/13/remove-get-static-props/index.ts:1120-1200 | the first default export is taken out, the named declaration carried, then the export placed; a failing step leaves the body as it was |
| StaticProps.MoveDefaultExportLands | next/13/remove-get-static-props/index.ts:1120-1200 | with no declaration to carry, the export lands right after the last anchor of its name, every other statement in order; without an anchor (no function declaration of the name and no exported variable declaration whose first declarator binds it) the body is unchanged |
| StaticProps.MoveDefaultExportCarries | next/13/remove-get-static-props/index.ts:1144-1200 | with a declaration to carry, it lands right after the last `getData` and the export right after the last anchor of its name, a function declaration or an exported first-declarator binding; without such a `getData` the body is unchanged |
| StaticPropsExample.RevalidateBeforeDynamic | next/13/remove-get-static-props/index.ts:1096-1118 | on a page with `getStaticProps` returning `revalidate: 10`, the depth-first order puts `revalidate` before `dynamic`, with the context import, aliases, `getData` and awaiting component in place |
| StaticPropsExample.MoveKeepsOrder | next/13/remove-get-static-props/index.ts:1120-1200 | a default export already right after `getData` stays where it is |
| Engine.RunTask | codemods/jscodeshift/next/13/remove-get-static-props/index.ts:241-254 | a task fires first, and the run is dirty iff some fired task reported a change |
| Engine.RunAll | next/13/replace-use-search-params/index.ts:172-190 | the driver's flag is the OR of every fired task's flag, and every initial task fires |
| Engine.RunAllAppend | next/13/replace-use-search-params/index.ts:186-190 | running two task lists in a row threads the document and concatenates the traces |
| Engine.SurelyChangesTask | next/13/remove-get-static-props/index.ts:1105 | a task whose descendants surely include a changing builder yields a dirty run |
| Engine.RecursiveDriverIsStackMachine | next/13/remove-get-static-props/index.ts:1096-1114 | the recursive driver equals a stack machine that pops a task and pushes its spawned tasks in front: depth-first, pre-order |
| Engine.QueueRunsPendingFirst | codemods/jscodeshift/react-redux/8/add-state-type/index.ts:133-150 | a FIFO queue fires every pending task before any task spawned later |
| Engine.PopUnshiftIsFifo | codemods/jscodeshift/react-redux/8/add-state-type/index.ts:133-150 | popping from the end and unshifting each spawned task equals a FIFO queue over the reversed pending list |
| Engine.FifoRunsInitialFromTheEnd | codemods/jscodeshift/react-redux/8/add-state-type/index.ts:133-146 | the initial tasks fire last-first, before any spawned task |
| StaticPropsRepomod.HandleFile | next/13/remove-get-static-props/index.ts:1205-1239 | throws iff the util path option is not a string, even on a null state; returns [] on a null state; emits the util upsert only in the first step, before the file's own upsert |
| StaticPropsRepomod.FreshRunWritesUtilFirst | next/13/remove-get-static-props/index.ts:1205-1298 | a fresh run asks for the helper before the first file, handling that request writes the helper and moves to the second step, and initialising a resumed run again changes nothing |
| StaticPropsRepomod.TransformSource | next/13/remove-get-static-props/index.ts:1263-1270 | the data is rewritten iff the file declares a relevant function |
| StaticPropsRepomod.HandleData | next/13/remove-get-static-props/index.ts:1241-1279 | noop on a null state; the step moves forward only from the first step when handed string content; in the first step the content is upserted verbatim or it is a noop; in the second step it is a noop iff the transform leaves the file alone |
| StaticPropsRepomod.StepNeverMovesBack | next/13/remove-get-static-props/index.ts:1253-1262 | in the second step `handleData` keeps the state |
| StaticPropsRepomod.SequentialInSecondStep | next/13/remove-get-static-props/index.ts:1220-1236 | once in the second step, every file gets only its own upsert and the state stays |
| StaticPropsRepomod.SequentialAddsUtilOnce | next/13/remove-get-static-props/index.ts:1220-1254 | when each file's data follows its `handleFile`, the util file is upserted once, before all own upserts, and its content is written |
| StaticPropsRepomod.BatchedAddsUtilPerFile | next/13/remove-get-static-props/index.ts:1220-1229 | when every `handleFile` runs before any `handleData`, the util upsert precedes every file's own upsert |
| SearchParams.OldHookCalls | next/13/replace-use-search-params/index.ts:75-92 | a replace task exists for exactly the `useSearchParams()` calls |
| SearchParams.RunReplaces | next/13/replace-use-search-params/index.ts:64-73 | the replace tasks rename exactly the indexed calls and are dirty iff there is one |
| SearchParams.CallPass | next/13/replace-use-search-params/index.ts:64-92 | the call pass replaces every `useSearchParams()` with `useCompatSearchParams()` and is dirty iff one existed |
| SearchParams.CleanImport | next/13/replace-use-search-params/index.ts:111-135 | on a `next/navigation` import only the `useSearchParams` specifiers are removed, in order; the declaration goes iff nothing is left; other statements are kept |
| SearchParams.CleanImportsAppend | next/13/replace-use-search-params/index.ts:137-157 | cleaning distributes over concatenation, so each import is cleaned independently |
| SearchParams.RunImportTasks | next/13/replace-use-search-params/index.ts:137-157 | the import tasks, addressed from the end of the body, clean every `next/navigation` import |
| SearchParams.AddImportRun | next/13/replace-use-search-params/index.ts:94-109 | one `useCompatSearchParams` import from the hook module is prepended, unguarded |
| SearchParams.ImportPass | next/13/replace-use-search-params/index.ts:196-197 | the import pass cleans the navigation imports, then prepends the hook import |
| SearchParams.TransformReference | next/13/replace-use-search-params/index.ts:159-200 | `transform` is undefined iff there is no `useSearchParams()` call; otherwise it is the hook import, the cleaned body and the replaced calls |
| SearchParams.TransformSettles | next/13/replace-use-search-params/index.ts:159-200 | a transformed file is left alone by a second run |
| SearchParamsRepomod.HookFilePath | next/13/replace-use-search-params/index.ts:256-279 | the absolute hook path as given; a relative one joined to the working directory, segment by segment, rooted iff the directory is, or the directory is empty and the hook path rooted |
| SearchParamsRepomod.FreshRunWritesHookOnce | next/13/replace-use-search-params/index.ts:209-289 | a fresh run writes the hook with the first file, at the absolute path if given and at the relative one joined to the working directory otherwise, and the next file gets only its own upsert |
| SearchParamsRepomod.HookAtMostOnce | next/13/replace-use-search-params/index.ts:253-289 | over a run, the hook upsert is emitted at most once, before all own upserts |
| SearchParamsRepomod.HandleData | next/13/replace-use-search-params/index.ts:290-319 | throws on a null state; string content is upserted verbatim; otherwise a noop iff the file has no `useSearchParams()` call |
| Paths.JoinPathSegments | next/13/replace-use-search-params/index.ts:260 | the joined path's segments are those of both parts, and it is absolute iff the first part is, or the first part is empty and the second absolute |
| Paths.JoinSkipsEmptyFirst | next/13/replace-use-search-params/index.ts:260 | an empty working directory is skipped, so joining it with `/x` gives `/x` |
| Paths.ParsePath | codemods/repomod-engine/next/13/app-directory-boilerplate/index.ts:93 | the root is `/` for an absolute path; the path is the directory, a slash and the base; the base is name plus extension; an extension is a dot with no further dot and a non-empty name before it; `.` and `..` have none |
| Paths.SplitExtensionOf | codemods/repomod-engine/next/13/app-directory-boilerplate/index.ts:93 | a dot-free name followed by an extension splits back into that name and extension |
| Paths.ParseFormat | codemods/repomod-engine/next/13/app-directory-boilerplate/index.ts:107-133 | parsing a formatted path gives back its directory, name and extension |
| TodoComments.GetStaticPropsTasksFrom | codemods/jscodeshift/next/13/remove-get-static-props/index.ts:23-49 | only `getStaticProps` function declarations spawn tasks, which are return finders and comment tasks |
| TodoComments.CommentTaskSpawned | codemods/jscodeshift/next/13/remove-get-static-props/index.ts:23-49 | every `getStaticProps` declaration gets a comment task addressed from the end of the body |
| TodoComments.WithComment | codemods/jscodeshift/next/13/remove-get-static-props/index.ts:51-68 | the comment is appended after the existing comments, and nothing else about the function changes |
| TodoComments.CommentAppended | codemods/jscodeshift/next/13/remove-get-static-props/index.ts:51-68 | the comment task appends the removal comment to its function and leaves every other statement alone |
| TodoComments.UnshiftKeepsHandles | codemods/jscodeshift/next/13/remove-get-static-props/index.ts:184-188 | a statement unshifted at index 0 does not move a handle counted from the end |
| TodoComments.FirstIdentKeyed | codemods/jscodeshift/next/13/remove-get-static-props/index.ts:115-160 | only the first identifier-keyed property under `props` yields tasks |
| TodoComments.GetterName | codemods/jscodeshift/next/13/remove-get-static-props/index.ts:162-191 | `get` followed by the name with its first character upper-cased; an empty name gives `get` |
| Common.UpperAscii | codemods/jscodeshift/next/13/remove-get-static-props/index.ts:171 | a lower-case ASCII letter becomes the capital at the same place in the alphabet; any other character is kept |
| TodoComments.TransformSomeIff | codemods/jscodeshift/next/13/remove-get-static-props/index.ts:225-266 | `transform` returns a file iff it declares `getStaticProps` |
| TodoCommentsExample.GetterFirstCommentKept | codemods/jscodeshift/next/13/remove-get-static-props/index.ts:225-266 | on `getStaticProps` returning `{ props: { user } }`, `getUser` comes first and `getStaticProps` still gets the removal comment |
| ReactRedux.ParamsAfter | codemods/jscodeshift/react-redux/8/add-state-type/index.ts:44-73 | only a first identifier parameter gets the state type; the others are kept |
| ReactRedux.AnnotatesEveryArrow | codemods/jscodeshift/react-redux/8/add-state-type/index.ts:27-75 | every arrow under the declarator, nested ones included, is annotated |
| ReactRedux.BodyAnnotated | codemods/jscodeshift/react-redux/8/add-state-type/index.ts:27-75 | every arrow under every `mapStateToProps` declarator of the file is annotated |
| ReactRedux.CleanBodyUnchanged | codemods/jscodeshift/react-redux/8/add-state-type/index.ts:77-81 | a file with no arrow taking an identifier first is left unchanged |
| ReactRedux.AnnotateBodyIdempotent | codemods/jscodeshift/react-redux/8/add-state-type/index.ts:27-75 | annotating twice is annotating once |
| ReactRedux.DirtyKept | codemods/jscodeshift/react-redux/8/add-state-type/index.ts:27-75 | annotation does not change whether the file has an arrow to annotate |
| ReactRedux.RunTrace | codemods/jscodeshift/react-redux/8/add-state-type/index.ts:133-150 | the annotation task fires, then the import task only when it was dirty, and the import is prepended |
| ReactRedux.TransformReference | codemods/jscodeshift/react-redux/8/add-state-type/index.ts:106-159 | `transform` is the state-type import followed by the annotated body when some arrow is annotated, and undefined otherwise |
| ReactRedux.UndefinedOnlyWhenUnchanged | codemods/jscodeshift/react-redux/8/add-state-type/index.ts:152-156 | undefined iff nothing was annotated, and then the annotation is the identity |
| ReactRedux.SecondRunDuplicatesImport | codemods/jscodeshift/react-redux/8/add-state-type/index.ts:84-104 | the unguarded import is prepended again on a second run |
| ReactRedux.DefaultSettings | codemods/jscodeshift/react-redux/8/add-state-type/index.ts:113-122 | without options the import is `import { State as State } from "state"` |
| ReactRedux.OptionsNameTheImport | codemods/jscodeshift/react-redux/8/add-state-type/index.ts:84-122 | with both options given, the import brings the named type from the named module and every annotation uses that type |
| AppBoilerplate.TagInjective | codemods/repomod-engine/next/13/app-directory-boilerplate/index.ts:70-78 | distinct purposes have distinct tags |
| AppBoilerplate.ContentMapKeys | codemods/repomod-engine/next/13/app-directory-boilerplate/index.ts:80-85 | every purpose but `ROOT_PAGE` has content |
| AppBoilerplate.NewDir | codemods/repomod-engine/next/13/app-directory-boilerplate/index.ts:101-104 | the new directory ends in `app` |
| AppBoilerplate.NewDirNames | codemods/repomod-engine/next/13/app-directory-boilerplate/index.ts:101-104 | the new directory's names are the old ones with the last replaced by `app` |
| AppBoilerplate.Tagged | codemods/repomod-engine/next/13/app-directory-boilerplate/index.ts:139-166 | the purpose is set and every other option is kept |
| AppBoilerplate.RootPagesIndex | codemods/repomod-engine/next/13/app-directory-boilerplate/index.ts:92-133 | `pages/index.tsx` qualifies, and its targets are `app/layout.tsx`, `app/error.tsx`, `app/not-found.tsx` and `app/page.tsx` |
| AppBoilerplate.TargetsParseBack | codemods/repomod-engine/next/13/app-directory-boilerplate/index.ts:107-133 | every target parses back to the new directory, its own name and `.tsx` |
| AppBoilerplate.NeverRouteLayout | codemods/repomod-engine/next/13/app-directory-boilerplate/index.ts:135-168 | no emitted file is ever tagged `ROUTE_LAYOUT` |
| AppBoilerplate.PagesIndexBoilerplate | codemods/repomod-engine/next/13/app-directory-boilerplate/index.ts:92-195 | end to end, layout, error and not-found get their content and the page is a noop |
| ReactRouter.RewriteAttributes | react-router/6/redirect-to-navigate/index.ts:54-70 | without `push`, one `replace` is appended if a list exists; with `push`, only named attributes other than `push` remain, and spreads are dropped |
| ReactRouter.NoRedirectLeft | react-router/6/redirect-to-navigate/index.ts:43-52 | no `<Redirect>` is left after the rewrite |
| ReactRouter.RewriteIdempotent | react-router/6/redirect-to-navigate/index.ts:43-70 | rewriting twice is rewriting once |
| ReactRouter.AsWrittenMismatchesClosingTag | react-router/6/redirect-to-navigate/index.ts:50-52 | as written, `<Redirect to="/"></Redirect>` becomes `<Navigate to="/" replace></Redirect>` |
| ReactRouter.RewriteKeepsWellFormed | react-router/6/redirect-to-navigate/index.ts:50-52 | the corrected rewrite keeps every closing tag matching its element |
| ReactRouter.TransformAsWritten | react-router/6/redirect-to-navigate/index.ts:41-77 | as written, `transform` always returns undefined |
| ReactRouter.AsWrittenDropsRewrite | react-router/6/redirect-to-navigate/index.ts:41-77 | a file with a `<Redirect>` is rewritten, yet reported unchanged |
| ReactRouter.TransformIffChanged | react-router/6/redirect-to-navigate/index.ts:73-77 | the corrected `transform` returns a file exactly when the rewrite changed it |
| Ember.ReplaceLeavesNoMatch | ember/5/app-controller-router-props/index.js:34-42 | after the rewrite no `this.currentRouteName` is left, since the new object is not `this` |
| Ember.ReplaceWithoutMatch | ember/5/app-controller-router-props/index.js:12-17 | an expression without a match is left as it is |
| Ember.ReplaceBodyLeavesNoMatch | ember/5/app-controller-router-props/index.js:12-43 | no statement of the rewritten file matches |
| Ember.PrependRouter | ember/5/app-controller-router-props/index.js:20-32 | `router: service('router')` is prepended to the first argument of a default export; a default export without an object first argument throws |
| Ember.PrependTimesStacks | ember/5/app-controller-router-props/index.js:19-32 | k rounds give k leading router properties, with no deduplication |
| Ember.AsWrittenDuplicatesRouter | ember/5/app-controller-router-props/index.js:19-43 | two occurrences give two identical router properties |
| Ember.TransformAsWritten | ember/5/app-controller-router-props/index.js:45 | the printed source is returned even with zero matches |
| Ember.RewriteAddsOneRouter | ember/5/app-controller-router-props/index.js:19-43 | for a controller default export among other statements such as imports, the corrected rewrite adds exactly one router property to it and leaves no match anywhere |
| Ember.SecondRunChangesNothing | ember/5/app-controller-router-props/index.js:12-45 | a rewritten file has no match left, so a second run prepends nothing |

## Left out

- Parsing and printing (`j(source)`, `toSource`, `deepCloneCollection`) are function parameters. The template strings and content constants are placeholders.
- Expressions are a small tree. Only top-level statements, return arguments, object properties, parameters and nested arrow functions are modelled. Other AST surgery is reduced to its decision outputs: the task, import and alias it spawns, and its changed flag. This covers the `getData` return rewriting, the parameter rewriting in `addGetDataVariableDeclaration` and the type-alias nodes.
- `SearchParams` models `useSearchParams()` calls as a flat list of callees. The nesting of calls inside the file is not modelled.
- `async`/`await`, `console.log` and the logging-only `findComponentFunctionDefinition` of the jscodeshift codemod: they have no effect on the result.
- The repomod engine (`executeFilemod`, include/exclude globs, the file system): it is not part of this model. Two interleavings of `handleFile` and `handleData` are modelled instead.
- `Paths.JoinPath`: it does not resolve `..` segments or keep trailing slashes, which Node's `join` does.
- `Paths.ParsePath`: trailing slashes are not stripped before the base is taken, as `posix.parse` strips them.
- `StaticPropsEdits.ImportMatches`: parsed import sources are taken to be `StringLiteral` nodes, as the TSX parser the tests use produces. With a parser that yields `Literal` nodes the guard never matches.
- `StaticProps.RevalidateTasks`: `parseInt` on non-integer numeric literals is not modelled; `revalidate` is a natural number.
- `Common.UpperAscii`: `toUpperCase` is modelled on ASCII letters only.
- `ReactRedux.SettingsFrom`: `String(…)` of a non-string option is not modelled; the options map holds strings.
- `StaticProps.AwaitGetData`: only the parameter, body kind and await flag of the component are modelled, not the inserted statement itself.
- The `includeParams` setting of `next/13/remove-get-static-props` is left out. The source computes it but no rule reads it.
- `Ember.RewriteAsWritten`: the source prepends inside the replacement callback, once per match. The model does all the prepending first, then all the replacement. The two touch disjoint nodes, because the router property holds no match.
- Tests whose implementations are absent are not modelled: `cal.com/app-directory-boilerplate-calcom/test.ts`, `next/13/replace-next-head-v2/test.ts`, `next/13/upsert-use-client-directive/test.ts` and `ember/5/cp-property/test.ts`.

## Findings

| source | as written | input that shows it | evidently intended | confidence | as-written member | corrected member |
|---|---|---|---|---|---|---|
| react-router/6/redirect-to-navigate/index.ts:41 | `dirtyFlag` is a constant `false`, so `transform` always returns `undefined` and the rewrite is discarded | a file holding `<Redirect to="/"></Redirect>` | return the printed file when a `<Redirect>` was rewritten | high; not executed | ReactRouter.AsWrittenDropsRewrite | ReactRouter.TransformIffChanged |
| react-router/6/redirect-to-navigate/index.ts:50-52 | only the opening element is renamed | `<Redirect to="/"></Redirect>` becomes `<Navigate to="/" replace></Redirect>` | rename the closing element too | high; not executed | ReactRouter.AsWrittenMismatchesClosingTag | ReactRouter.RewriteKeepsWellFormed |
| ember/5/app-controller-router-props/index.js:19-32 | the router property is prepended once per replaced occurrence | a controller reading `this.currentRouteName` twice gets two `router: service('router')` properties | prepend one router property when anything matched | high; not executed | Ember.AsWrittenDuplicatesRouter | Ember.RewriteAddsOneRouter |

=== FILE: app_boilerplate.dfy ===
/** The `next/13/app-directory-boilerplate` repomod: for a `pages/index`
    file it asks for four files in a sibling `app` directory (`layout`,
    `error`, `not-found` and `page`, all `.tsx`), each tagged with its
    purpose, and `handleData` fills a tagged file with the boilerplate for
    that purpose. */
module AppBoilerplate {
  import opened Common
  import opened Commands
  import opened Paths

  datatype FilePurpose = RootLayout | RootError | RootPage | RootNotFound | RouteLayout

  /** The string value of the purpose enum. */
  function Tag(p: FilePurpose): string {
    match p
    case RootLayout => "ROOT_LAYOUT"
    case RootError => "ROOT_ERROR"
    case RootPage => "ROOT_PAGE"
    case RootNotFound => "ROOT_NOT_FOUND"
    case RouteLayout => "ROUTE_LAYOUT"
  }

  lemma TagInjective(p: FilePurpose, q: FilePurpose)
    ensures Tag(p) == Tag(q) <==> p == q
  {
  }

  const FilePurposeKey := "filePurpose"
  const Extension := ".tsx"

  /** Stand-ins for the four boilerplate templates. */
  const RootLayoutContent := "export default function RootLayout({ children }) { /* ... */ }"
  const RootErrorContent := "'use client'; export default function Error({ error, reset }) { /* ... */ }"
  const RootNotFoundContent := "export default function NotFound() { return null; }"
  const RouteLayoutContent := "export default function Layout({ children, params }) { /* ... */ }"

  /** The purpose-to-content map; `ROOT_PAGE` has no entry. */
  const ContentMap: map<string, string> := map[
    Tag(RootLayout) := RootLayoutContent,
    Tag(RootError) := RootErrorContent,
    Tag(RootNotFound) := RootNotFoundContent,
    Tag(RouteLayout) := RouteLayoutContent]

  lemma ContentMapKeys()
    ensures forall p :: Tag(p) in ContentMap <==> p != RootPage
  {
    forall p ensures Tag(p) in ContentMap <==> p != RootPage {
      if p == RootPage {
        assert Tag(p) != Tag(RootLayout) && Tag(p) != Tag(RootError);
        assert Tag(p) != Tag(RootNotFound) && Tag(p) != Tag(RouteLayout);
      }
    }
  }

  // ---------------------------------------------------------------------------
  // Directory names.

  /** A join ends with its last part. */
  lemma {:induction false} JoinSnoc(parts: seq<string>, last: string, sep: char)
    ensures |Join(parts + [last], sep)| >= |last|
    ensures Join(parts + [last], sep)[|Join(parts + [last], sep)| - |last|..] == last
    decreases |parts|
  {
    if parts != [] {
      assert (parts + [last])[1..] == parts[1..] + [last];
      JoinSnoc(parts[1..], last, sep);
    }
  }

  /** The directory names of a parsed path. */
  function DirectoryNames(path: string): (r: seq<string>)
    ensures |r| >= 1
    ensures forall i | 0 <= i < |r| :: '/' !in r[i]
  {
    Split(ParsePath(path).dir, '/')
  }

  /** The last directory name is `pages` (`lastIndexOf('pages')` is the last index). */
  predicate EndsWithPages(path: string) {
    var names := DirectoryNames(path);
    names[|names| - 1] == "pages"
  }

  /** The file is a `pages/index` file. */
  predicate IsPagesIndex(path: string) {
    EndsWithPages(path) && ParsePath(path).name == "index"
  }

  /** The directory with its last name replaced by `app`. */
  function NewDir(path: string): (r: string)
    ensures |r| >= 3 && r[|r| - 3..] == "app"
  {
    var names := DirectoryNames(path);
    JoinSnoc(names[..|names| - 1], "app", '/');
    Join(names[..|names| - 1] + ["app"], '/')
  }

  /** The new directory's names are the old ones with the last replaced by `app`. */
  lemma NewDirNames(path: string)
    ensures var names := DirectoryNames(path);
            Split(NewDir(path), '/') == names[..|names| - 1] + ["app"]
  {
    ReplacedLastSplitsBack(DirectoryNames(path));
  }

  /** Slash-free names with the last replaced by `app`, joined and split again. */
  lemma ReplacedLastSplitsBack(names: seq<string>)
    requires |names| >= 1 && forall i | 0 <= i < |names| :: '/' !in names[i]
    ensures Split(Join(names[..|names| - 1] + ["app"], '/'), '/') == names[..|names| - 1] + ["app"]
  {
    var parts := names[..|names| - 1] + ["app"];
    forall i | 0 <= i < |parts| ensures '/' !in parts[i] {
      if i < |names| - 1 {
        assert parts[i] == names[i];
      } else {
        assert parts[i] == "app";
      }
    }
    SplitJoin(parts, '/');
  }

  /** The four files, in the order they are asked for. */
  const Names: seq<string> := ["layout", "error", "not-found", "page"]
  const Purposes: seq<FilePurpose> := [RootLayout, RootError, RootNotFound, RootPage]

  /** `{ ...options, filePurpose: p }` */
  function Tagged(options: Options, p: FilePurpose): (r: Options)
    ensures FilePurposeKey in r && r[FilePurposeKey] == Text(Tag(p))
    ensures TextOption(r, FilePurposeKey) == Some(Tag(p))
    ensures forall k | k in options && k != FilePurposeKey :: k in r && r[k] == options[k]
  {
    options[FilePurposeKey := Text(Tag(p))]
  }

  /** The four tagged upserts into directory `dir`. */
  function Upserts(root: string, dir: string, options: Options): (r: seq<FileCommand>)
    ensures |r| == 4
    ensures forall i | 0 <= i < 4 ::
              r[i].path == FormatPath(root, dir, Names[i], Extension) && r[i].options == Tagged(options, Purposes[i])
  {
    seq(4, i requires 0 <= i < 4 => UpsertFile(FormatPath(root, dir, Names[i], Extension), Tagged(options, Purposes[i])))
  }

  /** `handleFile`: four upserts into the sibling `app` directory for a
      `pages/index` file, none otherwise. */
  function HandleFile(path: string, options: Options): (r: seq<FileCommand>)
    ensures r != [] <==> IsPagesIndex(path)
    ensures r != [] ==> r == Upserts(ParsePath(path).root, NewDir(path), options)
  {
    if IsPagesIndex(path) then Upserts(ParsePath(path).root, NewDir(path), options) else []
  }

  lemma TargetParses(root: string, dir: string, i: nat)
    requires |root| <= 1 && |dir| >= 3 && i < 4
    ensures var p := ParsePath(FormatPath(root, dir, Names[i], Extension));
            p.dir == dir && p.name == Names[i] && p.ext == Extension
  {
    var n := Names[i];
    assert n != "" && '.' !in n && '/' !in n;
    assert IsExtension(Extension) by {
      assert Extension[1..] == "tsx";
    }
    ParseFormat(root, dir, n, Extension);
  }

  /** Each of the four commands parses back to `dir`, its own name and `.tsx`. */
  predicate ParsesBackTo(cmds: seq<FileCommand>, dir: string)
    requires |cmds| == 4
  {
    forall i | 0 <= i < 4 ::
      var p := ParsePath(cmds[i].path);
      p.dir == dir && p.name == Names[i] && p.ext == Extension
  }

  lemma UpsertsParseBack(root: string, dir: string, options: Options)
    requires |root| <= 1 && |dir| >= 3
    ensures ParsesBackTo(Upserts(root, dir, options), dir)
  {
    var r := Upserts(root, dir, options);
    forall i | 0 <= i < 4
      ensures ParsePath(r[i].path).dir == dir
      ensures ParsePath(r[i].path).name == Names[i]
      ensures ParsePath(r[i].path).ext == Extension
    {
      TargetParses(root, dir, i);
    }
  }

  /** A `pages/index` file gets the four upserts into a directory of at least three characters under a root of at most one. */
  lemma PagesIndexUpserts(path: string, options: Options)
    requires IsPagesIndex(path)
    ensures HandleFile(path, options) == Upserts(ParsePath(path).root, NewDir(path), options)
    ensures |ParsePath(path).root| <= 1 && |NewDir(path)| >= 3
  {
  }

  /** Every target parses back to the new directory, its own name and `.tsx`. */
  lemma TargetsParseBack(path: string, options: Options)
    requires IsPagesIndex(path)
    ensures |HandleFile(path, options)| == 4 && ParsesBackTo(HandleFile(path, options), NewDir(path))
  {
    PagesIndexUpserts(path, options);
    UpsertsParseBack(ParsePath(path).root, NewDir(path), options);
  }

  lemma UpsertsPurposes(root: string, dir: string, options: Options)
    ensures forall i | 0 <= i < 4 :: TextOption(Upserts(root, dir, options)[i].options, FilePurposeKey) == Some(Tag(Purposes[i]))
  {
  }

  lemma UpsertsNotRouteLayout(root: string, dir: string, options: Options)
    ensures forall i | 0 <= i < 4 :: TextOption(Upserts(root, dir, options)[i].options, FilePurposeKey) != Some(Tag(RouteLayout))
  {
    UpsertsPurposes(root, dir, options);
    forall i | 0 <= i < 4
      ensures Tag(Purposes[i]) != Tag(RouteLayout)
    {
      TagInjective(Purposes[i], RouteLayout);
    }
  }

  /** No file is ever tagged as a route layout. */
  lemma {:induction false} NeverRouteLayout(path: string, options: Options)
    ensures forall i | 0 <= i < |HandleFile(path, options)| ::
              TextOption(HandleFile(path, options)[i].options, FilePurposeKey) != Some(Tag(RouteLayout))
  {
    if IsPagesIndex(path) {
      UpsertsNotRouteLayout(ParsePath(path).root, NewDir(path), options);
    }
  }

  /** `handleData`: the content for a known purpose, a no-op when there is
      no string purpose or no content for it. */
  function HandleData(path: string, options: Options): (r: DataCommand)
    ensures TextOption(options, FilePurposeKey).None? ==> r == Noop
    ensures r.UpsertData? <==> TextOption(options, FilePurposeKey).Some? && TextOption(options, FilePurposeKey).value in ContentMap
    ensures r.UpsertData? ==> r.path == path && r.data == ContentMap[TextOption(options, FilePurposeKey).value]
  {
    match TextOption(options, FilePurposeKey)
    case None => Noop
    case Some(p) => if p in ContentMap then UpsertData(path, ContentMap[p]) else Noop
  }

  lemma UpsertsFilled(root: string, dir: string, options: Options)
    ensures var r := Upserts(root, dir, options);
            HandleData(r[0].path, r[0].options) == UpsertData(r[0].path, RootLayoutContent)
            && HandleData(r[1].path, r[1].options) == UpsertData(r[1].path, RootErrorContent)
            && HandleData(r[2].path, r[2].options) == UpsertData(r[2].path, RootNotFoundContent)
            && HandleData(r[3].path, r[3].options) == Noop
  {
    ContentMapKeys();
    UpsertsPurposes(root, dir, options);
  }

  /** The repomod end to end on a `pages/index` file: layout, error and
      not-found get their boilerplate at their new paths, and the page is
      left alone. */
  lemma {:induction false} PagesIndexBoilerplate(path: string, options: Options)
    requires IsPagesIndex(path)
    ensures var r := HandleFile(path, options);
            |r| == 4
            && HandleData(r[0].path, r[0].options) == UpsertData(r[0].path, RootLayoutContent)
            && HandleData(r[1].path, r[1].options) == UpsertData(r[1].path, RootErrorContent)
            && HandleData(r[2].path, r[2].options) == UpsertData(r[2].path, RootNotFoundContent)
            && HandleData(r[3].path, r[3].options) == Noop
  {
    UpsertsFilled(ParsePath(path).root, NewDir(path), options);
  }

  const RootIndex := "pages/index.tsx"

  lemma RootIndexParses()
    ensures ParsePath(RootIndex).root == "" && ParsePath(RootIndex).dir == "pages"
    ensures ParsePath(RootIndex).name == "index"
  {
    assert IsExtension(Extension) by {
      assert Extension[1..] == "tsx";
    }
    assert FormatPath("", "pages", "index", Extension) == RootIndex;
    ParseFormat("", "pages", "index", Extension);
  }

  lemma RootIndexNewDir()
    ensures IsPagesIndex(RootIndex) && NewDir(RootIndex) == "app"
  {
    RootIndexParses();
    assert '/' !in "pages";
    assert DirectoryNames(RootIndex) == ["pages"];
  }

  lemma AppTarget(name: string, path: string)
    requires path == "app/" + name + Extension
    ensures FormatPath("", "app", name, Extension) == path
  {
  }

  lemma AppTargets(options: Options)
    ensures var r := Upserts("", "app", options);
            r[0].path == "app/layout.tsx" && r[1].path == "app/error.tsx"
            && r[2].path == "app/not-found.tsx" && r[3].path == "app/page.tsx"
  {
    AppTarget("layout", "app/layout.tsx");
    AppTarget("error", "app/error.tsx");
    AppTarget("not-found", "app/not-found.tsx");
    AppTarget("page", "app/page.tsx");
  }

  /** `pages/index.tsx` is a `pages/index` file, and its four targets are
      `app/layout.tsx`, `app/error.tsx`, `app/not-found.tsx` and `app/page.tsx`. */
  lemma RootPagesIndex(options: Options)
    ensures IsPagesIndex(RootIndex)
    ensures var r := HandleFile(RootIndex, options);
            |r| == 4 && r[0].path == "app/layout.tsx" && r[1].path == "app/error.tsx"
            && r[2].path == "app/not-found.tsx" && r[3].path == "app/page.tsx"
  {
    RootIndexParses();
    RootIndexNewDir();
    AppTargets(options);
  }
}

=== FILE: common.dfy ===
/** Small building blocks shared by every codemod model: an optional value, a
    result that can carry a thrown error, the array searches the codemods use,
    and string split/join on a one-character separator. */
module Common {

  /** `undefined`/`null` versus a present value. */
  datatype Option<+T> = None | Some(value: T) {
    function GetOr(default: T): T {
      match this
      case Some(v) => v
      case None => default
    }
  }

  /** A computation that either returns a value or throws an `Error` with a message. */
  datatype Result<+T> = Ok(value: T) | Thrown(message: string)

  /** `findLastIndex`: the greatest index whose element satisfies `p`, or -1. */
  function FindLastIndex<T>(s: seq<T>, p: T -> bool): (r: int)
    ensures -1 <= r < |s|
    ensures r >= 0 ==> p(s[r])
    ensures forall i | r < i < |s| :: !p(s[i])
    decreases |s|
  {
    if s == [] then -1
    else if p(s[|s| - 1]) then |s| - 1
    else FindLastIndex(s[..|s| - 1], p)
  }

  /** `Array.prototype.findIndex`: the least index whose element satisfies `p`, or -1. */
  function FindIndex<T>(s: seq<T>, p: T -> bool): (r: int)
    ensures -1 <= r < |s|
    ensures r >= 0 ==> p(s[r])
    ensures forall i | 0 <= i < |s| && (r == -1 || i < r) :: !p(s[i])
    decreases |s|
  {
    if s == [] then -1
    else if p(s[0]) then 0
    else
      var k := FindIndex(s[1..], p);
      if k == -1 then -1 else k + 1
  }

  /** Last-match-plus-one anchor: the insertion index one past the last element
      satisfying `p`, or 0 when nothing matches. */
  function AnchorAfterLast<T>(s: seq<T>, p: T -> bool): (r: nat)
    ensures r <= |s|
    ensures r == 0 <==> forall i | 0 <= i < |s| :: !p(s[i])
    ensures r > 0 ==> p(s[r - 1])
    ensures forall i | r <= i < |s| :: !p(s[i])
  {
    FindLastIndex(s, p) + 1
  }

  /** `s.splice(k, 0, xs...)`. */
  function InsertAt<T>(s: seq<T>, k: nat, xs: seq<T>): (r: seq<T>)
    requires k <= |s|
    ensures |r| == |s| + |xs|
    ensures r[..k] == s[..k] && r[k..k + |xs|] == xs && r[k + |xs|..] == s[k..]
    ensures multiset(r) == multiset(s) + multiset(xs)
  {
    assert s == s[..k] + s[k..];
    s[..k] + xs + s[k..]
  }

  /** `s.splice(k, 1)` applied to a copy. */
  function RemoveAt<T>(s: seq<T>, k: nat): (r: seq<T>)
    requires k < |s|
    ensures |r| == |s| - 1
    ensures multiset(r) + multiset{s[k]} == multiset(s)
  {
    assert s == s[..k] + [s[k]] + s[k + 1..];
    s[..k] + s[k + 1..]
  }

  // Sequence facts the proofs cite by name.

  lemma SplitAt<T>(s: seq<T>, k: nat)
    requires k <= |s|
    ensures s[..k] + s[k..] == s
  {
  }

  lemma DropOne<T>(s: seq<T>, i: nat)
    requires i < |s|
    ensures s[i..] == [s[i]] + s[i + 1..]
  {
  }

  lemma ConcatAssoc<T>(a: seq<T>, b: seq<T>, c: seq<T>)
    ensures a + b + c == a + (b + c)
  {
  }

  /** Keeps the elements satisfying `p`, in order (`Array.prototype.filter`). */
  function Filter<T>(s: seq<T>, p: T -> bool): (r: seq<T>)
    ensures |r| <= |s|
    ensures forall x | x in r :: x in s && p(x)
    ensures forall x | x in s && p(x) :: x in r
    decreases |s|
  {
    if s == [] then []
    else (if p(s[0]) then [s[0]] else []) + Filter(s[1..], p)
  }

  lemma {:induction false} FilterAppend<T>(a: seq<T>, b: seq<T>, p: T -> bool)
    ensures Filter(a + b, p) == Filter(a, p) + Filter(b, p)
    decreases |a|
  {
    if a == [] {
      assert a + b == b;
    } else {
      assert (a + b)[0] == a[0];
      assert (a + b)[1..] == a[1..] + b;
      FilterAppend(a[1..], b, p);
    }
  }

  /** Filtering keeps a sequence whose every element passes. */
  lemma {:induction false} FilterKeepsAll<T>(s: seq<T>, p: T -> bool)
    requires forall i | 0 <= i < |s| :: p(s[i])
    ensures Filter(s, p) == s
    decreases |s|
  {
    if s != [] {
      assert forall i | 0 <= i < |s[1..]| :: s[1..][i] == s[i + 1];
      FilterKeepsAll(s[1..], p);
    }
  }

  /** The concatenation of `f` over the elements, in order (`Array.prototype.flatMap`). */
  function FlatMap<A, B>(f: A -> seq<B>, xs: seq<A>): seq<B>
    decreases |xs|
  {
    if xs == [] then [] else f(xs[0]) + FlatMap(f, xs[1..])
  }

  /** The `m`-th element of `f(xs[j])` appears in the flat map, at index `p`. */
  lemma {:induction false} FlatMapHolds<A, B>(f: A -> seq<B>, xs: seq<A>, j: nat, m: nat) returns (p: nat)
    requires j < |xs| && m < |f(xs[j])|
    ensures p < |FlatMap(f, xs)| && FlatMap(f, xs)[p] == f(xs[j])[m]
    decreases |xs|
  {
    if j == 0 {
      p := m;
    } else {
      assert xs[1..][j - 1] == xs[j];
      var q := FlatMapHolds(f, xs[1..], j - 1, m);
      p := |f(xs[0])| + q;
    }
  }

  /** Number of elements satisfying `p`. */
  function Count<T>(s: seq<T>, p: T -> bool): nat
    decreases |s|
  {
    if s == [] then 0 else (if p(s[0]) then 1 else 0) + Count(s[1..], p)
  }

  lemma {:induction false} CountZero<T>(s: seq<T>, p: T -> bool)
    ensures Count(s, p) == 0 <==> forall i | 0 <= i < |s| :: !p(s[i])
    decreases |s|
  {
    if s != [] {
      CountZero(s[1..], p);
      assert forall i | 1 <= i < |s| :: s[i] == s[1..][i - 1];
    }
  }

  lemma {:induction false} CountAppend<T>(a: seq<T>, b: seq<T>, p: T -> bool)
    ensures Count(a + b, p) == Count(a, p) + Count(b, p)
    decreases |a|
  {
    if a != [] {
      assert (a + b)[0] == a[0];
      assert (a + b)[1..] == a[1..] + b;
      CountAppend(a[1..], b, p);
      assert Count(a + b, p) == (if p(a[0]) then 1 else 0) + Count(a[1..] + b, p);
    } else {
      assert a + b == b;
    }
  }

  // ---------------------------------------------------------------------------
  // String split/join on one separator character (`String.prototype.split`
  // with a one-character string, `Array.prototype.join`).

  /** Index of the first occurrence of `c` in `s`, when there is one. */
  function IndexOf(s: string, c: char): (r: nat)
    requires c in s
    ensures r < |s| && s[r] == c && c !in s[..r]
  {
    if s[0] == c then 0 else IndexOf(s[1..], c) + 1
  }

  function Join(parts: seq<string>, sep: char): string
    decreases |parts|
  {
    if |parts| == 0 then ""
    else if |parts| == 1 then parts[0]
    else parts[0] + [sep] + Join(parts[1..], sep)
  }

  /** `s.split(sep)`: always at least one part, no part holds the separator,
      and joining the parts back gives `s`. */
  function Split(s: string, sep: char): (parts: seq<string>)
    ensures |parts| >= 1
    ensures forall i | 0 <= i < |parts| :: sep !in parts[i]
    ensures Join(parts, sep) == s
    decreases |s|
  {
    if sep !in s then [s]
    else
      var i := IndexOf(s, sep);
      var rest := Split(s[i + 1..], sep);
      assert s == s[..i] + [sep] + s[i + 1..];
      [s[..i]] + rest
  }

  /** Splitting a join of separator-free parts recovers the parts. */
  lemma {:induction false} SplitJoin(parts: seq<string>, sep: char)
    requires |parts| >= 1
    requires forall i | 0 <= i < |parts| :: sep !in parts[i]
    ensures Split(Join(parts, sep), sep) == parts
    decreases |parts|
  {
    if |parts| == 1 {
    } else {
      var s := Join(parts, sep);
      var tail := Join(parts[1..], sep);
      assert s == parts[0] + [sep] + tail;
      assert sep in s by { assert s[|parts[0]|] == sep; }
      var i := IndexOf(s, sep);
      assert s[..|parts[0]|] == parts[0];
      assert s[|parts[0]|] == sep;
      assert i == |parts[0]|;
      assert s[..i] == parts[0];
      assert s[i + 1..] == tail;
      SplitJoin(parts[1..], sep);
      assert Split(s, sep) == [parts[0]] + Split(tail, sep);
    }
  }

  // ---------------------------------------------------------------------------
  // ASCII letter case (the only part of `toUpperCase` the models rely on).

  /** The capital of a lower-case ASCII letter: the same place in the alphabet. */
  function UpperAscii(c: char): (r: char)
    ensures 'a' <= c <= 'z' ==> 'A' <= r <= 'Z' && r as int - 'A' as int == c as int - 'a' as int
    ensures !('a' <= c <= 'z') ==> r == c
  {
    if 'a' <= c <= 'z' then (c as int - 32) as char else c
  }

  /** Upper-cases the first character (`i == 0 ? c.toUpperCase() : c`). */
  function CapitalizeFirst(s: string): (r: string)
    ensures |r| == |s|
    ensures |s| > 0 ==> r[0] == UpperAscii(s[0]) && r[1..] == s[1..]
  {
    if s == [] then [] else [UpperAscii(s[0])] + s[1..]
  }
}

=== FILE: ember.dfy ===
/** The `ember/5/app-controller-router-props` codemod: every
    `this.currentRouteName` becomes `this.router.currentRouteName`, and for
    each one replaced a `router: service('router')` property is put first in
    the object passed to every `export default` call
    (`Controller.extend({ ... })`). */
module Ember {
  import opened Common

  datatype Expr =
    | ThisExpr
    | Identifier(name: string)
    | StringLiteral(value: string)
    | Member(object: Expr, property: string)
    | CallExpr(callee: Expr, arguments: seq<Expr>)
    | ObjectExpr(properties: seq<Prop>)
    | OtherExpr(children: seq<Expr>)

  datatype Prop = Prop(key: string, value: Expr)

  /** A top-level statement: `export default <declaration>` or any other
      statement with the expressions under it. */
  datatype Stmt = ExportDefault(declaration: Expr) | Statement(exprs: seq<Expr>)

  /** `router: service('router')` */
  const RouterProp := Prop("router", CallExpr(Identifier("service"), [StringLiteral("router")]))

  /** `this.currentRouteName`, what the query matches. */
  const Match := Member(ThisExpr, "currentRouteName")

  /** `this.router.currentRouteName`, what it is replaced with. */
  const Replacement := Member(Member(ThisExpr, "router"), "currentRouteName")

  // ---------------------------------------------------------------------------
  // Matches and their replacement.

  /** The number of `this.currentRouteName` occurrences under `e`. */
  function Matches(e: Expr): nat
    decreases e
  {
    (if e == Match then 1 else 0) +
    match e
    case Member(o, _) => Matches(o)
    case CallExpr(c, args) => Matches(c) + MatchesAll(args)
    case ObjectExpr(ps) => MatchesProps(ps)
    case OtherExpr(cs) => MatchesAll(cs)
    case _ => 0
  }

  function MatchesAll(es: seq<Expr>): nat
    decreases es
  {
    if es == [] then 0 else Matches(es[0]) + MatchesAll(es[1..])
  }

  function MatchesProps(ps: seq<Prop>): nat
    decreases ps
  {
    if ps == [] then 0 else Matches(ps[0].value) + MatchesProps(ps[1..])
  }

  function MatchesStmt(s: Stmt): nat {
    match s
    case ExportDefault(d) => Matches(d)
    case Statement(es) => MatchesAll(es)
  }

  function MatchesBody(body: seq<Stmt>): nat
    decreases |body|
  {
    if body == [] then 0 else MatchesStmt(body[0]) + MatchesBody(body[1..])
  }

  /** Every match replaced. */
  function Replace(e: Expr): Expr
    decreases e
  {
    if e == Match then Replacement
    else match e
    case Member(o, p) => Member(Replace(o), p)
    case CallExpr(c, args) => CallExpr(Replace(c), ReplaceAll(args))
    case ObjectExpr(ps) => ObjectExpr(ReplaceProps(ps))
    case OtherExpr(cs) => OtherExpr(ReplaceAll(cs))
    case _ => e
  }

  function ReplaceAll(es: seq<Expr>): (r: seq<Expr>)
    ensures |r| == |es|
    decreases es
  {
    if es == [] then [] else [Replace(es[0])] + ReplaceAll(es[1..])
  }

  function ReplaceProps(ps: seq<Prop>): (r: seq<Prop>)
    ensures |r| == |ps|
    decreases ps
  {
    if ps == [] then [] else [Prop(ps[0].key, Replace(ps[0].value))] + ReplaceProps(ps[1..])
  }

  function ReplaceStmt(s: Stmt): Stmt {
    match s
    case ExportDefault(d) => ExportDefault(Replace(d))
    case Statement(es) => Statement(ReplaceAll(es))
  }

  function ReplaceBody(body: seq<Stmt>): (r: seq<Stmt>)
    ensures |r| == |body| && forall i | 0 <= i < |body| :: r[i] == ReplaceStmt(body[i])
  {
    seq(|body|, i requires 0 <= i < |body| => ReplaceStmt(body[i]))
  }

  /** After the replacement nothing matches: the new member expression's
      object is not `this`. */
  lemma {:induction false} ReplaceLeavesNoMatch(e: Expr)
    ensures Matches(Replace(e)) == 0
    decreases e, 2
  {
    if e == Match {
      assert Matches(Replacement) == Matches(Member(ThisExpr, "router"));
    } else {
      match e
      case Member(o, _) => ReplaceLeavesNoMatch(o);
      case CallExpr(c, args) => ReplaceLeavesNoMatch(c); ReplaceAllLeavesNoMatch(args);
      case ObjectExpr(ps) => ReplacePropsLeavesNoMatch(ps);
      case OtherExpr(cs) => ReplaceAllLeavesNoMatch(cs);
      case _ =>
    }
  }

  lemma {:induction false} ReplaceAllLeavesNoMatch(es: seq<Expr>)
    ensures MatchesAll(ReplaceAll(es)) == 0
    decreases es, 1
  {
    if es != [] {
      ReplaceLeavesNoMatch(es[0]);
      ReplaceAllLeavesNoMatch(es[1..]);
      assert ReplaceAll(es)[1..] == ReplaceAll(es[1..]);
    }
  }

  lemma {:induction false} ReplacePropsLeavesNoMatch(ps: seq<Prop>)
    ensures MatchesProps(ReplaceProps(ps)) == 0
    decreases ps, 1
  {
    if ps != [] {
      ReplaceLeavesNoMatch(ps[0].value);
      ReplacePropsLeavesNoMatch(ps[1..]);
      assert ReplaceProps(ps)[1..] == ReplaceProps(ps[1..]);
    }
  }

  lemma {:induction false} ReplaceBodyLeavesNoMatch(body: seq<Stmt>)
    ensures MatchesBody(ReplaceBody(body)) == 0
    decreases |body|
  {
    if body != [] {
      if body[0].ExportDefault? {
        ReplaceLeavesNoMatch(body[0].declaration);
      } else {
        ReplaceAllLeavesNoMatch(body[0].exprs);
      }
      ReplaceBodyLeavesNoMatch(body[1..]);
      assert ReplaceBody(body)[1..] == ReplaceBody(body[1..]);
    }
  }

  /** Without a match the replacement changes nothing. */
  lemma {:induction false} ReplaceWithoutMatch(e: Expr)
    requires Matches(e) == 0
    ensures Replace(e) == e
    decreases e, 2
  {
    match e
    case Member(o, _) => ReplaceWithoutMatch(o);
    case CallExpr(c, args) => ReplaceWithoutMatch(c); ReplaceAllWithoutMatch(args);
    case ObjectExpr(ps) => ReplacePropsWithoutMatch(ps);
    case OtherExpr(cs) => ReplaceAllWithoutMatch(cs);
    case _ =>
  }

  lemma {:induction false} ReplaceAllWithoutMatch(es: seq<Expr>)
    requires MatchesAll(es) == 0
    ensures ReplaceAll(es) == es
    decreases es, 1
  {
    if es != [] {
      ReplaceWithoutMatch(es[0]);
      ReplaceAllWithoutMatch(es[1..]);
    }
  }

  lemma {:induction false} ReplacePropsWithoutMatch(ps: seq<Prop>)
    requires MatchesProps(ps) == 0
    ensures ReplaceProps(ps) == ps
    decreases ps, 1
  {
    if ps != [] {
      ReplaceWithoutMatch(ps[0].value);
      ReplacePropsWithoutMatch(ps[1..]);
    }
  }

  lemma {:induction false} ReplaceBodyWithoutMatch(body: seq<Stmt>)
    requires MatchesBody(body) == 0
    ensures ReplaceBody(body) == body
    decreases |body|
  {
    if body != [] {
      if body[0].ExportDefault? {
        ReplaceWithoutMatch(body[0].declaration);
      } else {
        ReplaceAllWithoutMatch(body[0].exprs);
      }
      ReplaceBodyWithoutMatch(body[1..]);
      assert ReplaceBody(body)[0] == body[0];
      assert ReplaceBody(body)[1..] == ReplaceBody(body[1..]);
    }
  }

  // ---------------------------------------------------------------------------
  // The router property.

  /** `p.value.declaration.arguments[0].properties.unshift(router)`: a
      `TypeError` unless the declaration is a call whose first argument is
      an object literal. */
  function PrependRouter(s: Stmt): (r: Result<Stmt>)
    ensures s.Statement? ==> r == Ok(s)
    ensures r.Ok? && s.ExportDefault? ==>
              s.declaration.CallExpr? && |s.declaration.arguments| > 0 && s.declaration.arguments[0].ObjectExpr?
              && r.value.ExportDefault? && r.value.declaration.CallExpr?
              && r.value.declaration.callee == s.declaration.callee
              && |r.value.declaration.arguments| == |s.declaration.arguments|
              && r.value.declaration.arguments[1..] == s.declaration.arguments[1..]
              && r.value.declaration.arguments[0] == ObjectExpr([RouterProp] + s.declaration.arguments[0].properties)
    ensures r.Thrown? <==> s.ExportDefault? && !(s.declaration.CallExpr? && |s.declaration.arguments| > 0 && s.declaration.arguments[0].ObjectExpr?)
  {
    match s
    case Statement(_) => Ok(s)
    case ExportDefault(d) =>
      if d.CallExpr? && |d.arguments| > 0 && d.arguments[0].ObjectExpr? then
        var first := ObjectExpr([RouterProp] + d.arguments[0].properties);
        Ok(ExportDefault(CallExpr(d.callee, [first] + d.arguments[1..])))
      else Thrown("Cannot read properties of undefined")
  }

  /** The router property put first in every default export, in order. */
  function PrependEverywhere(body: seq<Stmt>): (r: Result<seq<Stmt>>)
    ensures r.Ok? ==> |r.value| == |body|
    decreases |body|
  {
    if body == [] then Ok([])
    else
      var head := PrependRouter(body[0]);
      var tail := PrependEverywhere(body[1..]);
      if head.Thrown? then Thrown(head.message)
      else if tail.Thrown? then Thrown(tail.message)
      else Ok([head.value] + tail.value)
  }

  /** Prepending over a body is prepending over its first statement, then the rest. */
  lemma PrependEverywhereCons(s: Stmt, rest: seq<Stmt>)
    ensures PrependRouter(s).Ok? && PrependEverywhere(rest).Ok? ==>
              PrependEverywhere([s] + rest) == Ok([PrependRouter(s).value] + PrependEverywhere(rest).value)
    ensures PrependRouter(s).Thrown? ==> PrependEverywhere([s] + rest).Thrown?
  {
    assert ([s] + rest)[1..] == rest;
  }

  /** `k` rounds of prepending, one per replaced occurrence. */
  function PrependTimes(body: seq<Stmt>, k: nat): Result<seq<Stmt>>
    decreases k
  {
    if k == 0 then Ok(body)
    else match PrependEverywhere(body)
      case Thrown(m) => Thrown(m)
      case Ok(b) => PrependTimes(b, k - 1)
  }

  lemma RouterPropNoMatch()
    ensures Matches(RouterProp.value) == 0
  {
    assert Matches(Identifier("service")) == 0;
    assert Matches(StringLiteral("router")) == 0;
    assert MatchesAll([StringLiteral("router")]) == 0 by {
      assert [StringLiteral("router")][1..] == [];
    }
  }

  /** How many `router` properties come first in a default export's object. */
  function LeadingRouters(ps: seq<Prop>): nat
    decreases |ps|
  {
    if ps != [] && ps[0] == RouterProp then 1 + LeadingRouters(ps[1..]) else 0
  }

  /** The first argument's properties of a well-shaped default export. */
  predicate Exported(s: Stmt) {
    s.ExportDefault? && s.declaration.CallExpr? && |s.declaration.arguments| > 0 && s.declaration.arguments[0].ObjectExpr?
  }

  function ExportedProps(s: Stmt): seq<Prop>
    requires Exported(s)
  {
    s.declaration.arguments[0].properties
  }

  /** `k` rounds put `k` router properties in front of the object's own. */
  lemma {:induction false} PrependTimesStacks(s: Stmt, k: nat)
    requires Exported(s)
    ensures PrependTimes([s], k).Ok?
    ensures var b := PrependTimes([s], k).value;
            |b| == 1 && Exported(b[0]) && |ExportedProps(b[0])| == k + |ExportedProps(s)|
            && LeadingRouters(ExportedProps(b[0])) == k + LeadingRouters(ExportedProps(s))
            && ExportedProps(b[0])[k..] == ExportedProps(s)
    decreases k
  {
    if k > 0 {
      var s' := PrependRouter(s).value;
      assert PrependEverywhere([s]) == Ok([s']) by {
        PrependEverywhereCons(s, []);
        assert [s] + [] == [s];
        assert [s'] + [] == [s'];
      }
      PrependTimesStacks(s', k - 1);
      var b := PrependTimes([s'], k - 1).value;
      assert ExportedProps(s') == [RouterProp] + ExportedProps(s);
      assert ExportedProps(b[0])[k - 1..] == ExportedProps(s');
      assert ExportedProps(b[0])[k..] == ExportedProps(s')[1..];
    }
  }

  // ---------------------------------------------------------------------------
  // `transformer`.

  /** The rewritten body as the source computes it: the replacement of
      every match, and one round of prepending per match. The two touch
      different nodes (the router property holds no match), so doing the
      rounds first gives the same tree as the source's interleaving. */
  function RewriteAsWritten(body: seq<Stmt>): Result<seq<Stmt>> {
    match PrependTimes(body, MatchesBody(body))
    case Thrown(m) => Thrown(m)
    case Ok(b) => Ok(ReplaceBody(b))
  }

  /** `transformer` as written: the printed source whenever it does not
      throw, even when nothing matched. */
  function TransformAsWritten(body: seq<Stmt>, printer: seq<Stmt> -> string): (r: Result<string>)
    ensures MatchesBody(body) == 0 ==> r == Ok(printer(body))
    ensures r.Ok? <==> RewriteAsWritten(body).Ok?
    ensures r.Ok? ==> r.value == printer(RewriteAsWritten(body).value)
  {
    match RewriteAsWritten(body)
    case Thrown(m) => Thrown(m)
    case Ok(b) =>
      if MatchesBody(body) == 0 then ReplaceBodyWithoutMatch(body); Ok(printer(b))
      else Ok(printer(b))
  }

  const Controller := ExportDefault(CallExpr(Member(Identifier("Controller"), "extend"), [ObjectExpr([])]))

  const Occurrences := Statement([Match, Match])
  const ControllerOnce := ExportDefault(CallExpr(Member(Identifier("Controller"), "extend"), [ObjectExpr([RouterProp])]))
  const ControllerTwice := ExportDefault(CallExpr(Member(Identifier("Controller"), "extend"), [ObjectExpr([RouterProp, RouterProp])]))

  lemma ExampleMatches()
    ensures MatchesBody([Controller, Occurrences]) == 2
  {
    assert Matches(Match) == 1 by {
      assert Matches(ThisExpr) == 0;
    }
    assert MatchesAll([Match]) == 1 by {
      assert [Match][1..] == [];
    }
    assert MatchesAll([Match, Match]) == 2 by {
      assert [Match, Match][1..] == [Match];
    }
    assert Matches(Member(Identifier("Controller"), "extend")) == 0 by {
      assert Matches(Identifier("Controller")) == 0;
    }
    assert MatchesAll([ObjectExpr([])]) == 0 by {
      assert Matches(ObjectExpr([])) == 0;
      assert [ObjectExpr([])][1..] == [];
    }
    assert MatchesStmt(Controller) == 0;
    assert MatchesStmt(Occurrences) == 2;
    assert MatchesBody([Occurrences]) == 2 by {
      assert [Occurrences][1..] == [];
    }
    assert [Controller, Occurrences][1..] == [Occurrences];
  }

  /** The statement holding the occurrences is not an export and is kept. */
  lemma OccurrencesKept()
    ensures PrependEverywhere([Occurrences]) == Ok([Occurrences])
  {
    PrependEverywhereCons(Occurrences, []);
    assert [Occurrences] + [] == [Occurrences];
    assert PrependRouter(Occurrences) == Ok(Occurrences);
  }

  lemma ExamplePrependOnce()
    ensures PrependEverywhere([Controller, Occurrences]) == Ok([ControllerOnce, Occurrences])
  {
    OccurrencesKept();
    assert PrependRouter(Controller) == Ok(ControllerOnce) by {
      assert Controller.declaration.arguments[1..] == [];
      assert [RouterProp] + [] == [RouterProp];
      assert [ObjectExpr([RouterProp])] + [] == [ObjectExpr([RouterProp])];
    }
    PrependEverywhereCons(Controller, [Occurrences]);
    assert [Controller, Occurrences] == [Controller] + [Occurrences];
    assert [ControllerOnce] + [Occurrences] == [ControllerOnce, Occurrences];
  }

  lemma ExamplePrependTwice()
    ensures PrependEverywhere([ControllerOnce, Occurrences]) == Ok([ControllerTwice, Occurrences])
  {
    OccurrencesKept();
    assert PrependRouter(ControllerOnce) == Ok(ControllerTwice) by {
      assert ControllerOnce.declaration.arguments[1..] == [];
      assert [RouterProp] + [RouterProp] == [RouterProp, RouterProp];
      assert [ObjectExpr([RouterProp, RouterProp])] + [] == [ObjectExpr([RouterProp, RouterProp])];
    }
    PrependEverywhereCons(ControllerOnce, [Occurrences]);
    assert [ControllerOnce, Occurrences] == [ControllerOnce] + [Occurrences];
    assert [ControllerTwice] + [Occurrences] == [ControllerTwice, Occurrences];
  }

  /** The controller with two router properties holds no match and is kept by the replacement. */
  lemma ControllerTwiceKept()
    ensures ReplaceStmt(ControllerTwice) == ControllerTwice
  {
    RouterPropNoMatch();
    assert MatchesProps([RouterProp]) == 0 by {
      assert [RouterProp][1..] == [];
    }
    assert MatchesProps([RouterProp, RouterProp]) == 0 by {
      assert [RouterProp, RouterProp][1..] == [RouterProp];
    }
    assert Matches(ObjectExpr([RouterProp, RouterProp])) == 0;
    assert MatchesAll([ObjectExpr([RouterProp, RouterProp])]) == 0 by {
      assert [ObjectExpr([RouterProp, RouterProp])][1..] == [];
    }
    assert Matches(Member(Identifier("Controller"), "extend")) == 0 by {
      assert Matches(Identifier("Controller")) == 0;
    }
    ReplaceWithoutMatch(ControllerTwice.declaration);
  }

  /** Two occurrences give two identical `router` properties in the controller. */
  lemma AsWrittenDuplicatesRouter()
    ensures var body := [Controller, Occurrences];
            MatchesBody(body) == 2
            && RewriteAsWritten(body).Ok?
            && RewriteAsWritten(body).value[0] == ControllerTwice
  {
    ExampleMatches();
    ExamplePrependOnce();
    ExamplePrependTwice();
    assert PrependTimes([Controller, Occurrences], 2) == Ok([ControllerTwice, Occurrences]);
    assert ReplaceBody([ControllerTwice, Occurrences])[0] == ReplaceStmt(ControllerTwice);
    ControllerTwiceKept();
  }

  /** The corrected rewrite: one round of prepending when anything matched. */
  function Rewrite(body: seq<Stmt>): Result<seq<Stmt>> {
    match PrependTimes(body, if MatchesBody(body) > 0 then 1 else 0)
    case Thrown(m) => Thrown(m)
    case Ok(b) => Ok(ReplaceBody(b))
  }

  /** The corrected rewrite adds exactly one `router` property to a
      controller that has occurrences, whatever their number, and leaves
      no occurrence behind; the statements around the default export
      (imports and the like) are only rewritten in place. */
  lemma RewriteAddsOneRouter(pre: seq<Stmt>, s: Stmt, rest: seq<Stmt>)
    requires Exported(s) && MatchesBody(pre + [s] + rest) > 0
    requires forall i | 0 <= i < |pre| :: pre[i].Statement?
    requires forall i | 0 <= i < |rest| :: rest[i].Statement?
    ensures Rewrite(pre + [s] + rest).Ok?
    ensures var b := Rewrite(pre + [s] + rest).value;
            |b| == |pre| + 1 + |rest|
            && Exported(b[|pre|]) && LeadingRouters(ExportedProps(b[|pre|])) >= 1
            && |ExportedProps(b[|pre|])| == 1 + |ExportedProps(s)|
            && MatchesBody(b) == 0
  {
    var body := pre + [s] + rest;
    var s' := PrependRouter(s).value;
    PrependAroundOneExport(pre, s, rest);
    assert PrependTimes(body, 1) == Ok(pre + [s'] + rest);
    var b := ReplaceBody(pre + [s'] + rest);
    ReplaceBodyLeavesNoMatch(pre + [s'] + rest);
    var props := [RouterProp] + ExportedProps(s);
    assert ExportedProps(s') == props;
    var d := s'.declaration;
    assert (pre + [s'] + rest)[|pre|] == s';
    assert b[|pre|] == ExportDefault(Replace(d));
    ReplaceKeepsRouterProp(d.callee, props, d.arguments[1..]);
  }

  /** Prepending over a body whose only default export is `s` changes `s` alone. */
  lemma {:induction false} PrependAroundOneExport(pre: seq<Stmt>, s: Stmt, rest: seq<Stmt>)
    requires Exported(s)
    requires forall i | 0 <= i < |pre| :: pre[i].Statement?
    requires forall i | 0 <= i < |rest| :: rest[i].Statement?
    ensures PrependEverywhere(pre + [s] + rest) == Ok(pre + [PrependRouter(s).value] + rest)
    decreases |pre|
  {
    if pre == [] {
      assert PrependRouter(s).Ok?;
      StatementsUnchanged(rest);
      PrependEverywhereCons(s, rest);
      assert pre + [s] + rest == [s] + rest;
      assert pre + [PrependRouter(s).value] + rest == [PrependRouter(s).value] + rest;
    } else {
      PrependAroundOneExport(pre[1..], s, rest);
      PrependEverywhereCons(pre[0], pre[1..] + [s] + rest);
      assert pre + [s] + rest == [pre[0]] + (pre[1..] + [s] + rest);
      assert pre + [PrependRouter(s).value] + rest == [pre[0]] + (pre[1..] + [PrependRouter(s).value] + rest);
    }
  }

  lemma {:induction false} StatementsUnchanged(rest: seq<Stmt>)
    requires forall i | 0 <= i < |rest| :: rest[i].Statement?
    ensures PrependEverywhere(rest) == Ok(rest)
    decreases |rest|
  {
    if rest != [] {
      StatementsUnchanged(rest[1..]);
      PrependEverywhereCons(rest[0], rest[1..]);
      assert rest == [rest[0]] + rest[1..];
    }
  }

  /** Replacing inside a controller call keeps its object's length and its leading router property. */
  lemma ReplaceKeepsRouterProp(callee: Expr, props: seq<Prop>, more: seq<Expr>)
    requires |props| > 0 && props[0] == RouterProp
    ensures var r := Replace(CallExpr(callee, [ObjectExpr(props)] + more));
            r.CallExpr? && |r.arguments| > 0 && r.arguments[0].ObjectExpr?
            && |r.arguments[0].properties| == |props|
            && r.arguments[0].properties[0] == RouterProp
  {
    var args := [ObjectExpr(props)] + more;
    assert ReplaceAll(args)[0] == Replace(ObjectExpr(props));
    RouterPropNoMatch();
    ReplaceWithoutMatch(RouterProp.value);
  }

  /** Running the codemod on its own output changes nothing more. */
  lemma SecondRunChangesNothing(body: seq<Stmt>)
    requires RewriteAsWritten(body).Ok?
    ensures RewriteAsWritten(RewriteAsWritten(body).value) == RewriteAsWritten(body)
    ensures Rewrite(RewriteAsWritten(body).value) == RewriteAsWritten(body)
  {
    var b := PrependTimes(body, MatchesBody(body)).value;
    ReplaceBodyLeavesNoMatch(b);
    ReplaceBodyWithoutMatch(ReplaceBody(b));
  }
}

=== FILE: engine.dfy ===
/** The lazy task engine shared by the codemods.

    A task, run against the current document, returns a changed flag, the
    tasks it spawns and the edited document (`Step`). Two drivers exist in the
    repository:

    - the recursive `handleLazyModFunction` driver, which runs each task and
      then, before the next sibling, every task it spawned together with all
      their descendants (depth-first pre-order), OR-ing every flag into
      `dirtyFlag` (`RunTask`/`RunAll`); its partner here is an explicit stack
      machine (`Tick`/`Ticks`) proved to visit the same tasks in the same order;
    - the `pop`/`unshift` loop of the react-redux codemod (`DrainPopUnshift`),
      whose partner is a plain first-in-first-out queue (`DrainQueue`).

    The recursive driver terminates because every spawned task has a smaller
    rank than its parent; the loop terminates because the spawned tasks weigh
    less in total than their parent. */
module Engine {
  import opened Common

  /** What one task reports: its changed flag, its spawned tasks, and the document after its edits. */
  datatype Step<T, D> = Step(changed: bool, spawned: seq<T>, doc: D)

  /** One executed task with the flag it reported. */
  datatype Fired<T> = Fired(task: T, changed: bool)

  /** The outcome of draining tasks: final document, OR of all flags, executed tasks in order. */
  datatype Run<T, D> = Run(doc: D, dirty: bool, trace: seq<Fired<T>>)

  ghost predicate AnyChanged<T>(trace: seq<Fired<T>>) {
    exists i | 0 <= i < |trace| :: trace[i].changed
  }

  lemma AnyChangedAppend<T>(a: seq<Fired<T>>, b: seq<Fired<T>>)
    ensures AnyChanged(a + b) <==> AnyChanged(a) || AnyChanged(b)
  {
    if AnyChanged(a + b) {
      var i :| 0 <= i < |a + b| && (a + b)[i].changed;
      if i >= |a| { assert b[i - |a|].changed; }
    }
    if AnyChanged(a) {
      var i :| 0 <= i < |a| && a[i].changed;
      assert (a + b)[i].changed;
    }
    if AnyChanged(b) {
      var i :| 0 <= i < |b| && b[i].changed;
      assert (a + b)[i + |a|].changed;
    }
  }

  // ---------------------------------------------------------------------------
  // Recursive depth-first driver.

  /** Every task a step spawns has a smaller rank than the task itself. */
  ghost predicate RankDecreases<T(!new), D(!new)>(step: (T, D) -> Step<T, D>, rank: T -> nat) {
    forall t, d, i | 0 <= i < |step(t, d).spawned| :: rank(step(t, d).spawned[i]) < rank(t)
  }

  /** One more than the greatest rank in `ts` (0 for no tasks). */
  function Bound<T>(rank: T -> nat, ts: seq<T>): nat
    decreases |ts|
  {
    if ts == [] then 0
    else
      var b := Bound(rank, ts[1..]);
      if rank(ts[0]) + 1 > b then rank(ts[0]) + 1 else b
  }

  lemma {:induction false} BoundBelow<T>(rank: T -> nat, ts: seq<T>, r: nat)
    requires forall i | 0 <= i < |ts| :: rank(ts[i]) < r
    ensures Bound(rank, ts) <= r
    decreases |ts|
  {
    if ts != [] {
      BoundBelow(rank, ts[1..], r);
    }
  }

  /** Runs `t` and then, depth-first, everything it spawned. */
  function RunTask<T(!new), D(!new)>(step: (T, D) -> Step<T, D>, rank: T -> nat, t: T, d: D): (r: Run<T, D>)
    requires RankDecreases(step, rank)
    ensures |r.trace| >= 1 && r.trace[0] == Fired(t, step(t, d).changed)
    ensures r.dirty <==> AnyChanged(r.trace)
    decreases rank(t) + 1, 0
  {
    var s := step(t, d);
    BoundBelow(rank, s.spawned, rank(t));
    var rest := RunAll(step, rank, s.spawned, s.doc);
    AnyChangedAppend([Fired(t, s.changed)], rest.trace);
    Run(rest.doc, s.changed || rest.dirty, [Fired(t, s.changed)] + rest.trace)
  }

  /** Runs the tasks of `ts` in order, each with all its descendants before the next. */
  function RunAll<T(!new), D(!new)>(step: (T, D) -> Step<T, D>, rank: T -> nat, ts: seq<T>, d: D): (r: Run<T, D>)
    requires RankDecreases(step, rank)
    ensures r.dirty <==> AnyChanged(r.trace)
    ensures |r.trace| >= |ts|
    decreases Bound(rank, ts), |ts|
  {
    if ts == [] then Run(d, false, [])
    else
      var first := RunTask(step, rank, ts[0], d);
      var rest := RunAll(step, rank, ts[1..], first.doc);
      AnyChangedAppend(first.trace, rest.trace);
      Run(rest.doc, first.dirty || rest.dirty, first.trace + rest.trace)
  }

  /** Running a list is running its first part and then its second part on the result. */
  lemma {:induction false} RunAllAppend<T(!new), D(!new)>(step: (T, D) -> Step<T, D>, rank: T -> nat, a: seq<T>, b: seq<T>, d: D)
    requires RankDecreases(step, rank)
    ensures var ra := RunAll(step, rank, a, d);
            var rb := RunAll(step, rank, b, ra.doc);
            RunAll(step, rank, a + b, d) == Run(rb.doc, ra.dirty || rb.dirty, ra.trace + rb.trace)
    decreases |a|
  {
    if a == [] {
      assert a + b == b;
    } else {
      assert (a + b)[0] == a[0];
      assert (a + b)[1..] == a[1..] + b;
      var first := RunTask(step, rank, a[0], d);
      RunAllAppend(step, rank, a[1..], b, first.doc);
      var ra' := RunAll(step, rank, a[1..], first.doc);
      var rb := RunAll(step, rank, b, ra'.doc);
      assert first.trace + (ra'.trace + rb.trace) == (first.trace + ra'.trace) + rb.trace;
    }
  }

  /** A task that spawns nothing contributes exactly its own step. */
  lemma RunTaskLeaf<T(!new), D(!new)>(step: (T, D) -> Step<T, D>, rank: T -> nat, t: T, d: D)
    requires RankDecreases(step, rank)
    requires step(t, d).spawned == []
    ensures RunTask(step, rank, t, d) == Run(step(t, d).doc, step(t, d).changed, [Fired(t, step(t, d).changed)])
  {
  }

  lemma RunAllSingle<T(!new), D(!new)>(step: (T, D) -> Step<T, D>, rank: T -> nat, t: T, d: D)
    requires RankDecreases(step, rank)
    ensures RunAll(step, rank, [t], d) == RunTask(step, rank, t, d)
  {
    var first := RunTask(step, rank, t, d);
    assert [t][1..] == [];
    assert first.trace + [] == first.trace;
  }

  /** Whatever the document, `t` reports a change itself or spawns a task
      that surely changes within `n - 1` further levels. */
  ghost predicate SurelyChanges<T(!new), D(!new)>(step: (T, D) -> Step<T, D>, t: T, n: nat)
    decreases n
  {
    forall d :: step(t, d).changed ||
      (n > 0 && exists i | 0 <= i < |step(t, d).spawned| :: SurelyChanges(step, step(t, d).spawned[i], n - 1))
  }

  /** A task that surely changes makes the run of its subtree dirty. */
  lemma {:induction false} SurelyChangesTask<T(!new), D(!new)>(step: (T, D) -> Step<T, D>, rank: T -> nat, t: T, d: D, n: nat)
    requires RankDecreases(step, rank)
    requires SurelyChanges(step, t, n)
    ensures RunTask(step, rank, t, d).dirty
    decreases n, 0
  {
    var s := step(t, d);
    if !s.changed {
      var i :| 0 <= i < |s.spawned| && SurelyChanges(step, s.spawned[i], n - 1);
      SurelyChangesAll(step, rank, s.spawned, i, s.doc, n - 1);
    }
  }

  /** A list holding a task that surely changes runs dirty. */
  lemma {:induction false} SurelyChangesAll<T(!new), D(!new)>(step: (T, D) -> Step<T, D>, rank: T -> nat, ts: seq<T>, i: nat, d: D, n: nat)
    requires RankDecreases(step, rank)
    requires i < |ts| && SurelyChanges(step, ts[i], n)
    ensures RunAll(step, rank, ts, d).dirty
    decreases n, |ts|
  {
    var first := RunTask(step, rank, ts[0], d);
    if i == 0 {
      SurelyChangesTask(step, rank, ts[0], d, n);
    } else {
      assert ts[1..][i - 1] == ts[i];
      SurelyChangesAll(step, rank, ts[1..], i - 1, first.doc, n);
    }
  }

  /** A task whose step on this document spawns a task that surely changes runs dirty. */
  lemma SpawnsSurelyChanging<T(!new), D(!new)>(step: (T, D) -> Step<T, D>, rank: T -> nat, t: T, d: D, i: nat, n: nat)
    requires RankDecreases(step, rank)
    requires i < |step(t, d).spawned| && SurelyChanges(step, step(t, d).spawned[i], n)
    ensures RunTask(step, rank, t, d).dirty
  {
    var s := step(t, d);
    BoundBelow(rank, s.spawned, rank(t));
    SurelyChangesAll(step, rank, s.spawned, i, s.doc, n);
  }

  // ---------------------------------------------------------------------------
  // Explicit-stack engine: the reference definition of depth-first pre-order.

  /** Pending tasks (top of the stack first), document, flag and executed tasks. */
  datatype Machine<T, D> = Machine(stack: seq<T>, doc: D, dirty: bool, trace: seq<Fired<T>>)

  /** Pops the top task, runs it, and pushes its spawned tasks on top in their
      original order, so that the first spawned task runs next. */
  function Tick<T, D>(step: (T, D) -> Step<T, D>, m: Machine<T, D>): Machine<T, D>
  {
    if m.stack == [] then m
    else
      var s := step(m.stack[0], m.doc);
      Machine(s.spawned + m.stack[1..], s.doc, m.dirty || s.changed, m.trace + [Fired(m.stack[0], s.changed)])
  }

  function Ticks<T, D>(step: (T, D) -> Step<T, D>, n: nat, m: Machine<T, D>): Machine<T, D>
    decreases n
  {
    if n == 0 then m else Ticks(step, n - 1, Tick(step, m))
  }

  lemma {:induction false} TicksAdd<T, D>(step: (T, D) -> Step<T, D>, a: nat, b: nat, m: Machine<T, D>)
    ensures Ticks(step, a + b, m) == Ticks(step, b, Ticks(step, a, m))
    decreases a
  {
    if a > 0 {
      TicksAdd(step, a - 1, b, Tick(step, m));
    }
  }

  /** After as many ticks as `RunTask` executes tasks, the stack machine has
      consumed `t` and everything below it and reached the same document, flag
      and trace. */
  lemma {:induction false} StackRunsTask<T(!new), D(!new)>(
    step: (T, D) -> Step<T, D>, rank: T -> nat, t: T, rest: seq<T>, d: D, dirty: bool, trace: seq<Fired<T>>)
    requires RankDecreases(step, rank)
    ensures var r := RunTask(step, rank, t, d);
            Ticks(step, |r.trace|, Machine([t] + rest, d, dirty, trace))
              == Machine(rest, r.doc, dirty || r.dirty, trace + r.trace)
    decreases rank(t) + 1, 0
  {
    var s := step(t, d);
    BoundBelow(rank, s.spawned, rank(t));
    var sub := RunAll(step, rank, s.spawned, s.doc);
    var m := Machine([t] + rest, d, dirty, trace);
    var m1 := Machine(s.spawned + rest, s.doc, dirty || s.changed, trace + [Fired(t, s.changed)]);
    assert ([t] + rest)[1..] == rest;
    assert Tick(step, m) == m1;
    assert Ticks(step, 1, m) == m1 by {
      assert Ticks(step, 0, Tick(step, m)) == Tick(step, m);
    }
    StackRunsAll(step, rank, s.spawned, rest, s.doc, dirty || s.changed, trace + [Fired(t, s.changed)]);
    TicksAdd(step, 1, |sub.trace|, m);
    assert (trace + [Fired(t, s.changed)]) + sub.trace == trace + ([Fired(t, s.changed)] + sub.trace);
  }

  lemma {:induction false} StackRunsAll<T(!new), D(!new)>(
    step: (T, D) -> Step<T, D>, rank: T -> nat, ts: seq<T>, rest: seq<T>, d: D, dirty: bool, trace: seq<Fired<T>>)
    requires RankDecreases(step, rank)
    ensures var r := RunAll(step, rank, ts, d);
            Ticks(step, |r.trace|, Machine(ts + rest, d, dirty, trace))
              == Machine(rest, r.doc, dirty || r.dirty, trace + r.trace)
    decreases Bound(rank, ts), |ts|
  {
    if ts == [] {
      assert ts + rest == rest;
      assert trace + [] == trace;
    } else {
      var first := RunTask(step, rank, ts[0], d);
      var tail := RunAll(step, rank, ts[1..], first.doc);
      assert ts + rest == [ts[0]] + (ts[1..] + rest);
      StackRunsTask(step, rank, ts[0], ts[1..] + rest, d, dirty, trace);
      StackRunsAll(step, rank, ts[1..], rest, first.doc, dirty || first.dirty, trace + first.trace);
      TicksAdd(step, |first.trace|, |tail.trace|, Machine(ts + rest, d, dirty, trace));
      assert (trace + first.trace) + tail.trace == trace + (first.trace + tail.trace);
    }
  }

  /** The recursive driver and the stack machine seeded with the initial tasks
      agree: after exactly as many ticks as tasks were executed, the stack is
      empty and the document, flag and execution order coincide. */
  lemma RecursiveDriverIsStackMachine<T(!new), D(!new)>(step: (T, D) -> Step<T, D>, rank: T -> nat, ts: seq<T>, d: D)
    requires RankDecreases(step, rank)
    ensures var r := RunAll(step, rank, ts, d);
            Ticks(step, |r.trace|, Machine(ts, d, false, [])) == Machine([], r.doc, r.dirty, r.trace)
  {
    StackRunsAll(step, rank, ts, [], d, false, []);
    assert ts + [] == ts;
    assert [] + RunAll(step, rank, ts, d).trace == RunAll(step, rank, ts, d).trace;
  }

  /** A machine with an empty stack stays where it is. */
  lemma {:induction false} TicksIdle<T, D>(step: (T, D) -> Step<T, D>, n: nat, m: Machine<T, D>)
    requires m.stack == []
    ensures Ticks(step, n, m) == m
    decreases n
  {
    if n > 0 {
      TicksIdle(step, n - 1, Tick(step, m));
    }
  }

  /** Whatever number of ticks empties the stack, the machine then holds the
      recursive driver's document, flag and trace. */
  lemma RunAllFromTicks<T(!new), D(!new)>(step: (T, D) -> Step<T, D>, rank: T -> nat, ts: seq<T>, d: D, n: nat)
    requires RankDecreases(step, rank)
    requires Ticks(step, n, Machine(ts, d, false, [])).stack == []
    ensures var r := RunAll(step, rank, ts, d);
            Ticks(step, n, Machine(ts, d, false, [])) == Machine([], r.doc, r.dirty, r.trace)
  {
    var m0 := Machine(ts, d, false, []);
    var r := RunAll(step, rank, ts, d);
    var t := |r.trace|;
    RecursiveDriverIsStackMachine(step, rank, ts, d);
    if n <= t {
      TicksAdd(step, n, t - n, m0);
      TicksIdle(step, t - n, Ticks(step, n, m0));
    } else {
      TicksAdd(step, t, n - t, m0);
      TicksIdle(step, n - t, Ticks(step, t, m0));
    }
  }

  // ---------------------------------------------------------------------------
  // The pop/unshift loop and its first-in-first-out reference.

  function Weight<T>(weight: T -> nat, ts: seq<T>): nat
    decreases |ts|
  {
    if ts == [] then 0 else weight(ts[0]) + Weight(weight, ts[1..])
  }

  lemma {:induction false} WeightAppend<T>(weight: T -> nat, a: seq<T>, b: seq<T>)
    ensures Weight(weight, a + b) == Weight(weight, a) + Weight(weight, b)
    decreases |a|
  {
    if a == [] {
      assert a + b == b;
    } else {
      assert (a + b)[1..] == a[1..] + b;
      WeightAppend(weight, a[1..], b);
    }
  }

  /** The tasks a step spawns weigh less in total than the task itself. */
  ghost predicate WeightDecreases<T(!new), D(!new)>(step: (T, D) -> Step<T, D>, weight: T -> nat) {
    forall t, d :: Weight(weight, step(t, d).spawned) < weight(t)
  }

  function Reverse<T>(s: seq<T>): (r: seq<T>)
    ensures |r| == |s|
    ensures forall i | 0 <= i < |s| :: r[i] == s[|s| - 1 - i]
    decreases |s|
  {
    if s == [] then [] else Reverse(s[1..]) + [s[0]]
  }

  lemma ReverseAppend<T>(a: seq<T>, b: seq<T>)
    ensures Reverse(a + b) == Reverse(b) + Reverse(a)
  {
    assert forall i | 0 <= i < |a + b| :: Reverse(a + b)[i] == (Reverse(b) + Reverse(a))[i];
  }

  lemma ReverseReverse<T>(s: seq<T>)
    ensures Reverse(Reverse(s)) == s
  {
    assert forall i | 0 <= i < |s| :: Reverse(Reverse(s))[i] == s[i];
  }

  /** `for (const newMod of newMods) pending.unshift(newMod)`: the spawned tasks
      end up in front of the pending ones, last spawned first. */
  function UnshiftEach<T>(pending: seq<T>, news: seq<T>): (r: seq<T>)
    ensures r == Reverse(news) + pending
    decreases |news|
  {
    if news == [] then pending
    else
      var r := UnshiftEach([news[0]] + pending, news[1..]);
      assert news == [news[0]] + news[1..];
      ReverseAppend([news[0]], news[1..]);
      assert Reverse([news[0]]) == [news[0]];
      r
  }

  /** The source loop: pop the last pending task, run it, unshift what it spawned. */
  function DrainPopUnshift<T(!new), D(!new)>(
    step: (T, D) -> Step<T, D>, weight: T -> nat, pending: seq<T>, d: D, dirty: bool, trace: seq<Fired<T>>): Run<T, D>
    requires WeightDecreases(step, weight)
    decreases Weight(weight, pending)
  {
    if pending == [] then Run(d, dirty, trace)
    else
      var last := pending[|pending| - 1];
      var s := step(last, d);
      var rest := pending[..|pending| - 1];
      assert pending == rest + [last];
      WeightAppend(weight, rest, [last]);
      WeightAppend(weight, Reverse(s.spawned), rest);
      WeightReverse(weight, s.spawned);
      DrainPopUnshift(step, weight, UnshiftEach(rest, s.spawned), s.doc, dirty || s.changed, trace + [Fired(last, s.changed)])
  }

  lemma {:induction false} WeightReverse<T>(weight: T -> nat, s: seq<T>)
    ensures Weight(weight, Reverse(s)) == Weight(weight, s)
    decreases |s|
  {
    if s != [] {
      WeightReverse(weight, s[1..]);
      WeightAppend(weight, Reverse(s[1..]), [s[0]]);
    }
  }

  /** First-in-first-out reference: run the front task, append its spawned tasks at the back. */
  function DrainQueue<T(!new), D(!new)>(
    step: (T, D) -> Step<T, D>, weight: T -> nat, queue: seq<T>, d: D, dirty: bool, trace: seq<Fired<T>>): (r: Run<T, D>)
    requires WeightDecreases(step, weight)
    ensures |r.trace| >= |trace| + |queue| && r.trace[..|trace|] == trace
    decreases Weight(weight, queue)
  {
    if queue == [] then Run(d, dirty, trace)
    else
      var s := step(queue[0], d);
      WeightAppend(weight, queue[1..], s.spawned);
      var trace' := trace + [Fired(queue[0], s.changed)];
      var r := DrainQueue(step, weight, queue[1..] + s.spawned, s.doc, dirty || s.changed, trace');
      assert r.trace[..|trace|] == r.trace[..|trace'|][..|trace|];
      r
  }

  /** The queue runs the tasks already pending, in order, before any task spawned meanwhile. */
  lemma {:induction false} QueueRunsPendingFirst<T(!new), D(!new)>(
    step: (T, D) -> Step<T, D>, weight: T -> nat, queue: seq<T>, d: D, dirty: bool, trace: seq<Fired<T>>)
    requires WeightDecreases(step, weight)
    ensures var r := DrainQueue(step, weight, queue, d, dirty, trace);
            forall i | 0 <= i < |queue| :: r.trace[|trace| + i].task == queue[i]
    decreases Weight(weight, queue)
  {
    if queue != [] {
      var s := step(queue[0], d);
      WeightAppend(weight, queue[1..], s.spawned);
      var trace' := trace + [Fired(queue[0], s.changed)];
      var q' := queue[1..] + s.spawned;
      QueueRunsPendingFirst(step, weight, q', s.doc, dirty || s.changed, trace');
      var r := DrainQueue(step, weight, q', s.doc, dirty || s.changed, trace');
      assert r.trace[|trace|] == r.trace[..|trace'|][|trace|];
      forall i | 1 <= i < |queue|
        ensures r.trace[|trace| + i].task == queue[i]
      {
        assert r.trace[|trace'| + (i - 1)].task == q'[i - 1];
      }
    }
  }

  /** The queue's final flag is the OR of the starting flag and every flag reported. */
  lemma {:induction false} QueueDirty<T(!new), D(!new)>(
    step: (T, D) -> Step<T, D>, weight: T -> nat, queue: seq<T>, d: D, dirty: bool, trace: seq<Fired<T>>)
    requires WeightDecreases(step, weight)
    ensures var r := DrainQueue(step, weight, queue, d, dirty, trace);
            r.dirty <==> dirty || AnyChanged(r.trace[|trace|..])
    decreases Weight(weight, queue)
  {
    if queue != [] {
      var s := step(queue[0], d);
      WeightAppend(weight, queue[1..], s.spawned);
      var f := Fired(queue[0], s.changed);
      var trace' := trace + [f];
      var q' := queue[1..] + s.spawned;
      QueueDirty(step, weight, q', s.doc, dirty || s.changed, trace');
      var r := DrainQueue(step, weight, q', s.doc, dirty || s.changed, trace');
      assert DrainQueue(step, weight, queue, d, dirty, trace) == r;
      assert r.trace[|trace|] == r.trace[..|trace'|][|trace|] == f;
      DropOne(r.trace, |trace|);
      AnyChangedAppend([f], r.trace[|trace'|..]);
      assert AnyChanged([f]) <==> s.changed by {
        if s.changed { assert [f][0].changed; }
      }
    }
  }

  /** The pop/unshift loop over `pending` is the first-in-first-out queue over
      `pending` read from its end: already pending tasks run before every task
      spawned after them, and spawned tasks run in their original order. */
  lemma {:induction false} PopUnshiftIsFifo<T(!new), D(!new)>(
    step: (T, D) -> Step<T, D>, weight: T -> nat, pending: seq<T>, d: D, dirty: bool, trace: seq<Fired<T>>)
    requires WeightDecreases(step, weight)
    ensures DrainPopUnshift(step, weight, pending, d, dirty, trace)
         == DrainQueue(step, weight, Reverse(pending), d, dirty, trace)
    decreases Weight(weight, pending)
  {
    if pending != [] {
      var last := pending[|pending| - 1];
      var rest := pending[..|pending| - 1];
      var s := step(last, d);
      assert pending == rest + [last];
      ReverseAppend(rest, [last]);
      assert Reverse([last]) == [last];
      assert Reverse(pending) == [last] + Reverse(rest);
      assert Reverse(pending)[0] == last;
      assert Reverse(pending)[1..] == Reverse(rest);
      WeightAppend(weight, rest, [last]);
      WeightAppend(weight, Reverse(s.spawned), rest);
      WeightReverse(weight, s.spawned);
      PopUnshiftIsFifo(step, weight, UnshiftEach(rest, s.spawned), s.doc, dirty || s.changed, trace + [Fired(last, s.changed)]);
      ReverseAppend(Reverse(s.spawned), rest);
      ReverseReverse(s.spawned);
    }
  }

  /** The react-redux driver as a whole: start from an empty flag and trace. */
  function Fifo<T(!new), D(!new)>(step: (T, D) -> Step<T, D>, weight: T -> nat, initial: seq<T>, d: D): (r: Run<T, D>)
    requires WeightDecreases(step, weight)
    ensures r.dirty <==> AnyChanged(r.trace)
  {
    var empty: seq<Fired<T>> := [];
    PopUnshiftIsFifo(step, weight, initial, d, false, empty);
    QueueDirty(step, weight, Reverse(initial), d, false, empty);
    var r := DrainQueue(step, weight, Reverse(initial), d, false, empty);
    assert r.trace[|empty|..] == r.trace;
    r
  }

  /** The initial tasks run first, taken from the end of the array. */
  lemma FifoRunsInitialFromTheEnd<T(!new), D(!new)>(step: (T, D) -> Step<T, D>, weight: T -> nat, initial: seq<T>, d: D)
    requires WeightDecreases(step, weight)
    ensures var r := Fifo(step, weight, initial, d);
            |r.trace| >= |initial| &&
            forall i | 0 <= i < |initial| :: r.trace[i].task == initial[|initial| - 1 - i]
  {
    var empty: seq<Fired<T>> := [];
    PopUnshiftIsFifo(step, weight, initial, d, false, empty);
    QueueRunsPendingFirst(step, weight, Reverse(initial), d, false, empty);
    var r := DrainQueue(step, weight, Reverse(initial), d, false, empty);
    assert r == Fifo(step, weight, initial, d);
    forall i | 0 <= i < |initial|
      ensures r.trace[i].task == initial[|initial| - 1 - i]
    {
      assert r.trace[|empty| + i].task == Reverse(initial)[i];
    }
  }
}

=== FILE: paths.dfy ===
/** POSIX path handling as the repomods use it from `node:path`: `join`,
    `posix.parse` and `posix.format`, over `/`-separated segment lists. */
module Paths {
  import opened Common

  /** A segment that names something: not empty (doubled or trailing
      slashes) and not `.`. */
  predicate IsNamedSegment(s: string) {
    s != "" && s != "."
  }

  /** The named segments of a path, in order. */
  function Segments(p: string): (r: seq<string>)
    ensures forall i | 0 <= i < |r| :: IsNamedSegment(r[i]) && '/' !in r[i]
  {
    var parts := Split(p, '/');
    var r := Filter(parts, IsNamedSegment);
    forall i | 0 <= i < |r|
      ensures IsNamedSegment(r[i]) && '/' !in r[i]
    {
      assert r[i] in r;
      var j :| 0 <= j < |parts| && parts[j] == r[i];
    }
    r
  }

  predicate IsAbsolute(p: string) {
    |p| > 0 && p[0] == '/'
  }

  /** Whether `join(a, b)` is rooted. `join` skips an empty argument, so
      with an empty `a` it is `b` that decides. */
  predicate JoinRooted(a: string, b: string) {
    IsAbsolute(a) || (a == "" && IsAbsolute(b))
  }

  /** `join(a, b)`: the named segments of both paths joined by `/`, rooted
      when the first non-empty argument is, `.` when nothing is left. */
  function JoinPath(a: string, b: string): (r: string)
    ensures r != ""
  {
    var parts := Segments(a) + Segments(b);
    var body := Join(parts, '/');
    if JoinRooted(a, b) then "/" + body
    else if parts == [] then "."
    else
      JoinNonEmpty(parts, '/');
      body
  }

  lemma {:induction false} JoinNonEmpty(parts: seq<string>, sep: char)
    requires |parts| >= 1 && parts[0] != ""
    ensures Join(parts, sep) != []
  {
    if |parts| > 1 {
      assert Join(parts, sep)[0] == parts[0][0];
    }
  }

  /** Splitting a string that starts with the separator gives an empty first part. */
  lemma SplitLeadingSeparator(s: string, sep: char)
    ensures Split([sep] + s, sep) == [""] + Split(s, sep)
  {
    var t := [sep] + s;
    assert t[0] == sep;
    assert IndexOf(t, sep) == 0;
    assert t[1..] == s;
  }

  /** Joining named, slash-free segments and splitting again gives them back. */
  lemma SegmentsOfJoin(parts: seq<string>)
    requires forall i | 0 <= i < |parts| :: IsNamedSegment(parts[i]) && '/' !in parts[i]
    ensures Segments(Join(parts, '/')) == parts
  {
    if parts == [] {
      assert Split("", '/') == [""];
      assert Filter([""], IsNamedSegment) == [];
    } else {
      SplitJoin(parts, '/');
      FilterKeepsAll(parts, IsNamedSegment);
    }
  }

  /** A leading slash adds no segment. */
  lemma SegmentsOfRooted(body: string)
    ensures Segments("/" + body) == Segments(body)
  {
    SplitLeadingSeparator(body, '/');
    assert "/" + body == ['/'] + body;
    FilterAppend([""], Split(body, '/'), IsNamedSegment);
    assert Filter([""], IsNamedSegment) == [];
  }

  lemma SegmentsOfDot()
    ensures Segments(".") == []
  {
    assert '/' !in ".";
    assert Split(".", '/') == ["."];
    assert Filter(["."], IsNamedSegment) == [];
  }

  /** A join starts with the first character of its first part. */
  lemma JoinStartsWithFirst(parts: seq<string>, sep: char)
    requires |parts| >= 1 && parts[0] != ""
    ensures Join(parts, sep) != [] && Join(parts, sep)[0] == parts[0][0]
  {
    JoinNonEmpty(parts, sep);
    if |parts| > 1 {
      assert Join(parts, sep) == parts[0] + [sep] + Join(parts[1..], sep);
    }
  }

  /** The segments of two paths are named and slash-free. */
  lemma PartsNamed(a: string, b: string)
    ensures var parts := Segments(a) + Segments(b);
            forall i | 0 <= i < |parts| :: IsNamedSegment(parts[i]) && '/' !in parts[i]
  {
    var parts := Segments(a) + Segments(b);
    forall i | 0 <= i < |parts|
      ensures IsNamedSegment(parts[i]) && '/' !in parts[i]
    {
      if i < |Segments(a)| {
        assert parts[i] == Segments(a)[i];
      } else {
        assert parts[i] == Segments(b)[i - |Segments(a)|];
      }
    }
  }

  lemma JoinPathRooted(a: string, b: string)
    ensures IsAbsolute(JoinPath(a, b)) <==> IsAbsolute(a) || (a == "" && IsAbsolute(b))
  {
    var parts := Segments(a) + Segments(b);
    if !JoinRooted(a, b) && parts != [] {
      PartsNamed(a, b);
      JoinStartsWithFirst(parts, '/');
      assert parts[0][0] in parts[0];
    }
  }

  lemma JoinPathKeepsSegments(a: string, b: string)
    ensures Segments(JoinPath(a, b)) == Segments(a) + Segments(b)
  {
    var parts := Segments(a) + Segments(b);
    PartsNamed(a, b);
    SegmentsOfJoin(parts);
    if JoinRooted(a, b) {
      SegmentsOfRooted(Join(parts, '/'));
    } else if parts == [] {
      SegmentsOfDot();
    }
  }

  /** `join` neither loses nor invents a segment, and is rooted exactly when
      its first argument is, or when that is empty and the second is. */
  lemma JoinPathSegments(a: string, b: string)
    ensures Segments(JoinPath(a, b)) == Segments(a) + Segments(b)
    ensures IsAbsolute(JoinPath(a, b)) <==> IsAbsolute(a) || (a == "" && IsAbsolute(b))
  {
    JoinPathKeepsSegments(a, b);
    JoinPathRooted(a, b);
  }

  /** An empty working directory is skipped: `join('', '/x')` is `/x`. */
  lemma JoinSkipsEmptyFirst()
    ensures JoinPath("", "/x") == "/x"
  {
    SegmentsOfRooted("x");
    assert Segments("x") == ["x"] by { SegmentsOfJoin(["x"]); }
  }

  // ---------------------------------------------------------------------------
  // `posix.parse` and `posix.format` (paths without a trailing slash).

  datatype ParsedPath = ParsedPath(root: string, dir: string, base: string, ext: string, name: string)

  predicate IsSlash(c: char) {
    c == '/'
  }

  predicate IsDot(c: char) {
    c == '.'
  }

  lemma NoSlashAfter(path: string, k: int)
    requires -1 <= k < |path| && forall i | k < i < |path| :: !IsSlash(path[i])
    ensures '/' !in path[k + 1..]
  {
    var base := path[k + 1..];
    forall i | 0 <= i < |base| ensures base[i] != '/' {
      assert base[i] == path[k + 1 + i];
    }
  }

  lemma CutAtSlash(path: string, k: nat)
    requires k < |path| && path[k] == '/'
    ensures path == path[..k] + "/" + path[k + 1..]
  {
    assert path == path[..k] + [path[k]] + path[k + 1..];
  }

  /** The name and extension `posix.parse` reports for a base: the
      extension runs from the last dot on, unless that dot starts the base,
      there is none, or the base is `..`. */
  function SplitExtension(base: string): (r: (string, string))
    ensures r.0 + r.1 == base
    ensures base == ".." || base == "." ==> r == (base, "")
    ensures r.1 != "" ==> r.1[0] == '.' && '.' !in r.1[1..] && r.0 != ""
  {
    var d := FindLastIndex(base, IsDot);
    if d <= 0 || base == ".." then (base, "")
    else
      assert base == base[..d] + base[d..];
      assert forall i | 0 <= i < |base[d..][1..]| :: base[d..][1..][i] == base[d + 1 + i];
      (base[..d], base[d..])
  }

  /** A name without dots followed by an extension splits back into the two. */
  lemma SplitExtensionOf(name: string, ext: string)
    requires name != "" && '.' !in name && IsExtension(ext)
    ensures SplitExtension(name + ext) == (name, ext)
  {
    var base := name + ext;
    assert IsDot(base[|name|]);
    forall i | |name| < i < |base|
      ensures !IsDot(base[i])
    {
      assert base[i] == ext[1..][i - |name| - 1];
    }
    assert FindLastIndex(base, IsDot) == |name|;
    assert base[..|name|] == name;
    assert base[|name|..] == ext;
    assert base != ".." by {
      assert base[0] == name[0];
    }
  }

  /** The directory and base `posix.parse` reports: `dir` everything before
      the last slash (`/` when that slash is the first character), `base`
      everything after it. */
  function SplitDir(path: string): (r: (string, string))
    ensures '/' !in r.1
    ensures r.0 == "" ==> path == r.1
    ensures r.0 != "" && r.0 != "/" ==> path == r.0 + "/" + r.1
  {
    var k := FindLastIndex(path, IsSlash);
    var base := path[k + 1..];
    NoSlashAfter(path, k);
    if k < 0 then ("", base)
    else if k == 0 then ("/", base)
    else
      CutAtSlash(path, k);
      (path[..k], base)
  }

  /** `posix.parse`: `root` is `/` for a rooted path; `dir` everything before
      the last slash (`/` when that slash is the first character); `base`
      everything after it; `ext` the base from its last dot on, unless that
      dot starts the base, there is none, or the base is `..`; `name` the
      base without `ext`. */
  function ParsePath(path: string): (r: ParsedPath)
    ensures r.root == (if IsAbsolute(path) then "/" else "")
    ensures '/' !in r.base
    ensures r.name + r.ext == r.base
    ensures r.base == ".." || r.base == "." ==> r.name == r.base && r.ext == ""
    ensures r.ext != "" ==> r.ext[0] == '.' && '.' !in r.ext[1..] && r.name != ""
    ensures r.dir == "" ==> path == r.base
    ensures r.dir != "" && r.dir != "/" ==> path == r.dir + "/" + r.base
  {
    var (dir, base) := SplitDir(path);
    var (name, ext) := SplitExtension(base);
    ParsedPath(if IsAbsolute(path) then "/" else "", dir, base, ext, name)
  }

  /** `posix.format({ root, dir, name, ext })`: `dir` (or `root` when `dir` is
      empty), then a slash unless that is the root itself, then `name + ext`. */
  function FormatPath(root: string, dir: string, name: string, ext: string): (r: string)
    ensures dir != "" && dir != root ==> r == dir + "/" + name + ext
    ensures |dir| > |root| ==> r == dir + "/" + name + ext
  {
    var d := if dir != "" then dir else root;
    var base := name + ext;
    if d == "" then base
    else if d == root then d + base
    else d + "/" + base
  }

  /** An extension as `posix.parse` reports one: a dot and no further dot or slash. */
  predicate IsExtension(ext: string) {
    |ext| >= 1 && ext[0] == '.' && '.' !in ext[1..] && '/' !in ext
  }

  /** Parsing a formatted path gives back its directory, name and extension. */
  lemma ParseFormat(root: string, dir: string, name: string, ext: string)
    requires dir != "" && dir != root
    requires name != "" && '.' !in name && '/' !in name
    requires IsExtension(ext)
    ensures var p := ParsePath(FormatPath(root, dir, name, ext));
            p.dir == dir && p.name == name && p.ext == ext && p.base == name + ext
  {
    var path := FormatPath(root, dir, name, ext);
    var base := name + ext;
    assert path == dir + "/" + base;
    var k := FindLastIndex(path, IsSlash);
    assert IsSlash(path[|dir|]);
    forall i | |dir| < i < |path|
      ensures !IsSlash(path[i])
    {
      assert path[i] == base[i - |dir| - 1];
      if i - |dir| - 1 < |name| {
        assert base[i - |dir| - 1] == name[i - |dir| - 1];
      } else {
        assert base[i - |dir| - 1] == ext[i - |dir| - 1 - |name|];
      }
    }
    assert k == |dir|;
    assert path[k + 1..] == base;
    assert path[..k] == dir;
    SplitExtensionOf(name, ext);
  }
}

=== FILE: react_redux.dfy ===
/** The jscodeshift `react-redux/8/add-state-type` codemod: every arrow
    function under a `mapStateToProps` declarator whose first parameter is an
    identifier gets that parameter annotated with the state type, and when
    that happened an `import { State as State } from "state"` is put at the
    top of the file. Its lazy mods run under a `pop`/`unshift` loop, the
    first-in-first-out driver of `Engine.DrainPopUnshift`. */
module ReactRedux {
  import opened Common
  import opened Syntax
  import opened Engine

  /** The two names the codemod takes from its options. */
  datatype Settings = Settings(stateTypeIdentifierName: string, stateSourceLiteralValue: string)

  const TypeNameKey := "stateTypeIdentifierName"
  const SourceKey := "stateSourceLiteralValue"

  /** The settings: each name from the options when the key is present
      (options are given as their string conversions), `State` and `state`
      otherwise. */
  function SettingsFrom(options: map<string, string>): (r: Settings)
    ensures r.stateTypeIdentifierName == (if TypeNameKey in options then options[TypeNameKey] else "State")
    ensures r.stateSourceLiteralValue == (if SourceKey in options then options[SourceKey] else "state")
  {
    Settings(if TypeNameKey in options then options[TypeNameKey] else "State",
             if SourceKey in options then options[SourceKey] else "state")
  }

  // ---------------------------------------------------------------------------
  // Arrow functions and their annotation.

  /** An arrow function the rule annotates: at least one parameter, the first an identifier. */
  predicate TakesIdentifierFirst(f: Fn) {
    |f.params| > 0 && f.params[0].IdentParam?
  }

  /** The parameters after the rule has visited their arrow: an identifier
      first parameter keeps its name and gets the type `t`, replacing any
      annotation it had; any other list is left alone. */
  function ParamsAfter(ps: seq<Param>, t: string): (r: seq<Param>)
    ensures |r| == |ps| && (|ps| > 0 ==> r[1..] == ps[1..])
    ensures |ps| > 0 && ps[0].IdentParam? ==> r[0] == IdentParam(ps[0].name, Some(t))
    ensures !(|ps| > 0 && ps[0].IdentParam?) ==> r == ps
  {
    if |ps| > 0 && ps[0].IdentParam? then ps[0 := IdentParam(ps[0].name, Some(t))] else ps
  }

  /** An arrow function and every arrow nested in it, in document order: what
      `find(ArrowFunctionExpression)` under its declarator visits. */
  function ArrowsUnder(f: Fn): (r: seq<Fn>)
    ensures |r| >= 1 && r[0] == f
    decreases f
  {
    [f] + ArrowsUnderAll(f.arrows)
  }

  function ArrowsUnderAll(fs: seq<Fn>): seq<Fn>
    decreases fs
  {
    if fs == [] then [] else ArrowsUnder(fs[0]) + ArrowsUnderAll(fs[1..])
  }

  /** Every arrow of the tree annotated at once, the tree's shape kept. */
  function AnnotateArrow(f: Fn, t: string): (r: Fn)
    ensures r.params == ParamsAfter(f.params, t)
    ensures r.body == f.body && r.returnStmts == f.returnStmts
    ensures r.comments == f.comments && r.awaitsGetData == f.awaitsGetData
    ensures |r.arrows| == |f.arrows|
    decreases f
  {
    f.(params := ParamsAfter(f.params, t), arrows := AnnotateArrows(f.arrows, t))
  }

  function AnnotateArrows(fs: seq<Fn>, t: string): (r: seq<Fn>)
    ensures |r| == |fs|
    ensures forall i | 0 <= i < |fs| :: r[i] == AnnotateArrow(fs[i], t)
    decreases fs
  {
    if fs == [] then [] else [AnnotateArrow(fs[0], t)] + AnnotateArrows(fs[1..], t)
  }

  /** `b` is `a` after the rule: arrow by arrow, the same count, each with its
      parameters annotated. */
  predicate ParamsAnnotated(a: seq<Fn>, b: seq<Fn>, t: string) {
    |a| == |b| && forall i | 0 <= i < |a| :: b[i].params == ParamsAfter(a[i].params, t)
  }

  lemma ParamsAnnotatedAppend(a: seq<Fn>, b: seq<Fn>, c: seq<Fn>, d: seq<Fn>, t: string)
    requires ParamsAnnotated(a, b, t) && ParamsAnnotated(c, d, t)
    ensures ParamsAnnotated(a + c, b + d, t)
  {
  }

  /** Annotating the tree annotates every arrow in it, in document order, and
      nothing is added or lost. */
  lemma {:induction false} AnnotatesEveryArrow(f: Fn, t: string)
    ensures ParamsAnnotated(ArrowsUnder(f), ArrowsUnder(AnnotateArrow(f, t)), t)
    decreases f, 1
  {
    AnnotatesEveryArrowAll(f.arrows, t);
    ParamsAnnotatedAppend([f], [AnnotateArrow(f, t)], ArrowsUnderAll(f.arrows), ArrowsUnderAll(AnnotateArrows(f.arrows, t)), t);
  }

  lemma {:induction false} AnnotatesEveryArrowAll(fs: seq<Fn>, t: string)
    ensures ParamsAnnotated(ArrowsUnderAll(fs), ArrowsUnderAll(AnnotateArrows(fs, t)), t)
    decreases fs, 0
  {
    if fs != [] {
      var gs := AnnotateArrows(fs, t);
      assert gs[1..] == AnnotateArrows(fs[1..], t);
      AnnotatesEveryArrow(fs[0], t);
      AnnotatesEveryArrowAll(fs[1..], t);
      ParamsAnnotatedAppend(ArrowsUnder(fs[0]), ArrowsUnder(gs[0]), ArrowsUnderAll(fs[1..]), ArrowsUnderAll(gs[1..]), t);
    }
  }

  /** A tree with no arrow to annotate comes back unchanged. */
  lemma {:induction false} CleanArrowUnchanged(f: Fn, t: string)
    requires forall i | 0 <= i < |ArrowsUnder(f)| :: !TakesIdentifierFirst(ArrowsUnder(f)[i])
    ensures AnnotateArrow(f, t) == f
    decreases f, 1
  {
    var a := ArrowsUnderAll(f.arrows);
    assert forall i | 0 <= i < |a| :: a[i] == ArrowsUnder(f)[1 + i];
    assert !TakesIdentifierFirst(ArrowsUnder(f)[0]);
    CleanArrowsUnchanged(f.arrows, t);
  }

  lemma {:induction false} CleanArrowsUnchanged(fs: seq<Fn>, t: string)
    requires forall i | 0 <= i < |ArrowsUnderAll(fs)| :: !TakesIdentifierFirst(ArrowsUnderAll(fs)[i])
    ensures AnnotateArrows(fs, t) == fs
    decreases fs, 0
  {
    if fs != [] {
      var a := ArrowsUnder(fs[0]);
      var b := ArrowsUnderAll(fs[1..]);
      assert ArrowsUnderAll(fs) == a + b;
      assert forall i | 0 <= i < |a| :: a[i] == (a + b)[i];
      assert forall i | 0 <= i < |b| :: b[i] == (a + b)[|a| + i];
      CleanArrowUnchanged(fs[0], t);
      CleanArrowsUnchanged(fs[1..], t);
    }
  }

  /** Annotating twice is annotating once. */
  lemma {:induction false} AnnotateArrowIdempotent(f: Fn, t: string)
    ensures AnnotateArrow(AnnotateArrow(f, t), t) == AnnotateArrow(f, t)
    decreases f, 1
  {
    AnnotateArrowsIdempotent(f.arrows, t);
  }

  lemma {:induction false} AnnotateArrowsIdempotent(fs: seq<Fn>, t: string)
    ensures AnnotateArrows(AnnotateArrows(fs, t), t) == AnnotateArrows(fs, t)
    decreases fs, 0
  {
    forall i | 0 <= i < |fs|
      ensures AnnotateArrow(AnnotateArrow(fs[i], t), t) == AnnotateArrow(fs[i], t)
    {
      AnnotateArrowIdempotent(fs[i], t);
    }
  }

  // ---------------------------------------------------------------------------
  // The program body.

  /** `const mapStateToProps = <arrow function>` */
  predicate IsMapStateToProps(d: Declarator) {
    d.id == IdentBinding("mapStateToProps") && d.init.ArrowInit?
  }

  function AnnotateDeclarator(d: Declarator, t: string): (r: Declarator)
    ensures IsMapStateToProps(r) <==> IsMapStateToProps(d)
    ensures IsMapStateToProps(d) ==> r.init.fn == AnnotateArrow(d.init.fn, t)
    ensures !IsMapStateToProps(d) ==> r == d
  {
    if IsMapStateToProps(d) then d.(init := ArrowInit(AnnotateArrow(d.init.fn, t))) else d
  }

  function AnnotateStmt(s: Stmt, t: string): (r: Stmt)
    ensures s.Variables? <==> r.Variables?
    ensures s.Variables? ==> r.exported == s.exported && |r.declarators| == |s.declarators|
                             && forall i | 0 <= i < |s.declarators| :: r.declarators[i] == AnnotateDeclarator(s.declarators[i], t)
    ensures !s.Variables? ==> r == s
  {
    if s.Variables? then
      s.(declarators := seq(|s.declarators|, i requires 0 <= i < |s.declarators| => AnnotateDeclarator(s.declarators[i], t)))
    else s
  }

  /** What `upsertTypeAnnotationOnStateParameterOfMapStateToProps` leaves of the body. */
  function AnnotateBody(body: seq<Stmt>, t: string): (r: seq<Stmt>)
    ensures |r| == |body|
    ensures forall i | 0 <= i < |body| :: r[i] == AnnotateStmt(body[i], t)
  {
    seq(|body|, i requires 0 <= i < |body| => AnnotateStmt(body[i], t))
  }

  /** The arrows the rule visits, in document order. */
  function DeclaratorArrows(ds: seq<Declarator>): seq<Fn>
    decreases |ds|
  {
    if ds == [] then []
    else (if IsMapStateToProps(ds[0]) then ArrowsUnder(ds[0].init.fn) else []) + DeclaratorArrows(ds[1..])
  }

  function TargetArrows(body: seq<Stmt>): seq<Fn>
    decreases |body|
  {
    if body == [] then []
    else (if body[0].Variables? then DeclaratorArrows(body[0].declarators) else []) + TargetArrows(body[1..])
  }

  /** The rule's flag: some visited arrow takes an identifier first. */
  predicate Dirty(body: seq<Stmt>) {
    exists i | 0 <= i < |TargetArrows(body)| :: TakesIdentifierFirst(TargetArrows(body)[i])
  }

  lemma {:induction false} DeclaratorsAnnotated(ds: seq<Declarator>, t: string)
    ensures var ds' := seq(|ds|, i requires 0 <= i < |ds| => AnnotateDeclarator(ds[i], t));
            ParamsAnnotated(DeclaratorArrows(ds), DeclaratorArrows(ds'), t)
    decreases |ds|
  {
    var ds' := seq(|ds|, i requires 0 <= i < |ds| => AnnotateDeclarator(ds[i], t));
    if ds != [] {
      var tail := seq(|ds| - 1, i requires 0 <= i < |ds| - 1 => AnnotateDeclarator(ds[1..][i], t));
      assert ds'[1..] == tail;
      DeclaratorsAnnotated(ds[1..], t);
      if IsMapStateToProps(ds[0]) {
        AnnotatesEveryArrow(ds[0].init.fn, t);
      }
      var a := if IsMapStateToProps(ds[0]) then ArrowsUnder(ds[0].init.fn) else [];
      var a' := if IsMapStateToProps(ds'[0]) then ArrowsUnder(ds'[0].init.fn) else [];
      ParamsAnnotatedAppend(a, a', DeclaratorArrows(ds[1..]), DeclaratorArrows(tail), t);
    }
  }

  /** The rule annotates exactly the arrows it visits, in order, and the
      annotated body has the same arrows in the same places. */
  lemma {:induction false} BodyAnnotated(body: seq<Stmt>, t: string)
    ensures ParamsAnnotated(TargetArrows(body), TargetArrows(AnnotateBody(body, t)), t)
    decreases |body|
  {
    if body != [] {
      var b := AnnotateBody(body, t);
      assert b[1..] == AnnotateBody(body[1..], t);
      BodyAnnotated(body[1..], t);
      var a := if body[0].Variables? then DeclaratorArrows(body[0].declarators) else [];
      var a' := if b[0].Variables? then DeclaratorArrows(b[0].declarators) else [];
      if body[0].Variables? {
        DeclaratorsAnnotated(body[0].declarators, t);
      }
      ParamsAnnotatedAppend(a, a', TargetArrows(body[1..]), TargetArrows(b[1..]), t);
    }
  }

  /** The flag is the same on the annotated body: annotation keeps every
      identifier first parameter an identifier. */
  lemma DirtyKept(body: seq<Stmt>, t: string)
    ensures Dirty(AnnotateBody(body, t)) <==> Dirty(body)
  {
    BodyAnnotated(body, t);
    var a := TargetArrows(body);
    var b := TargetArrows(AnnotateBody(body, t));
    forall i | 0 <= i < |a|
      ensures TakesIdentifierFirst(b[i]) <==> TakesIdentifierFirst(a[i])
    {
    }
  }

  /** No arrow of a concatenation takes an identifier first, so none of either part does. */
  lemma NoneTakesSplit(a: seq<Fn>, b: seq<Fn>)
    requires forall i | 0 <= i < |a + b| :: !TakesIdentifierFirst((a + b)[i])
    ensures forall i | 0 <= i < |a| :: !TakesIdentifierFirst(a[i])
    ensures forall i | 0 <= i < |b| :: !TakesIdentifierFirst(b[i])
  {
    forall i | 0 <= i < |a| ensures !TakesIdentifierFirst(a[i]) {
      assert a[i] == (a + b)[i];
    }
    forall i | 0 <= i < |b| ensures !TakesIdentifierFirst(b[i]) {
      assert b[i] == (a + b)[|a| + i];
    }
  }

  lemma {:induction false} CleanDeclaratorsUnchanged(ds: seq<Declarator>, t: string)
    requires forall i | 0 <= i < |DeclaratorArrows(ds)| :: !TakesIdentifierFirst(DeclaratorArrows(ds)[i])
    ensures seq(|ds|, i requires 0 <= i < |ds| => AnnotateDeclarator(ds[i], t)) == ds
    decreases |ds|
  {
    if ds != [] {
      var a := if IsMapStateToProps(ds[0]) then ArrowsUnder(ds[0].init.fn) else [];
      var b := DeclaratorArrows(ds[1..]);
      assert DeclaratorArrows(ds) == a + b;
      NoneTakesSplit(a, b);
      CleanDeclaratorsUnchanged(ds[1..], t);
      if IsMapStateToProps(ds[0]) {
        CleanArrowUnchanged(ds[0].init.fn, t);
      }
      var ds' := seq(|ds|, i requires 0 <= i < |ds| => AnnotateDeclarator(ds[i], t));
      assert ds'[0] == ds[0];
      assert ds'[1..] == seq(|ds| - 1, i requires 0 <= i < |ds| - 1 => AnnotateDeclarator(ds[1..][i], t));
    }
  }

  /** Without an arrow to annotate the rule leaves the body as it was. */
  lemma {:induction false} CleanBodyUnchanged(body: seq<Stmt>, t: string)
    requires !Dirty(body)
    ensures AnnotateBody(body, t) == body
    decreases |body|
  {
    if body != [] {
      var a := if body[0].Variables? then DeclaratorArrows(body[0].declarators) else [];
      var b := TargetArrows(body[1..]);
      assert TargetArrows(body) == a + b;
      NoneTakesSplit(a, b);
      CleanBodyUnchanged(body[1..], t);
      CleanStmtUnchanged(body[0], t);
      AnnotateBodyCons(body[0], body[1..], t);
      assert body == [body[0]] + body[1..];
    }
  }

  lemma CleanStmtUnchanged(s: Stmt, t: string)
    requires s.Variables? ==>
               forall i | 0 <= i < |DeclaratorArrows(s.declarators)| :: !TakesIdentifierFirst(DeclaratorArrows(s.declarators)[i])
    ensures AnnotateStmt(s, t) == s
  {
    if s.Variables? {
      CleanDeclaratorsUnchanged(s.declarators, t);
    }
  }

  lemma AnnotateBodyCons(s: Stmt, rest: seq<Stmt>, t: string)
    ensures AnnotateBody([s] + rest, t) == [AnnotateStmt(s, t)] + AnnotateBody(rest, t)
  {
  }

  /** Annotating the body twice is annotating it once. */
  lemma AnnotateBodyIdempotent(body: seq<Stmt>, t: string)
    ensures AnnotateBody(AnnotateBody(body, t), t) == AnnotateBody(body, t)
  {
    forall i | 0 <= i < |body|
      ensures AnnotateStmt(AnnotateStmt(body[i], t), t) == AnnotateStmt(body[i], t)
    {
      var s := body[i];
      if s.Variables? {
        forall j | 0 <= j < |s.declarators|
          ensures AnnotateDeclarator(AnnotateDeclarator(s.declarators[j], t), t) == AnnotateDeclarator(s.declarators[j], t)
        {
          var d := s.declarators[j];
          if IsMapStateToProps(d) {
            AnnotateArrowIdempotent(d.init.fn, t);
          }
        }
      }
    }
  }

  // ---------------------------------------------------------------------------
  // The lazy mods and the driver.

  /** `import { S as S } from "src"` */
  function ImportOf(s: Settings): Stmt {
    Import([ImportNamed(s.stateTypeIdentifierName, s.stateTypeIdentifierName)], s.stateSourceLiteralValue, StringLiteralSource)
  }

  datatype Task = UpsertTypeAnnotation(settings: Settings) | AddImportStatement(settings: Settings)

  function TaskWeight(t: Task): nat {
    if t.UpsertTypeAnnotation? then 2 else 1
  }

  /** The two atomic mods: the annotation rule spawns the import only when it
      reported a change; the import is put first with no check for an
      existing one, and always reports a change. */
  function Apply(t: Task, body: seq<Stmt>): Step<Task, seq<Stmt>> {
    match t
    case UpsertTypeAnnotation(s) =>
      var dirty := Dirty(body);
      Step(dirty, if dirty then [AddImportStatement(s)] else [], AnnotateBody(body, s.stateTypeIdentifierName))
    case AddImportStatement(s) =>
      Step(true, [], [ImportOf(s)] + body)
  }

  lemma ApplyWeightDecreases()
    ensures WeightDecreases(Apply, TaskWeight)
  {
    forall t, d ensures Weight(TaskWeight, Apply(t, d).spawned) < TaskWeight(t) {
      var sp := Apply(t, d).spawned;
      if sp != [] {
        assert sp[1..] == [];
      }
    }
  }

  /** `transform`: the pop/unshift loop from the annotation rule; `None`
      (`undefined`) when no mod reported a change. */
  function Transform(body: seq<Stmt>, options: map<string, string>): Option<seq<Stmt>> {
    ApplyWeightDecreases();
    var empty: seq<Fired<Task>> := [];
    var r := DrainPopUnshift(Apply, TaskWeight, [UpsertTypeAnnotation(SettingsFrom(options))], body, false, empty);
    if !r.dirty then None else Some(r.doc)
  }

  /** The whole run: the annotation rule, then, only if it reported a change,
      the import, in that order. */
  lemma RunTrace(body: seq<Stmt>, options: map<string, string>)
    ensures WeightDecreases(Apply, TaskWeight)
    ensures var s := SettingsFrom(options);
            var empty: seq<Fired<Task>> := [];
            var r := DrainPopUnshift(Apply, TaskWeight, [UpsertTypeAnnotation(s)], body, false, empty);
            r.trace == (if Dirty(body) then [Fired(UpsertTypeAnnotation(s), true), Fired(AddImportStatement(s), true)]
                        else [Fired(UpsertTypeAnnotation(s), false)])
            && r.dirty == Dirty(body)
            && r.doc == (if Dirty(body) then [ImportOf(s)] else []) + AnnotateBody(body, s.stateTypeIdentifierName)
  {
    ApplyWeightDecreases();
    var s := SettingsFrom(options);
    var u := UpsertTypeAnnotation(s);
    var empty: seq<Fired<Task>> := [];
    var st := Apply(u, body);
    var pending := UnshiftEach([], st.spawned);
    var r1 := DrainPopUnshift(Apply, TaskWeight, pending, st.doc, st.changed, [Fired(u, st.changed)]);
    assert DrainPopUnshift(Apply, TaskWeight, [u], body, false, empty) == r1 by {
      assert [u][..0] == [];
      assert empty + [Fired(u, st.changed)] == [Fired(u, st.changed)];
    }
    if Dirty(body) {
      var a := AddImportStatement(s);
      assert pending == [a];
      var st2 := Apply(a, st.doc);
      assert [a][..0] == [];
      assert UnshiftEach([], st2.spawned) == [];
      assert [a][|[a]| - 1] == a;
      assert [Fired(u, true)] + [Fired(a, true)] == [Fired(u, true), Fired(a, true)];
      assert r1 == DrainPopUnshift(Apply, TaskWeight, [], st2.doc, true, [Fired(u, true), Fired(a, true)]);
    } else {
      assert pending == [];
    }
  }

  /** The result in closed form: `undefined` exactly when no visited arrow
      takes an identifier first, and otherwise the import followed by the
      annotated body. */
  lemma TransformReference(body: seq<Stmt>, options: map<string, string>)
    ensures var s := SettingsFrom(options);
            Transform(body, options) ==
              if Dirty(body) then Some([ImportOf(s)] + AnnotateBody(body, s.stateTypeIdentifierName)) else None
  {
    RunTrace(body, options);
  }

  /** When the codemod leaves a file alone it would not have changed it: a
      clean body is its own annotation. */
  lemma UndefinedOnlyWhenUnchanged(body: seq<Stmt>, options: map<string, string>)
    ensures Transform(body, options).None? <==> !Dirty(body)
    ensures !Dirty(body) ==> AnnotateBody(body, SettingsFrom(options).stateTypeIdentifierName) == body
  {
    TransformReference(body, options);
    if !Dirty(body) {
      CleanBodyUnchanged(body, SettingsFrom(options).stateTypeIdentifierName);
    }
  }

  lemma TargetArrowsSkipImport(s: Stmt, body: seq<Stmt>)
    requires s.Import?
    ensures TargetArrows([s] + body) == TargetArrows(body)
  {
    assert ([s] + body)[1..] == body;
  }

  /** An import in front changes neither the flag nor the annotation of the rest. */
  lemma ImportInFront(s: Settings, body: seq<Stmt>, t: string)
    ensures Dirty([ImportOf(s)] + body) <==> Dirty(body)
    ensures AnnotateBody([ImportOf(s)] + body, t) == [ImportOf(s)] + AnnotateBody(body, t)
  {
    TargetArrowsSkipImport(ImportOf(s), body);
    var r := AnnotateBody([ImportOf(s)] + body, t);
    assert r[0] == ImportOf(s);
    assert r[1..] == AnnotateBody(body, t);
  }

  /** Running the codemod on its own output annotates nothing new but adds a
      second, identical import: the import is not checked for. */
  lemma SecondRunDuplicatesImport(body: seq<Stmt>, options: map<string, string>)
    requires Transform(body, options).Some?
    ensures var s := SettingsFrom(options);
            Transform(Transform(body, options).value, options) ==
              Some([ImportOf(s), ImportOf(s)] + AnnotateBody(body, s.stateTypeIdentifierName))
  {
    var s := SettingsFrom(options);
    var t := s.stateTypeIdentifierName;
    var annotated := AnnotateBody(body, t);
    TransformReference(body, options);
    assert Transform(body, options).value == [ImportOf(s)] + annotated;
    DirtyKept(body, t);
    ImportInFront(s, annotated, t);
    AnnotateBodyIdempotent(body, t);
    TransformReference([ImportOf(s)] + annotated, options);
    assert [ImportOf(s)] + ([ImportOf(s)] + annotated) == [ImportOf(s), ImportOf(s)] + annotated;
  }

  /** With no options the state type is `State`, imported from `state`. */
  lemma DefaultSettings(body: seq<Stmt>)
    requires Dirty(body)
    ensures Transform(body, map[])
         == Some([Import([ImportNamed("State", "State")], "state", StringLiteralSource)] + AnnotateBody(body, "State"))
  {
    TransformReference(body, map[]);
  }

  /** With both options given, the import brings in the named type from the
      named module, and every annotation uses that type name. */
  lemma OptionsNameTheImport(body: seq<Stmt>, options: map<string, string>)
    requires Dirty(body) && TypeNameKey in options && SourceKey in options
    ensures var t := options[TypeNameKey];
            Transform(body, options)
              == Some([Import([ImportNamed(t, t)], options[SourceKey], StringLiteralSource)] + AnnotateBody(body, t))
  {
    TransformReference(body, options);
  }
}

=== FILE: react_router.dfy ===
/** The jscodeshift `react-router/6/redirect-to-navigate` codemod: every
    `<Redirect>` element becomes `<Navigate>`; without a `push` attribute it
    gains a `replace` attribute, with one it keeps only its named attributes
    other than `push`. The file is a list of JSX element trees; the code
    around them is not modelled. */
module ReactRouter {
  import opened Common

  datatype ElementName =
    | JsxIdentifier(name: string)
    | JsxNamespacedName(namespace: string, name: string)
    | JsxMemberExpression(object: string, property: string)

  datatype AttributeName = PlainName(name: string) | NamespacedAttributeName(namespace: string, name: string)

  datatype Attribute =
    | JsxAttribute(name: AttributeName, value: Option<string>)
    | JsxSpreadAttribute(argument: string)

  /** A JSX element: the opening element's name and attribute list (which
      may be missing), the child elements, and the closing element's name
      (`None` when self-closing). */
  datatype Element = Element(name: ElementName, attributes: Option<seq<Attribute>>, children: seq<Element>, closing: Option<ElementName>)

  const Redirect := JsxIdentifier("Redirect")
  const Navigate := JsxIdentifier("Navigate")
  const ReplaceAttribute := JsxAttribute(PlainName("replace"), None)

  /** The query `openingElement: { name: { name: 'Redirect' } }` matches a
      plain identifier only: the `name` of a namespaced name is a node, not a string. */
  predicate IsRedirect(e: Element) {
    e.name == Redirect
  }

  /** `'name' in a ? a.name.name === 'push' : false` */
  predicate IsPushAttribute(a: Attribute) {
    a.JsxAttribute? && a.name == PlainName("push")
  }

  /** `'name' in a ? a.name.name !== 'push' : false`: spreads are dropped. */
  predicate KeptWithPush(a: Attribute) {
    a.JsxAttribute? && a.name != PlainName("push")
  }

  /** `isPush`: the list exists and holds a `push` attribute. */
  predicate HasPush(attrs: Option<seq<Attribute>>) {
    attrs.Some? && Count(attrs.value, IsPushAttribute) > 0
  }

  /** The attribute list of a matched element after the rewrite. */
  function RewriteAttributes(attrs: Option<seq<Attribute>>): (r: Option<seq<Attribute>>)
    ensures !HasPush(attrs) && attrs.None? ==> r.None?
    ensures !HasPush(attrs) && attrs.Some? ==> r == Some(attrs.value + [ReplaceAttribute])
    ensures HasPush(attrs) ==> r.Some? && r.value == Filter(attrs.value, KeptWithPush)
    ensures HasPush(attrs) ==> forall a :: a in r.value <==> a in attrs.value && a.JsxAttribute? && !IsPushAttribute(a)
  {
    if !HasPush(attrs) then
      if attrs.Some? then Some(attrs.value + [ReplaceAttribute]) else None
    else
      Some(Filter(attrs.value, KeptWithPush))
  }

  /** The rewrite of one element tree. The source renames only the opening
      element (`renameClosing` false); the corrected rewrite renames the
      closing element too. */
  function RewriteWith(e: Element, renameClosing: bool): (r: Element)
    ensures |r.children| == |e.children|
    ensures forall i | 0 <= i < |e.children| :: r.children[i] == RewriteWith(e.children[i], renameClosing)
    ensures IsRedirect(e) ==> r.name == Navigate && r.attributes == RewriteAttributes(e.attributes)
    ensures !IsRedirect(e) ==> r.name == e.name && r.attributes == e.attributes && r.closing == e.closing
    ensures IsRedirect(e) && renameClosing ==> r.closing == (if e.closing.Some? then Some(Navigate) else None)
    ensures IsRedirect(e) && !renameClosing ==> r.closing == e.closing
    decreases e
  {
    var children := seq(|e.children|, i requires 0 <= i < |e.children| => RewriteWith(e.children[i], renameClosing));
    if !IsRedirect(e) then e.(children := children)
    else
      var closing := if renameClosing && e.closing.Some? then Some(Navigate) else e.closing;
      Element(Navigate, RewriteAttributes(e.attributes), children, closing)
  }

  function RewriteAsWritten(e: Element): Element {
    RewriteWith(e, false)
  }

  function Rewrite(e: Element): Element {
    RewriteWith(e, true)
  }

  function RewriteDoc(doc: seq<Element>, renameClosing: bool): (r: seq<Element>)
    ensures |r| == |doc| && forall i | 0 <= i < |doc| :: r[i] == RewriteWith(doc[i], renameClosing)
  {
    seq(|doc|, i requires 0 <= i < |doc| => RewriteWith(doc[i], renameClosing))
  }

  /** Some element of the tree is a `<Redirect>`. */
  predicate HasRedirect(e: Element)
    decreases e
  {
    IsRedirect(e) || exists i | 0 <= i < |e.children| :: HasRedirect(e.children[i])
  }

  predicate DocHasRedirect(doc: seq<Element>) {
    exists i | 0 <= i < |doc| :: HasRedirect(doc[i])
  }

  /** A tree without a `<Redirect>` is left as it is. */
  lemma {:induction false} NoRedirectUnchanged(e: Element, renameClosing: bool)
    requires !HasRedirect(e)
    ensures RewriteWith(e, renameClosing) == e
    decreases e
  {
    forall i | 0 <= i < |e.children|
      ensures RewriteWith(e.children[i], renameClosing) == e.children[i]
    {
      NoRedirectUnchanged(e.children[i], renameClosing);
    }
  }

  /** A tree with a `<Redirect>` is changed: the match is renamed. */
  lemma {:induction false} RedirectChanged(e: Element, renameClosing: bool)
    requires HasRedirect(e)
    ensures RewriteWith(e, renameClosing) != e
    decreases e
  {
    if !IsRedirect(e) {
      var i :| 0 <= i < |e.children| && HasRedirect(e.children[i]);
      RedirectChanged(e.children[i], renameClosing);
      assert RewriteWith(e, renameClosing).children[i] != e.children[i];
    }
  }

  /** No `<Redirect>` is left after the rewrite. */
  lemma {:induction false} NoRedirectLeft(e: Element, renameClosing: bool)
    ensures !HasRedirect(RewriteWith(e, renameClosing))
    decreases e
  {
    var r := RewriteWith(e, renameClosing);
    forall i | 0 <= i < |r.children|
      ensures !HasRedirect(r.children[i])
    {
      NoRedirectLeft(e.children[i], renameClosing);
    }
  }

  /** Rewriting twice is rewriting once: a renamed element no longer matches. */
  lemma RewriteIdempotent(e: Element, renameClosing: bool)
    ensures RewriteWith(RewriteWith(e, renameClosing), renameClosing) == RewriteWith(e, renameClosing)
  {
    NoRedirectLeft(e, renameClosing);
    NoRedirectUnchanged(RewriteWith(e, renameClosing), renameClosing);
  }

  // ---------------------------------------------------------------------------
  // Matching closing tags.

  /** Every element's closing tag, when there is one, names the element. */
  predicate WellFormed(e: Element)
    decreases e
  {
    (e.closing.None? || e.closing.value == e.name)
    && forall i | 0 <= i < |e.children| :: WellFormed(e.children[i])
  }

  /** The corrected rewrite keeps every closing tag matching. */
  lemma {:induction false} RewriteKeepsWellFormed(e: Element)
    requires WellFormed(e)
    ensures WellFormed(Rewrite(e))
    decreases e
  {
    forall i | 0 <= i < |e.children|
      ensures WellFormed(Rewrite(e.children[i]))
    {
      RewriteKeepsWellFormed(e.children[i]);
    }
  }

  const RedirectWithClosingTag := Element(Redirect, Some([JsxAttribute(PlainName("to"), Some("/"))]), [], Some(Redirect))

  /** As written, `<Redirect to="/"></Redirect>` becomes
      `<Navigate to="/" replace></Redirect>`. */
  lemma AsWrittenMismatchesClosingTag()
    ensures WellFormed(RedirectWithClosingTag)
    ensures RewriteAsWritten(RedirectWithClosingTag).name == Navigate
    ensures RewriteAsWritten(RedirectWithClosingTag).closing == Some(Redirect)
    ensures !WellFormed(RewriteAsWritten(RedirectWithClosingTag))
  {
  }

  // ---------------------------------------------------------------------------
  // `transform`.

  /** `transform` as written: `dirtyFlag` is a constant `false`, so the
      rewritten file is never returned. */
  function TransformAsWritten(doc: seq<Element>, printer: seq<Element> -> string): (r: Option<string>)
    ensures r.None?
  {
    var rewritten := RewriteDoc(doc, false);
    var dirtyFlag := false;
    if !dirtyFlag then None else Some(printer(rewritten))
  }

  /** A file with a `<Redirect>` is rewritten, yet `transform` reports no change. */
  lemma AsWrittenDropsRewrite(printer: seq<Element> -> string)
    ensures RewriteDoc([RedirectWithClosingTag], false) != [RedirectWithClosingTag]
    ensures TransformAsWritten([RedirectWithClosingTag], printer) == None
  {
    assert RewriteDoc([RedirectWithClosingTag], false)[0].name == Navigate;
  }

  /** The corrected `transform`: the file is printed when a `<Redirect>` was
      found, and `undefined` otherwise. */
  function Transform(doc: seq<Element>, printer: seq<Element> -> string): (r: Option<string>)
    ensures r.Some? <==> DocHasRedirect(doc)
    ensures r.Some? ==> r.value == printer(RewriteDoc(doc, true))
  {
    if DocHasRedirect(doc) then Some(printer(RewriteDoc(doc, true))) else None
  }

  /** The corrected `transform` returns a file exactly when the rewrite changed it. */
  lemma TransformIffChanged(doc: seq<Element>, printer: seq<Element> -> string)
    ensures Transform(doc, printer).Some? <==> RewriteDoc(doc, true) != doc
  {
    if DocHasRedirect(doc) {
      var i :| 0 <= i < |doc| && HasRedirect(doc[i]);
      RedirectChanged(doc[i], true);
      assert RewriteDoc(doc, true)[i] != doc[i];
    } else {
      forall i | 0 <= i < |doc| ensures RewriteWith(doc[i], true) == doc[i] {
        NoRedirectUnchanged(doc[i], true);
      }
    }
  }
}

=== FILE: search_params.dfy ===
/** The Next.js 13 `replace-use-search-params` transform: every
    `useSearchParams()` call becomes `useCompatSearchParams()`, and only when
    one was found are the `useSearchParams` specifiers dropped from
    `next/navigation` imports and an import of the compatibility hook
    prepended. */
module SearchParams {
  import opened Common
  import opened Syntax
  import opened Engine

  /** The callee of a call expression: an identifier, or anything else. */
  datatype Callee = IdentCallee(name: string) | OtherCallee

  /** The file: its top-level statements, and the callees of its call
      expressions in document order. */
  datatype Source = Source(body: seq<Stmt>, calls: seq<Callee>)

  const OldHook := IdentCallee("useSearchParams")
  const NewHook := IdentCallee("useCompatSearchParams")
  const NavigationModule := "next/navigation"

  /** One lazy mod function. Call and import handles are positions captured
      when the finder ran; the import handle counts from the end of the body
      so that removing an earlier import does not move it. */
  datatype Task =
    | FindCallExpressions
    | ReplaceCallExpression(index: nat)
    | FindImportDeclaration
    | ReplaceImportDeclaration(fromEnd: nat)
    | AddImportDeclaration(hookModuleSpecifier: string)

  function Rank(t: Task): nat {
    match t
    case FindCallExpressions => 1
    case FindImportDeclaration => 1
    case _ => 0
  }

  // ---------------------------------------------------------------------------
  // Calls

  /** `replaceCallExpression` for each call in `idx`, in order. */
  function ReplaceTasks(idx: seq<nat>): (r: seq<Task>)
    ensures |r| == |idx|
    ensures forall j | 0 <= j < |idx| :: r[j] == ReplaceCallExpression(idx[j])
    decreases |idx|
  {
    if idx == [] then [] else [ReplaceCallExpression(idx[0])] + ReplaceTasks(idx[1..])
  }

  function Range(n: nat): (r: seq<nat>)
    ensures |r| == n && forall i | 0 <= i < n :: r[i] == i
  {
    seq(n, i requires 0 <= i < n => i)
  }

  /** Positions of the `useSearchParams()` calls, in document order. */
  function OldHookCalls(calls: seq<Callee>): (r: seq<nat>)
    ensures forall i | 0 <= i < |r| :: r[i] < |calls|
    ensures forall i | 0 <= i < |calls| :: i in r <==> calls[i] == OldHook
  {
    var p: nat -> bool := (i: nat) => i < |calls| && calls[i] == OldHook;
    var r: seq<nat> := Filter<nat>(Range(|calls|), p);
    forall i | 0 <= i < |r| ensures r[i] < |calls| {
      assert r[i] in r;
    }
    assert forall i | 0 <= i < |calls| :: i in Range(|calls|) by {
      forall i | 0 <= i < |calls| ensures i in Range(|calls|) { assert Range(|calls|)[i] == i; }
    }
    r
  }

  // ---------------------------------------------------------------------------
  // Imports

  /** The specifiers `replaceImportDeclaration` keeps: all but named imports of `useSearchParams`. */
  predicate KeepsSpecifier(s: Specifier) {
    !(s.ImportNamed? && s.imported == "useSearchParams")
  }

  predicate IsNavigationImport(s: Stmt) {
    s.Import? && s.source == NavigationModule
  }

  /** A `next/navigation` import after `replaceImportDeclaration`: nothing
      when no specifier is left, otherwise the import with the kept
      specifiers in their order. Any other statement is kept as it is. */
  function CleanImport(s: Stmt): (r: seq<Stmt>)
    ensures |r| <= 1
    ensures !IsNavigationImport(s) ==> r == [s]
    ensures IsNavigationImport(s) ==>
              (r == [] <==> forall i | 0 <= i < |s.specifiers| :: !KeepsSpecifier(s.specifiers[i]))
    ensures IsNavigationImport(s) && r != [] ==>
              r[0] == s.(specifiers := Filter(s.specifiers, KeepsSpecifier))
  {
    if !IsNavigationImport(s) then [s]
    else
      var kept := Filter(s.specifiers, KeepsSpecifier);
      assert kept == [] <==> forall i | 0 <= i < |s.specifiers| :: !KeepsSpecifier(s.specifiers[i]) by {
        if kept == [] {
          forall i | 0 <= i < |s.specifiers| ensures !KeepsSpecifier(s.specifiers[i]) {
            assert s.specifiers[i] in s.specifiers;
          }
        } else {
          assert kept[0] in kept;
        }
      }
      if kept == [] then [] else [s.(specifiers := kept)]
  }

  /** Reference definition of the import pass: every statement cleaned in place. */
  function CleanImports(body: seq<Stmt>): seq<Stmt>
    decreases |body|
  {
    if body == [] then [] else CleanImport(body[0]) + CleanImports(body[1..])
  }

  lemma {:induction false} CleanImportsAppend(a: seq<Stmt>, b: seq<Stmt>)
    ensures CleanImports(a + b) == CleanImports(a) + CleanImports(b)
    decreases |a|
  {
    if a == [] {
      assert a + b == b;
    } else {
      assert (a + b)[0] == a[0];
      assert (a + b)[1..] == a[1..] + b;
      CleanImportsAppend(a[1..], b);
    }
  }

  /** `replaceImportDeclaration` for every `next/navigation` import at
      position `i` or later, in document order, with handles from the end. */
  function ImportTasksFrom(body: seq<Stmt>, i: nat): (r: seq<Task>)
    requires i <= |body|
    ensures forall j | 0 <= j < |r| :: r[j].ReplaceImportDeclaration?
    decreases |body| - i
  {
    if i == |body| then []
    else (if IsNavigationImport(body[i]) then [ReplaceImportDeclaration(|body| - i)] else []) + ImportTasksFrom(body, i + 1)
  }

  /** `import { useCompatSearchParams } from "<hookModuleSpecifier>"` */
  function HookImport(hookModuleSpecifier: string): Stmt {
    Import([ImportNamed("useCompatSearchParams", "useCompatSearchParams")], hookModuleSpecifier, PlainLiteralSource)
  }

  // ---------------------------------------------------------------------------
  // The rules

  function Apply(t: Task, src: Source): Step<Task, Source> {
    match t
    case FindCallExpressions =>
      Step(false, ReplaceTasks(OldHookCalls(src.calls)), src)
    case ReplaceCallExpression(i) =>
      Step(true, [], if i < |src.calls| then src.(calls := src.calls[i := NewHook]) else src)
    case FindImportDeclaration =>
      Step(false, ImportTasksFrom(src.body, 0), src)
    case ReplaceImportDeclaration(k) =>
      var i := |src.body| - k;
      Step(true, [],
        if 0 <= i < |src.body| then src.(body := src.body[..i] + CleanImport(src.body[i]) + src.body[i + 1..]) else src)
    case AddImportDeclaration(spec) =>
      Step(false, [], src.(body := [HookImport(spec)] + src.body))
  }

  lemma ApplyRankDecreases()
    ensures RankDecreases(Apply, Rank)
  {
    forall t, d, i | 0 <= i < |Apply(t, d).spawned|
      ensures Rank(Apply(t, d).spawned[i]) < Rank(t)
    {
      if t.FindImportDeclaration? {
        assert Apply(t, d).spawned[i].ReplaceImportDeclaration?;
      }
    }
  }

  /** `transform`: the call pass, and only when it changed something the
      import passes; `None` stands for `undefined`. */
  function Transform(src: Source, hookModuleSpecifier: string): Option<Source> {
    ApplyRankDecreases();
    var calls := RunAll(Apply, Rank, [FindCallExpressions], src);
    if !calls.dirty then None
    else
      var imports := RunAll(Apply, Rank, [FindImportDeclaration, AddImportDeclaration(hookModuleSpecifier)], calls.doc);
      Some(imports.doc)
  }

  // ---------------------------------------------------------------------------
  // Reference definition and the theorem connecting it to the driver.

  /** Every `useSearchParams` callee replaced, every other callee kept. */
  function ReplaceAll(calls: seq<Callee>): (r: seq<Callee>)
    ensures |r| == |calls|
    ensures forall i | 0 <= i < |calls| :: r[i] == (if calls[i] == OldHook then NewHook else calls[i])
  {
    seq(|calls|, i requires 0 <= i < |calls| => if calls[i] == OldHook then NewHook else calls[i])
  }

  /** The callees with each position of `idx` replaced. */
  function UpdateAll(calls: seq<Callee>, idx: seq<nat>): (r: seq<Callee>)
    ensures |r| == |calls|
    ensures forall i | 0 <= i < |calls| :: r[i] == (if i in idx then NewHook else calls[i])
    decreases |idx|
  {
    if idx == [] then calls
    else
      var c := if idx[0] < |calls| then calls[idx[0] := NewHook] else calls;
      var r := UpdateAll(c, idx[1..]);
      assert forall i | 0 <= i < |calls| :: i in idx <==> i == idx[0] || i in idx[1..];
      r
  }

  /** Replacing the calls at `idx` one task at a time. */
  lemma {:induction false} RunReplaces(idx: seq<nat>, src: Source)
    requires RankDecreases(Apply, Rank)
    ensures var r := RunAll(Apply, Rank, ReplaceTasks(idx), src);
            r.doc == src.(calls := UpdateAll(src.calls, idx)) && (r.dirty <==> idx != [])
    decreases |idx|
  {
    if idx != [] {
      var ts := ReplaceTasks(idx);
      assert ts[1..] == ReplaceTasks(idx[1..]);
      var first := RunTask(Apply, Rank, ts[0], src);
      RunTaskLeaf(Apply, Rank, ts[0], src);
      RunReplaces(idx[1..], first.doc);
    }
  }

  /** The call finder changes nothing itself and hands over to one replace task per call. */
  lemma FindCallsRun(src: Source)
    requires RankDecreases(Apply, Rank)
    ensures var r := RunAll(Apply, Rank, [FindCallExpressions], src);
            var rs := RunAll(Apply, Rank, ReplaceTasks(OldHookCalls(src.calls)), src);
            r.doc == rs.doc && r.dirty == rs.dirty
  {
    RunAllSingle(Apply, Rank, FindCallExpressions, src);
    assert Apply(FindCallExpressions, src) == Step(false, ReplaceTasks(OldHookCalls(src.calls)), src);
  }

  /** The call pass replaces exactly the `useSearchParams` calls and is
      dirty exactly when there was one. */
  lemma CallPass(src: Source)
    requires RankDecreases(Apply, Rank)
    ensures var r := RunAll(Apply, Rank, [FindCallExpressions], src);
            r.doc == src.(calls := ReplaceAll(src.calls))
            && (r.dirty <==> OldHook in src.calls)
  {
    var idx := OldHookCalls(src.calls);
    FindCallsRun(src);
    RunReplaces(idx, src);
    assert UpdateAll(src.calls, idx) == ReplaceAll(src.calls);
    if OldHook in src.calls {
      var i :| 0 <= i < |src.calls| && src.calls[i] == OldHook;
      assert i in idx;
    }
    assert idx != [] ==> idx[0] in idx;
  }

  /** The statements before `i` cleaned and the rest untouched. */
  function PartlyCleaned(body: seq<Stmt>, i: nat, calls: seq<Callee>): Source
    requires i <= |body|
  {
    Source(CleanImports(body[..i]) + body[i..], calls)
  }

  lemma CleanSingle(s: Stmt)
    ensures CleanImports([s]) == CleanImport(s)
  {
    assert [s][1..] == [];
  }

  /** Cleaning one more statement of the prefix appends its cleaned form. */
  lemma CleanPrefixSnoc(body: seq<Stmt>, i: nat)
    requires i < |body|
    ensures CleanImports(body[..i + 1]) == CleanImports(body[..i]) + CleanImport(body[i])
  {
    assert body[..i + 1] == body[..i] + [body[i]];
    CleanImportsAppend(body[..i], [body[i]]);
    CleanSingle(body[i]);
  }

  /** The cleaned prefix, the statement at `i` and the rest. */
  lemma PartlyCleanedSplit(body: seq<Stmt>, i: nat, calls: seq<Callee>)
    requires i < |body|
    ensures PartlyCleaned(body, i, calls).body == CleanImports(body[..i]) + [body[i]] + body[i + 1..]
    ensures PartlyCleaned(body, i + 1, calls).body == CleanImports(body[..i]) + CleanImport(body[i]) + body[i + 1..]
  {
    CleanPrefixSnoc(body, i);
    DropOne(body, i);
    ConcatAssoc(CleanImports(body[..i]), [body[i]], body[i + 1..]);
  }

  /** A replace handle counted from the end cleans the statement it was taken for. */
  lemma ReplaceImportAt(pre: seq<Stmt>, s: Stmt, post: seq<Stmt>, calls: seq<Callee>)
    ensures Apply(ReplaceImportDeclaration(|post| + 1), Source(pre + [s] + post, calls))
         == Step(true, [], Source(pre + CleanImport(s) + post, calls))
  {
    var b := pre + [s] + post;
    var k := |b| - (|post| + 1);
    assert k == |pre|;
    assert b[k] == s;
    assert b[..k] == pre;
    assert b[k + 1..] == post;
  }

  /** The handle of the import at `i`, if it is one, cleans exactly that statement. */
  lemma ImportTaskAt(body: seq<Stmt>, i: nat, calls: seq<Callee>)
    requires RankDecreases(Apply, Rank)
    requires i < |body|
    ensures var head := if IsNavigationImport(body[i]) then [ReplaceImportDeclaration(|body| - i)] else [];
            RunAll(Apply, Rank, head, PartlyCleaned(body, i, calls)).doc == PartlyCleaned(body, i + 1, calls)
  {
    var src := PartlyCleaned(body, i, calls);
    PartlyCleanedSplit(body, i, calls);
    if IsNavigationImport(body[i]) {
      var t := ReplaceImportDeclaration(|body| - i);
      RunAllSingle(Apply, Rank, t, src);
      assert |body[i + 1..]| + 1 == |body| - i;
      ReplaceImportAt(CleanImports(body[..i]), body[i], body[i + 1..], calls);
      RunTaskLeaf(Apply, Rank, t, src);
    }
  }

  /** The handles from position `i` on find their imports while the
      statements before `i` are already cleaned. */
  lemma {:induction false} RunImportTasks(body: seq<Stmt>, i: nat, calls: seq<Callee>)
    requires RankDecreases(Apply, Rank)
    requires i <= |body|
    ensures RunAll(Apply, Rank, ImportTasksFrom(body, i), PartlyCleaned(body, i, calls)).doc
         == Source(CleanImports(body), calls)
    decreases |body| - i
  {
    if i == |body| {
      assert body[..i] == body;
      assert body[i..] == [];
    } else {
      var head := if IsNavigationImport(body[i]) then [ReplaceImportDeclaration(|body| - i)] else [];
      var tail := ImportTasksFrom(body, i + 1);
      assert ImportTasksFrom(body, i) == head + tail;
      RunAllAppend(Apply, Rank, head, tail, PartlyCleaned(body, i, calls));
      ImportTaskAt(body, i, calls);
      RunImportTasks(body, i + 1, calls);
    }
  }

  lemma NothingCleanedYet(src: Source)
    ensures PartlyCleaned(src.body, 0, src.calls) == src
  {
    assert src.body[..0] == [] && src.body[0..] == src.body;
    assert CleanImports([]) == [];
  }

  /** The import finder cleans every `next/navigation` import in place. */
  lemma FindImportsRun(src: Source)
    requires RankDecreases(Apply, Rank)
    ensures RunAll(Apply, Rank, [FindImportDeclaration], src).doc == Source(CleanImports(src.body), src.calls)
  {
    RunAllSingle(Apply, Rank, FindImportDeclaration, src);
    NothingCleanedYet(src);
    RunImportTasks(src.body, 0, src.calls);
  }

  /** The import adder puts the hook import first. */
  lemma AddImportRun(hookModuleSpecifier: string, src: Source)
    requires RankDecreases(Apply, Rank)
    ensures RunAll(Apply, Rank, [AddImportDeclaration(hookModuleSpecifier)], src).doc
         == src.(body := [HookImport(hookModuleSpecifier)] + src.body)
  {
    RunAllSingle(Apply, Rank, AddImportDeclaration(hookModuleSpecifier), src);
    RunTaskLeaf(Apply, Rank, AddImportDeclaration(hookModuleSpecifier), src);
  }

  /** The import pass cleans `next/navigation` imports in place and then
      puts the hook import first. */
  lemma ImportPass(src: Source, hookModuleSpecifier: string)
    requires RankDecreases(Apply, Rank)
    ensures RunAll(Apply, Rank, [FindImportDeclaration, AddImportDeclaration(hookModuleSpecifier)], src).doc
         == Source([HookImport(hookModuleSpecifier)] + CleanImports(src.body), src.calls)
  {
    var f := FindImportDeclaration;
    var add := AddImportDeclaration(hookModuleSpecifier);
    RunAllAppend(Apply, Rank, [f], [add], src);
    assert [f] + [add] == [f, add];
    FindImportsRun(src);
    AddImportRun(hookModuleSpecifier, RunAll(Apply, Rank, [f], src).doc);
  }

  /** The reference theorem: a file without a `useSearchParams()` call is
      left alone; otherwise every such call is replaced, the
      `next/navigation` imports lose their `useSearchParams` specifiers (and
      vanish when nothing is left), and the hook import comes first. */
  lemma TransformReference(src: Source, hookModuleSpecifier: string)
    ensures Transform(src, hookModuleSpecifier)
         == if OldHook !in src.calls then None
            else Some(Source([HookImport(hookModuleSpecifier)] + CleanImports(src.body), ReplaceAll(src.calls)))
  {
    ApplyRankDecreases();
    CallPass(src);
    if OldHook in src.calls {
      ImportPass(src.(calls := ReplaceAll(src.calls)), hookModuleSpecifier);
    }
  }

  /** A transformed file has no `useSearchParams()` call left, so running
      the transform again leaves it alone. */
  lemma TransformSettles(src: Source, hookModuleSpecifier: string)
    requires Transform(src, hookModuleSpecifier).Some?
    ensures Transform(Transform(src, hookModuleSpecifier).value, hookModuleSpecifier).None?
  {
    TransformReference(src, hookModuleSpecifier);
    var out := Transform(src, hookModuleSpecifier).value;
    assert out.calls == ReplaceAll(src.calls);
    assert OldHook !in out.calls by {
      forall i | 0 <= i < |out.calls| ensures out.calls[i] != OldHook {}
    }
    TransformReference(out, hookModuleSpecifier);
  }
}

=== FILE: search_params_repomod.dfy ===
/** The repomod around the `replace-use-search-params` transform: the run
    state records where the compatibility hook goes and whether it has been
    asked for; `handleFile` asks for it once, `handleData` writes given file
    contents verbatim and otherwise rewrites the file. The source mutates the
    state object in place; here `HandleFile` returns the new state. */
module SearchParamsRepomod {
  import opened Common
  import opened Syntax
  import opened Commands
  import opened Paths
  import SearchParams

  datatype HookPathType = Relative | Absolute

  datatype State = State(hookCreated: bool, hookModuleSpecifier: string, hookPathType: HookPathType, hookPath: string)

  const AbsolutePathKey := "useCompatSearchParamsHookAbsolutePath"
  const RelativePathKey := "useCompatSearchParamsHookRelativePath"
  const ModuleSpecifierKey := "useCompatSearchParamsHookModuleSpecifier"
  const FileContentKey := "fileContent"

  /** Stands for the text of the `useCompatSearchParams` hook module. */
  const HookContent := "export const useCompatSearchParams = () => { /* ... */ };"

  /** `initializeState`: the absolute hook path wins over the relative one;
      without either, or without a string module specifier, it throws, even
      when a previous state is given; otherwise the previous state, or a
      fresh one that has not created the hook yet. */
  function InitializeState(options: Options, previous: Option<State>): (r: Result<State>)
    ensures r.Thrown? <==>
              (TextOption(options, AbsolutePathKey).None? && TextOption(options, RelativePathKey).None?)
              || TextOption(options, ModuleSpecifierKey).None?
    ensures r.Ok? && previous.Some? ==> r.value == previous.value
    ensures r.Ok? && previous.None? ==>
              !r.value.hookCreated
              && r.value.hookModuleSpecifier == TextOption(options, ModuleSpecifierKey).value
              && (TextOption(options, AbsolutePathKey).Some? ==>
                    r.value.hookPathType == Absolute && r.value.hookPath == TextOption(options, AbsolutePathKey).value)
              && (TextOption(options, AbsolutePathKey).None? ==>
                    r.value.hookPathType == Relative && r.value.hookPath == TextOption(options, RelativePathKey).value)
  {
    var abs := TextOption(options, AbsolutePathKey);
    var rel := TextOption(options, RelativePathKey);
    var spec := TextOption(options, ModuleSpecifierKey);
    if (abs.None? && rel.None?) || spec.None? then
      Thrown("Neither the absolute nor the relative hook paths are present in the options")
    else
      var initial := if abs.Some? then State(false, spec.value, Absolute, abs.value)
                   else State(false, spec.value, Relative, rel.value);
      Ok(previous.GetOr(initial))
  }

  /** Where the hook file is written: `join(cwd, hookPath)` for a relative
      hook path, the hook path itself for an absolute one. */
  function HookFilePath(cwd: string, s: State): (r: string)
    ensures s.hookPathType == Absolute ==> r == s.hookPath
    ensures s.hookPathType == Relative ==>
              Segments(r) == Segments(cwd) + Segments(s.hookPath) && (IsAbsolute(r) <==> IsAbsolute(cwd) || (cwd == "" && IsAbsolute(s.hookPath)))
  {
    match s.hookPathType
    case Absolute => s.hookPath
    case Relative =>
      JoinPathSegments(cwd, s.hookPath);
      JoinPath(cwd, s.hookPath)
  }

  function HookCommand(cwd: string, s: State, options: Options): FileCommand {
    UpsertFile(HookFilePath(cwd, s), options[FileContentKey := Text(HookContent)])
  }

  /** `handleFile`: the hook upsert first when the state has not created it
      yet (which it then records), and always the file's own upsert last. */
  function HandleFile(cwd: string, path: string, options: Options, state: Option<State>): (r: (seq<FileCommand>, Option<State>))
    ensures state.None? ==> r == ([UpsertFile(path, options)], None)
    ensures state.Some? && state.value.hookCreated ==> r == ([UpsertFile(path, options)], state)
    ensures state.Some? && !state.value.hookCreated ==>
              r == ([HookCommand(cwd, state.value, options), UpsertFile(path, options)],
                    Some(state.value.(hookCreated := true)))
  {
    if state.Some? && !state.value.hookCreated then
      ([HookCommand(cwd, state.value, options), UpsertFile(path, options)], Some(state.value.(hookCreated := true)))
    else
      ([UpsertFile(path, options)], state)
  }

  /** A fresh run writes the hook with the first file, at the absolute hook
      path when one is given and at the relative one joined to `cwd`
      otherwise, records that it did, and emits only its own upsert for the
      next file. */
  lemma FreshRunWritesHookOnce(cwd: string, path: string, next: string, options: Options)
    requires InitializeState(options, None).Ok?
    ensures var s := InitializeState(options, None).value;
            var first := HandleFile(cwd, path, options, Some(s));
            var abs := TextOption(options, AbsolutePathKey);
            |first.0| == 2
            && first.0[0].path == (if abs.Some? then abs.value else JoinPath(cwd, TextOption(options, RelativePathKey).value))
            && first.0[1] == UpsertFile(path, options)
            && first.1.Some? && first.1.value.hookCreated
            && HandleFile(cwd, next, options, first.1).0 == [UpsertFile(next, options)]
  {
  }

  /** `handleData`: throws without a state; writes a string `fileContent`
      option verbatim; otherwise rewrites the file and emits nothing when
      the transform leaves it alone. */
  function HandleData(path: string, data: string, options: Options, state: Option<State>,
                      parse: string -> SearchParams.Source, printer: SearchParams.Source -> string): (r: Result<DataCommand>)
    ensures r.Thrown? <==> state.None?
    ensures state.Some? && TextOption(options, FileContentKey).Some? ==>
              r == Ok(UpsertData(path, TextOption(options, FileContentKey).value))
    ensures state.Some? && TextOption(options, FileContentKey).None? ==>
              (r == Ok(Noop) <==> SearchParams.OldHook !in parse(data).calls)
    ensures r.Ok? && r.value.UpsertData? ==> r.value.path == path
  {
    if state.None? then Thrown("Could not find state.")
    else if TextOption(options, FileContentKey).Some? then Ok(UpsertData(path, TextOption(options, FileContentKey).value))
    else
      SearchParams.TransformReference(parse(data), state.value.hookModuleSpecifier);
      match SearchParams.Transform(parse(data), state.value.hookModuleSpecifier)
      case None => Ok(Noop)
      case Some(rewritten) => Ok(UpsertData(path, printer(rewritten)))
  }

  // ---------------------------------------------------------------------------
  // A run: `handleFile` over the files in order, threading the state.

  function RunFiles(cwd: string, paths: seq<string>, options: Options, state: Option<State>): seq<FileCommand>
    decreases |paths|
  {
    if paths == [] then []
    else
      var (cmds, s) := HandleFile(cwd, paths[0], options, state);
      cmds + RunFiles(cwd, paths[1..], options, s)
  }

  lemma RunFilesCons(cwd: string, paths: seq<string>, options: Options, state: Option<State>)
    requires paths != []
    ensures var h := HandleFile(cwd, paths[0], options, state);
            RunFiles(cwd, paths, options, state) == h.0 + RunFiles(cwd, paths[1..], options, h.1)
  {
  }

  /** Once the hook is created (or without a state) every file yields only its own upsert. */
  lemma {:induction false} RunFilesDone(cwd: string, paths: seq<string>, options: Options, state: Option<State>)
    requires state.None? || state.value.hookCreated
    ensures RunFiles(cwd, paths, options, state) == OwnUpserts(paths, options)
    decreases |paths|
  {
    if paths != [] {
      RunFilesCons(cwd, paths, options, state);
      OwnUpsertsCons(paths, options);
      RunFilesDone(cwd, paths[1..], options, state);
    }
  }

  /** A state that has not created the hook asks for it in front of the file's own upsert. */
  lemma HandleFileFresh(cwd: string, path: string, options: Options, s: State)
    requires !s.hookCreated
    ensures HandleFile(cwd, path, options, Some(s)).0 == [HookCommand(cwd, s, options)] + [UpsertFile(path, options)]
    ensures HandleFile(cwd, path, options, Some(s)).1 == Some(s.(hookCreated := true))
  {
  }

  lemma RunFilesFresh(cwd: string, paths: seq<string>, options: Options, s: State)
    requires !s.hookCreated && paths != []
    ensures RunFiles(cwd, paths, options, Some(s)) == [HookCommand(cwd, s, options)] + OwnUpserts(paths, options)
  {
    var hook := [HookCommand(cwd, s, options)];
    var own := [UpsertFile(paths[0], options)];
    var rest := OwnUpserts(paths[1..], options);
    HandleFileFresh(cwd, paths[0], options, s);
    RunFilesCons(cwd, paths, options, Some(s));
    OwnUpsertsCons(paths, options);
    RunFilesDone(cwd, paths[1..], options, Some(s.(hookCreated := true)));
    ConcatAssoc(hook, own, rest);
  }

  /** Over a run the hook is asked for at most once: exactly once, first,
      when the state had not created it and there is a file; every file's
      own upsert follows in order. */
  lemma HookAtMostOnce(cwd: string, paths: seq<string>, options: Options, state: Option<State>)
    ensures RunFiles(cwd, paths, options, state)
         == (if state.Some? && !state.value.hookCreated && paths != [] then [HookCommand(cwd, state.value, options)] else [])
            + OwnUpserts(paths, options)
  {
    if paths != [] && state.Some? && !state.value.hookCreated {
      RunFilesFresh(cwd, paths, options, state.value);
    } else {
      RunFilesDoneOrEmpty(cwd, paths, options, state);
    }
  }

  lemma RunFilesDoneOrEmpty(cwd: string, paths: seq<string>, options: Options, state: Option<State>)
    requires paths == [] || state.None? || state.value.hookCreated
    ensures RunFiles(cwd, paths, options, state) == [] + OwnUpserts(paths, options)
  {
    if paths != [] {
      RunFilesDone(cwd, paths, options, state);
    }
    assert [] + OwnUpserts(paths, options) == OwnUpserts(paths, options);
  }
}

=== FILE: static_props.dfy ===
/** The Next.js 13 `remove-get-static-props` transform (next/13/remove-get-static-props/index.ts):
    the lazy rule functions as tasks over the program body, the depth-first
    driver instantiated with them, and the final move of the default export. */
module StaticProps {
  import opened Common
  import opened Syntax
  import opened Engine
  import opened StaticPropsEdits

  const DataFetchingFunctionNames: seq<string> := ["getServerSideProps", "getStaticProps"]

  /** A function that the first two rules react to. */
  predicate Relevant(name: string) {
    name in DataFetchingFunctionNames || name == "getStaticPaths"
  }

  /** The `fallback` value of `getStaticPaths`: a boolean or `'blocking'`. */
  datatype Fallback = FallbackBool(b: bool) | Blocking

  /** One lazy mod function with the collection and settings it was spawned with. */
  datatype Task =
    | FindFunctionDeclarations
    | FindArrowFunctionExpressions
    | FindReturnStatements(functionName: string, fn: Fn)
    | FindComponentFunctionDefinition
    | FindFallbackObjectProperty(ret: Return)
    | FindRevalidateObjectProperty(ret: Return)
    | AddGenerateStaticParamsFunctionDeclaration
    | AddDynamicVariableDeclaration
    | AddFallbackVariableDeclaration(fallback: Fallback)
    | AddRevalidateVariableDeclaration(revalidate: nat)
    | AddGetDataFunctionInline(inlined: string, source: Fn)
    | AddGetDataFunctionAsWrapper(wrapped: string)
    | AddImportStatement(specifierNames: Option<string>, sourceName: Option<string>)
    | AddPageParamsTypeAlias
    | AddGetDataVariableDeclaration(component: nat)

  /** Height of the spawning tree below a task: every task spawns only tasks of lower rank. */
  function Rank(t: Task): nat {
    match t
    case FindFunctionDeclarations => 3
    case FindArrowFunctionExpressions => 3
    case FindReturnStatements(_, _) => 2
    case FindComponentFunctionDefinition => 1
    case FindFallbackObjectProperty(_) => 1
    case FindRevalidateObjectProperty(_) => 1
    case AddGetDataFunctionInline(_, _) => 1
    case AddGetDataFunctionAsWrapper(_) => 1
    case _ => 0
  }

  // ---------------------------------------------------------------------------
  // findFunctionDeclarations / findArrowFunctionExpressions

  /** A function found under an identifier. */
  datatype Named = Named(name: string, fn: Fn)

  /** Function declarations with an identifier, in document order: plain and
      `export` declarations and `export default function name`. */
  function DeclaredFunctions(body: seq<Stmt>): seq<Named>
    decreases |body|
  {
    if body == [] then []
    else
      (match body[0]
       case Function(_, n, fn) => [Named(n, fn)]
       case ExportDefault(DefaultFunction(Some(n), fn)) => [Named(n, fn)]
       case _ => [])
      + DeclaredFunctions(body[1..])
  }

  /** Arrow functions that initialise an identifier-bound declarator. */
  function DeclaredArrows(body: seq<Stmt>): seq<Named>
    decreases |body|
  {
    if body == [] then []
    else (if body[0].Variables? then ArrowsOf(body[0].declarators) else []) + DeclaredArrows(body[1..])
  }

  function ArrowsOf(ds: seq<Declarator>): seq<Named>
    decreases |ds|
  {
    if ds == [] then []
    else
      (match ds[0]
       case Declarator(IdentBinding(n), ArrowInit(fn)) => [Named(n, fn)]
       case _ => [])
      + ArrowsOf(ds[1..])
  }

  /** The tasks spawned for one found function, in the order they are pushed. */
  function TasksFor(f: Named): (r: seq<Task>)
    ensures forall i | 0 <= i < |r| :: Rank(r[i]) < 3
    ensures r == [] <==> !Relevant(f.name)
    ensures f.name in DataFetchingFunctionNames ==>
              |r| >= 2 && r[0] == FindReturnStatements(f.name, f.fn) && r[1] == FindComponentFunctionDefinition
    ensures f.name == "getStaticPaths" ==>
              r == [FindReturnStatements("getStaticPaths", f.fn), AddGenerateStaticParamsFunctionDeclaration]
    ensures f.name == "getStaticProps" ==> |r| == 3 && r[2] == AddDynamicVariableDeclaration
  {
    (if f.name in DataFetchingFunctionNames then [FindReturnStatements(f.name, f.fn), FindComponentFunctionDefinition] else [])
    + (if f.name == "getStaticPaths" then [FindReturnStatements("getStaticPaths", f.fn), AddGenerateStaticParamsFunctionDeclaration] else [])
    + (if f.name == "getStaticProps" then [AddDynamicVariableDeclaration] else [])
  }

  function TasksForAll(fs: seq<Named>): (r: seq<Task>)
    ensures forall i | 0 <= i < |r| :: Rank(r[i]) < 3
    ensures r == [] <==> forall i | 0 <= i < |fs| :: !Relevant(fs[i].name)
    decreases |fs|
  {
    if fs == [] then []
    else
      TasksFor(fs[0]) + TasksForAll(fs[1..])
  }

  lemma {:induction false} TasksForAllIsFlatMap(fs: seq<Named>)
    ensures TasksForAll(fs) == FlatMap(TasksFor, fs)
    decreases |fs|
  {
    if fs != [] {
      TasksForAllIsFlatMap(fs[1..]);
    }
  }

  /** The `m`-th task spawned for `fs[j]` appears among the tasks spawned for `fs`. */
  lemma TasksForAllHolds(fs: seq<Named>, j: nat, m: nat) returns (p: nat)
    requires j < |fs| && m < |TasksFor(fs[j])|
    ensures p < |TasksForAll(fs)| && TasksForAll(fs)[p] == TasksFor(fs[j])[m]
  {
    TasksForAllIsFlatMap(fs);
    p := FlatMapHolds(TasksFor, fs, j, m);
  }

  // ---------------------------------------------------------------------------
  // findReturnStatements

  /** Every return statement returns an object literal (vacuously true without returns). */
  predicate CanBeInlined(rets: seq<Return>) {
    forall i | 0 <= i < |rets| :: rets[i].argument.ObjectExpr?
  }

  /** One property lookup per return statement, and for a data-fetching
      function the `getData` builder, inline when every return is an object
      literal and a wrapper otherwise. */
  function ReturnTasks(name: string, fn: Fn): (r: seq<Task>)
    ensures forall i | 0 <= i < |r| :: Rank(r[i]) < 2
    ensures name == "getStaticPaths" ==>
              |r| == |fn.returnStmts| && forall i | 0 <= i < |r| :: r[i] == FindFallbackObjectProperty(fn.returnStmts[i])
    ensures name != "getStaticPaths" ==>
              |r| == |fn.returnStmts| + 1
              && (forall i | 0 <= i < |fn.returnStmts| :: r[i] == FindRevalidateObjectProperty(fn.returnStmts[i]))
              && (r[|fn.returnStmts|] == AddGetDataFunctionInline(name, fn) <==> CanBeInlined(fn.returnStmts))
              && (r[|fn.returnStmts|] == AddGetDataFunctionAsWrapper(name) <==> !CanBeInlined(fn.returnStmts))
  {
    var rets := fn.returnStmts;
    if name == "getStaticPaths" then
      seq(|rets|, i requires 0 <= i < |rets| => FindFallbackObjectProperty(rets[i]))
    else
      seq(|rets|, i requires 0 <= i < |rets| => FindRevalidateObjectProperty(rets[i]))
      + [if CanBeInlined(rets) then AddGetDataFunctionInline(name, fn) else AddGetDataFunctionAsWrapper(name)]
  }

  // ---------------------------------------------------------------------------
  // findFallbackObjectProperty / findRevalidateObjectProperty

  /** The fallback values the codemod accepts: a boolean or the string `'blocking'`. */
  function FallbackOf(e: Expr): (r: Option<Fallback>)
    ensures r.Some? <==> e.BoolLit? || e == StrLit("blocking")
    ensures e.BoolLit? ==> r == Some(FallbackBool(e.b))
    ensures e == StrLit("blocking") ==> r == Some(Blocking)
  {
    match e
    case BoolLit(b) => Some(FallbackBool(b))
    case StrLit(s) => if s == "blocking" then Some(Blocking) else None
    case _ => None
  }

  predicate IsFallbackProperty(p: Property) {
    p.key == IdentKey("fallback") && FallbackOf(p.value).Some?
  }

  /** One `dynamicParams` append per accepted `fallback` property, in document order. */
  function FallbackTasks(props: seq<Property>): (r: seq<Task>)
    ensures |r| == Count(props, IsFallbackProperty) == |Filter(props, IsFallbackProperty)|
    ensures forall i | 0 <= i < |r| ::
              var q := Filter(props, IsFallbackProperty)[i];
              IsFallbackProperty(q) && r[i] == AddFallbackVariableDeclaration(FallbackOf(q.value).value)
    decreases |props|
  {
    if props == [] then []
    else
      (if IsFallbackProperty(props[0]) then [AddFallbackVariableDeclaration(FallbackOf(props[0].value).value)] else [])
      + FallbackTasks(props[1..])
  }

  predicate IsRevalidateProperty(p: Property) {
    p.key == IdentKey("revalidate") && p.value.NumLit?
  }

  /** One `revalidate` append per numeric `revalidate` property, in document order. */
  function RevalidateTasks(props: seq<Property>): (r: seq<Task>)
    ensures |r| == Count(props, IsRevalidateProperty) == |Filter(props, IsRevalidateProperty)|
    ensures forall i | 0 <= i < |r| ::
              var q := Filter(props, IsRevalidateProperty)[i];
              IsRevalidateProperty(q) && r[i] == AddRevalidateVariableDeclaration(q.value.n)
    decreases |props|
  {
    if props == [] then []
    else
      (if IsRevalidateProperty(props[0]) then [AddRevalidateVariableDeclaration(props[0].value.n)] else [])
      + RevalidateTasks(props[1..])
  }

  /** `export const dynamicParams = fallback === true || fallback === 'blocking'` */
  function DynamicParams(f: Fallback): (r: bool)
    ensures r <==> f != FallbackBool(false)
  {
    f == FallbackBool(true) || f == Blocking
  }

  /** Read from the property itself: an accepted `fallback` makes
      `dynamicParams` true exactly when its value is `true` or `'blocking'`. */
  lemma FallbackDynamicParams(p: Property)
    requires IsFallbackProperty(p)
    ensures DynamicParams(FallbackOf(p.value).value) <==> p.value == BoolLit(true) || p.value == StrLit("blocking")
  {
  }

  // ---------------------------------------------------------------------------
  // addGetDataFunctionInline

  function ContextTypeName(name: string): string {
    if name == "getStaticProps" then "GetStaticPropsContext" else "GetServerSidePropsContext"
  }

  /** Some object-literal return holds a property `key: { ... }` (identifier key, object value). */
  predicate UsesObjectKey(rets: seq<Return>, key: string) {
    exists i, j | 0 <= i < |rets| && 0 <= j < |PropsOf(rets[i].argument)| ::
      rets[i].argument.ObjectExpr? && PropsOf(rets[i].argument)[j].key == IdentKey(key)
      && PropsOf(rets[i].argument)[j].value.ObjectExpr?
  }

  /** The `next/navigation` names the inlined function needs, `notFound` first. */
  function NavigationNames(rets: seq<Return>): (r: seq<string>)
    ensures "notFound" in r <==> UsesObjectKey(rets, "notFound")
    ensures "redirect" in r <==> UsesObjectKey(rets, "redirect")
    ensures forall i | 0 <= i < |r| :: ',' !in r[i]
  {
    (if UsesObjectKey(rets, "notFound") then ["notFound"] else [])
    + (if UsesObjectKey(rets, "redirect") then ["redirect"] else [])
  }

  /** Tasks spawned by the inline builder: the `next/navigation` import when
      needed, the context type import from `next`, then the type aliases. */
  function InlineSpawns(name: string, fn: Fn): (r: seq<Task>)
    ensures forall i | 0 <= i < |r| :: Rank(r[i]) == 0
    ensures |r| >= 2 && r[|r| - 1] == AddPageParamsTypeAlias
                     && r[|r| - 2] == AddImportStatement(Some(ContextTypeName(name)), Some("next"))
  {
    var nav := NavigationNames(fn.returnStmts);
    (if nav != [] then [AddImportStatement(Some(Join(nav, ',')), Some("next/navigation"))] else [])
    + [AddImportStatement(Some(ContextTypeName(name)), Some("next")), AddPageParamsTypeAlias]
  }

  /** The joined navigation names split back into exactly the names the inlined
      function uses, so the later import carries those specifiers. */
  lemma NavigationImportRoundTrip(rets: seq<Return>)
    requires NavigationNames(rets) != []
    ensures Split(Join(NavigationNames(rets), ','), ',') == NavigationNames(rets)
  {
    SplitJoin(NavigationNames(rets), ',');
  }

  /** Gives an unannotated identifier or object-pattern parameter the context type. */
  function Annotate(p: Param, ctx: string): Param {
    match p
    case IdentParam(n, None) => IdentParam(n, Some(ctx))
    case ObjectParam(None) => ObjectParam(Some(ctx))
    case _ => p
  }

  /** The parameters of `getData`: the original ones (or `props` when there are none), annotated. */
  function InlineParams(params: seq<Param>, ctx: string): (r: seq<Param>)
    ensures |r| >= 1
    ensures params == [] ==> r == [IdentParam("props", Some(ctx))]
    ensures params != [] ==> |r| == |params|
    ensures forall i | 0 <= i < |r| :: !r[i].OtherParam? ==> r[i].annotation.Some?
    ensures forall i | 0 <= i < |params| :: !params[i].OtherParam? && params[i].annotation.Some? ==> r[i] == params[i]
  {
    var ps := if params == [] then [IdentParam("props", None)] else params;
    seq(|ps|, i requires 0 <= i < |ps| => Annotate(ps[i], ctx))
  }

  /** How one property of a returned object rewrites the return argument. */
  function RewriteByProperty(current: Expr, p: Property): Expr {
    if !p.value.ObjectExpr? || !p.key.IdentKey? then current
    else if p.key.name == "props" then p.value
    else if p.key.name == "redirect" then RedirectTo(current, PropsOf(p.value))
    else if p.key.name == "notFound" then Call("notFound", [])
    else current
  }

  /** Every `destination` property holding a string or identifier turns the argument into `redirect(destination)`. */
  function RedirectTo(current: Expr, props: seq<Property>): Expr
    decreases |props|
  {
    if props == [] then current
    else
      var p := props[0];
      var next := if p.key == IdentKey("destination") && (p.value.StrLit? || p.value.Ident?)
                  then Call("redirect", [p.value]) else current;
      RedirectTo(next, props[1..])
  }

  /** The properties of the returned object, in document order; the last rewriting one wins. */
  function RewriteArgument(current: Expr, props: seq<Property>): Expr
    decreases |props|
  {
    if props == [] then current else RewriteArgument(RewriteByProperty(current, props[0]), props[1..])
  }

  function RewriteReturn(ret: Return): Return {
    if ret.argument.ObjectExpr? then Return(RewriteArgument(ret.argument, PropsOf(ret.argument))) else ret
  }

  /** A property that makes the inline builder rewrite the return argument. */
  predicate Rewrites(p: Property) {
    p.value.ObjectExpr? && p.key.IdentKey? && p.key.name in ["props", "redirect", "notFound"]
  }

  lemma {:induction false} RewriteArgumentIgnoresOthers(current: Expr, props: seq<Property>)
    requires forall i | 0 <= i < |props| :: !Rewrites(props[i])
    ensures RewriteArgument(current, props) == current
    decreases |props|
  {
    if props != [] {
      assert !Rewrites(props[0]);
      RewriteArgumentIgnoresOthers(current, props[1..]);
    }
  }

  /** `return { props: P }`, where nothing inside `P` is itself a
      props/redirect/notFound object, becomes `return P`. */
  lemma PropsReturnUnwraps(p: Expr)
    requires p.ObjectExpr?
    requires forall i | 0 <= i < |PropsOf(p)| :: !Rewrites(PropsOf(p)[i])
    ensures RewriteReturn(Return(ObjectExpr([Property(IdentKey("props"), p)])))
         == Return(p)
  {
    var prop := Property(IdentKey("props"), p);
    var arg := ObjectExpr([prop]);
    assert PropsOfList([prop]) == PropsOfProperty(prop) + PropsOfList([]);
    assert PropsOf(arg) == [prop] + PropsOf(p);
    assert RewriteByProperty(arg, prop) == p;
    RewriteArgumentIgnoresOthers(p, PropsOf(p));
    assert ([prop] + PropsOf(p))[1..] == PropsOf(p);
  }

  /** `async function getData(...)` built from the data-fetching function:
      annotated parameters, and the original block with rewritten returns. */
  function GetDataInline(name: string, fn: Fn): Stmt {
    var block := fn.body == BlockBody;
    var rets := if block then fn.returnStmts else [];
    Function(false, "getData",
      Fn(InlineParams(fn.params, ContextTypeName(name)),
         BlockBody,
         seq(|rets|, i requires 0 <= i < |rets| => RewriteReturn(rets[i])),
         if block then fn.arrows else [],
         [],
         false))
  }

  /** Tasks spawned by the wrapper builder. */
  function WrapperSpawns(): (r: seq<Task>)
    ensures forall i | 0 <= i < |r| :: Rank(r[i]) == 0
  {
    [AddImportStatement(Some("notFound,redirect"), Some("next/navigation")),
     AddImportStatement(Some("buildLegacyCtx"), Some("@lib/buildLegacyCtx")),
     AddPageParamsTypeAlias]
  }

  // ---------------------------------------------------------------------------
  // findComponentFunctionDefinition / addGetDataVariableDeclaration

  /** A top-level statement (exported or not) that defines the component `name`:
      a function declaration, or a variable declaration whose first
      declarator binds `name` to an arrow or function expression. */
  predicate DefinesComponent(s: Stmt, name: string) {
    (s.Function? && s.name == name)
    || (s.Variables? && |s.declarators| > 0 && s.declarators[0].id == IdentBinding(name)
        && (s.declarators[0].init.ArrowInit? || s.declarators[0].init.FunctionInit?))
  }

  /** The function a statement holds, when it is one the component lookup can return. */
  function ComponentFn(s: Stmt): (r: Option<Fn>)
    ensures (exists name :: DefinesComponent(s, name)) ==> r.Some?
  {
    match s
    case Function(_, _, fn) => Some(fn)
    case ExportDefault(DefaultFunction(_, fn)) => Some(fn)
    case Variables(_, ds) =>
      if |ds| > 0 && (ds[0].init.ArrowInit? || ds[0].init.FunctionInit?) then Some(ds[0].init.fn) else None
    case _ => None
  }

  /** Replaces the function `ComponentFn` returns. */
  function WithComponentFn(s: Stmt, fn: Fn): (r: Stmt)
    requires ComponentFn(s).Some?
    ensures ComponentFn(r) == Some(fn)
  {
    match s
    case Function(e, n, _) => Function(e, n, fn)
    case ExportDefault(DefaultFunction(n, _)) => ExportDefault(DefaultFunction(n, fn))
    case Variables(e, ds) =>
      var init := if ds[0].init.ArrowInit? then ArrowInit(fn) else FunctionInit(fn);
      Variables(e, [Declarator(ds[0].id, init)] + ds[1..])
  }

  /** The index of the statement holding the page component: the first default
      export when it is a function declaration, otherwise the last top-level
      definition of the identifier it exports. */
  function ComponentIndex(body: seq<Stmt>): (r: Option<nat>)
    ensures r.Some? ==> r.value < |body| && ComponentFn(body[r.value]).Some?
    ensures (forall i | 0 <= i < |body| :: !body[i].ExportDefault?) ==> r == None
    ensures forall k | FirstDefault(body, k) ::
              match body[k].target
              case DefaultFunction(_, _) => r == Some(k)
              case DefaultOther => r == None
              case DefaultIdentifier(n) =>
                (r.None? <==> forall i | 0 <= i < |body| :: !DefinesComponent(body[i], n))
                && (r.Some? ==> DefinesComponent(body[r.value], n)
                                && forall j | r.value < j < |body| :: !DefinesComponent(body[j], n))
  {
    var k := FindIndex(body, IsExportDefault);
    if k == -1 then None
    else
      match body[k].target
      case DefaultFunction(_, _) => Some(k)
      case DefaultOther => None
      case DefaultIdentifier(n) =>
        var c := FindLastIndex(body, s => DefinesComponent(s, n));
        if c == -1 then None else Some(c)
  }

  /** The component awaits `getData` first and takes `{ params }: PageProps`;
      a JSX body is wrapped into a block returning it. Other bodies are left alone. */
  function AwaitGetData(fn: Fn): (r: Option<Fn>)
    ensures r.Some? <==> fn.body == JsxBody || fn.body == BlockBody
    ensures r.Some? ==> r.value.body == BlockBody && r.value.awaitsGetData
                        && r.value.params == [ObjectParam(Some("PageProps"))]
  {
    var params := [ObjectParam(Some("PageProps"))];
    match fn.body
    case JsxBody =>
      Some(fn.(body := BlockBody, params := params,
               returnStmts := [Return(OtherExpr([]))] + fn.returnStmts, awaitsGetData := true))
    case BlockBody => Some(fn.(params := params, awaitsGetData := true))
    case ExprBody => None
  }

  // ---------------------------------------------------------------------------
  // One step of each task

  /** The guarded `export const name = value` append, reporting whether it appended. */
  function AppendStep(name: string, value: Expr, body: seq<Stmt>): Step<Task, seq<Stmt>> {
    var (c, b) := AppendExportOnce(body, name, value);
    Step(c, [], b)
  }

  /** The import builder: nothing without specifiers or source (and no change reported either way). */
  function ImportStep(specs: Option<string>, src: Option<string>, body: seq<Stmt>): Step<Task, seq<Stmt>> {
    if specs.None? || src.None? then Step(false, [], body)
    else Step(false, [], InsertImportOnce(body, Split(specs.value, ','), src.value))
  }

  /** The `getData` await in the component at `k`, when it is still there and can take it. */
  function AwaitStep(k: nat, body: seq<Stmt>): Step<Task, seq<Stmt>> {
    if k < |body| && ComponentFn(body[k]).Some? && AwaitGetData(ComponentFn(body[k]).value).Some? then
      Step(true, [], body[k := WithComponentFn(body[k], AwaitGetData(ComponentFn(body[k]).value).value)])
    else Step(false, [], body)
  }

  /** A builder that inserts `xs` at `k`. */
  function InsertStep(changed: bool, spawned: seq<Task>, body: seq<Stmt>, k: nat, xs: seq<Stmt>): Step<Task, seq<Stmt>>
    requires k <= |body|
  {
    Step(changed, spawned, InsertAt(body, k, xs))
  }

  /** The component finder: one await task for the default-exported component, if any. */
  function ComponentStep(body: seq<Stmt>): Step<Task, seq<Stmt>> {
    var k := ComponentIndex(body);
    Step(false, if k.Some? then [AddGetDataVariableDeclaration(k.value)] else [], body)
  }

  /** A second guarded append of the same name reports no change and
      leaves the body as the first left it. */
  lemma AppendStepIdempotent(name: string, value: Expr, body: seq<Stmt>)
    ensures var first := AppendStep(name, value, body);
            AppendStep(name, value, first.doc) == Step(false, [], first.doc)
  {
    var b := AppendStep(name, value, body).doc;
    var again := AppendExportOnce(b, name, value);
    assert again.1 == again.1[..|b|];
  }

  /** The import builder never reports a change. Its guard only matches
      imports whose source is a string literal node, and the import it
      inserts is not one, so running it again with the same specifiers and
      source within one run of the codemod inserts the same import again. */
  lemma ImportStepRepeats(specs: Option<string>, src: Option<string>, body: seq<Stmt>)
    ensures !ImportStep(specs, src, body).changed
    ensures var first := ImportStep(specs, src, body).doc;
            first != body ==> ImportStep(specs, src, first).doc == [first[0]] + first
  {
  }

  /** A finder: reports no change and spawns `ts`. */
  function FindStep(ts: seq<Task>, body: seq<Stmt>): Step<Task, seq<Stmt>> {
    Step(false, ts, body)
  }

  function Apply(t: Task, body: seq<Stmt>): Step<Task, seq<Stmt>> {
    match t
    case FindFunctionDeclarations => FindStep(TasksForAll(DeclaredFunctions(body)), body)
    case FindArrowFunctionExpressions => FindStep(TasksForAll(DeclaredArrows(body)), body)
    case FindReturnStatements(name, fn) => FindStep(ReturnTasks(name, fn), body)
    case FindComponentFunctionDefinition => ComponentStep(body)
    case FindFallbackObjectProperty(ret) => FindStep(FallbackTasks(PropsOf(ret.argument)), body)
    case FindRevalidateObjectProperty(ret) => FindStep(RevalidateTasks(PropsOf(ret.argument)), body)
    case AddGenerateStaticParamsFunctionDeclaration =>
      InsertStep(true, [], body, FirstIndexAfterNamed(body, "getStaticPaths"), [GenerateStaticParamsFunction()])
    case AddDynamicVariableDeclaration => AppendStep("dynamic", StrLit("force-static"), body)
    case AddFallbackVariableDeclaration(f) => AppendStep("dynamicParams", BoolLit(DynamicParams(f)), body)
    case AddRevalidateVariableDeclaration(n) => AppendStep("revalidate", NumLit(n), body)
    case AddGetDataFunctionInline(name, fn) =>
      InsertStep(true, InlineSpawns(name, fn), body, FirstIndexAfterNamed(body, name), [GetDataInline(name, fn)])
    case AddGetDataFunctionAsWrapper(name) =>
      InsertStep(true, WrapperSpawns(), body, FirstIndexAfterNamed(body, name), [GetDataWrapperFunction()])
    case AddImportStatement(specs, src) => ImportStep(specs, src, body)
    case AddPageParamsTypeAlias => InsertStep(true, [], body, FirstIndexAfterImports(body), PageParamsAliases())
    case AddGetDataVariableDeclaration(k) => AwaitStep(k, body)
  }

  /** The `dynamicParams` and `revalidate` finders spawn only appends. */
  lemma PropertyFindersSpawnAppends(props: seq<Property>)
    ensures forall i | 0 <= i < |FallbackTasks(props)| :: FallbackTasks(props)[i].AddFallbackVariableDeclaration?
    ensures forall i | 0 <= i < |RevalidateTasks(props)| :: RevalidateTasks(props)[i].AddRevalidateVariableDeclaration?
  {
  }

  /** The function and return finders spawn only tasks of lower rank. */
  lemma FindersSpawnLower(t: Task, d: seq<Stmt>)
    requires t.FindFunctionDeclarations? || t.FindArrowFunctionExpressions? || t.FindReturnStatements?
    ensures forall i | 0 <= i < |Apply(t, d).spawned| :: Rank(Apply(t, d).spawned[i]) < Rank(t)
  {
  }

  /** The `fallback` finder spawns only `dynamicParams` appends. */
  lemma FallbackFinderSpawnsLower(ret: Return, d: seq<Stmt>)
    ensures var t := FindFallbackObjectProperty(ret);
            forall i | 0 <= i < |Apply(t, d).spawned| :: Rank(Apply(t, d).spawned[i]) < Rank(t)
  {
    PropertyFindersSpawnAppends(PropsOf(ret.argument));
  }

  /** The `revalidate` finder spawns only `revalidate` appends. */
  lemma RevalidateFinderSpawnsLower(ret: Return, d: seq<Stmt>)
    ensures var t := FindRevalidateObjectProperty(ret);
            forall i | 0 <= i < |Apply(t, d).spawned| :: Rank(Apply(t, d).spawned[i]) < Rank(t)
  {
    PropertyFindersSpawnAppends(PropsOf(ret.argument));
  }

  /** The component finder spawns at most the `getData` await. */
  lemma ComponentFinderSpawnsLower(t: Task, d: seq<Stmt>)
    requires t.FindComponentFunctionDefinition?
    ensures forall i | 0 <= i < |Apply(t, d).spawned| :: Rank(Apply(t, d).spawned[i]) < Rank(t)
  {
  }

  /** The two `getData` builders spawn only rank-0 tasks. */
  lemma BuildersSpawnLower(t: Task, d: seq<Stmt>)
    requires t.AddGetDataFunctionInline? || t.AddGetDataFunctionAsWrapper?
    ensures forall i | 0 <= i < |Apply(t, d).spawned| :: Rank(Apply(t, d).spawned[i]) < Rank(t)
  {
  }

  /** Every rank-0 task spawns nothing. */
  lemma LeavesSpawnNothing(t: Task, d: seq<Stmt>)
    requires Rank(t) == 0
    ensures Apply(t, d).spawned == []
  {
  }

  /** One task spawns only tasks of lower rank. */
  lemma ApplySpawnsLower(t: Task, d: seq<Stmt>)
    ensures forall i | 0 <= i < |Apply(t, d).spawned| :: Rank(Apply(t, d).spawned[i]) < Rank(t)
  {
    if t.FindFunctionDeclarations? || t.FindArrowFunctionExpressions? || t.FindReturnStatements? {
      FindersSpawnLower(t, d);
    } else if t.FindFallbackObjectProperty? {
      FallbackFinderSpawnsLower(t.ret, d);
    } else if t.FindRevalidateObjectProperty? {
      RevalidateFinderSpawnsLower(t.ret, d);
    } else if t.FindComponentFunctionDefinition? {
      ComponentFinderSpawnsLower(t, d);
    } else if t.AddGetDataFunctionInline? || t.AddGetDataFunctionAsWrapper? {
      BuildersSpawnLower(t, d);
    } else {
      LeavesSpawnNothing(t, d);
    }
  }

  /** Every task spawns only tasks of lower rank, so the depth-first driver terminates. */
  lemma ApplyRankDecreases()
    ensures RankDecreases(Apply, Rank)
  {
    forall t: Task, d: seq<Stmt>
      ensures forall i | 0 <= i < |Apply(t, d).spawned| :: Rank(Apply(t, d).spawned[i]) < Rank(t)
    {
      ApplySpawnsLower(t, d);
    }
  }

  // ---------------------------------------------------------------------------
  // The transform

  /** The two initial tasks, run depth-first; `None` when no step reported a change. */
  function Transform(body: seq<Stmt>): Option<seq<Stmt>> {
    ApplyRankDecreases();
    var r := RunAll(Apply, Rank, [FindFunctionDeclarations, FindArrowFunctionExpressions], body);
    if !r.dirty then None else Some(MoveDefaultExport(r.doc))
  }

  /** The file declares a data-fetching function or `getStaticPaths`, as a
      function declaration or as an arrow function bound to an identifier. */
  predicate HasRelevantFunction(body: seq<Stmt>) {
    (exists i | 0 <= i < |DeclaredFunctions(body)| :: Relevant(DeclaredFunctions(body)[i].name))
    || (exists i | 0 <= i < |DeclaredArrows(body)| :: Relevant(DeclaredArrows(body)[i].name))
  }

  /** The builders always report a change, whatever the document. */
  lemma BuildersSurelyChange(name: string, fn: Fn)
    ensures SurelyChanges(Apply, AddGenerateStaticParamsFunctionDeclaration, 0)
    ensures name != "getStaticPaths" ==> SurelyChanges(Apply, FindReturnStatements(name, fn), 1)
  {
    assert SurelyChanges(Apply, AddGenerateStaticParamsFunctionDeclaration, 0);
    if name != "getStaticPaths" {
      var k := |fn.returnStmts|;
      var last := ReturnTasks(name, fn)[k];
      assert SurelyChanges(Apply, last, 0);
      forall d: seq<Stmt>
        ensures Apply(FindReturnStatements(name, fn), d).changed
             || exists i | 0 <= i < |Apply(FindReturnStatements(name, fn), d).spawned| ::
                  SurelyChanges(Apply, Apply(FindReturnStatements(name, fn), d).spawned[i], 0)
      {
        assert Apply(FindReturnStatements(name, fn), d).spawned[k] == last;
      }
    }
  }

  /** A relevant function among the found ones makes the finder's run dirty. */
  lemma FinderRunRelevant(t: Task, d: seq<Stmt>, fs: seq<Named>, j: nat)
    requires RankDecreases(Apply, Rank)
    requires Apply(t, d) == Step(false, TasksForAll(fs), d)
    requires j < |fs| && Relevant(fs[j].name)
    ensures RunTask(Apply, Rank, t, d).dirty
  {
    BuildersSurelyChange(fs[j].name, fs[j].fn);
    if fs[j].name in DataFetchingFunctionNames {
      var p := TasksForAllHolds(fs, j, 0);
      SpawnsSurelyChanging(Apply, Rank, t, d, p, 1);
    } else {
      var p := TasksForAllHolds(fs, j, 1);
      SpawnsSurelyChanging(Apply, Rank, t, d, p, 0);
    }
  }

  /** Without a relevant function the finder spawns nothing and changes nothing. */
  lemma FinderRunIrrelevant(t: Task, d: seq<Stmt>, fs: seq<Named>)
    requires RankDecreases(Apply, Rank)
    requires Apply(t, d) == Step(false, TasksForAll(fs), d)
    requires forall j | 0 <= j < |fs| :: !Relevant(fs[j].name)
    ensures RunTask(Apply, Rank, t, d) == Run(d, false, [Fired(t, false)])
  {
    RunTaskLeaf(Apply, Rank, t, d);
  }

  /** A finder that spawns `TasksForAll(fs)` runs dirty exactly when some
      function of `fs` is relevant, and otherwise leaves the document alone. */
  lemma FinderRun(t: Task, d: seq<Stmt>, fs: seq<Named>)
    requires RankDecreases(Apply, Rank)
    requires Apply(t, d) == Step(false, TasksForAll(fs), d)
    ensures RunTask(Apply, Rank, t, d).dirty <==> exists j | 0 <= j < |fs| :: Relevant(fs[j].name)
    ensures RunTask(Apply, Rank, t, d).doc != d ==> exists j | 0 <= j < |fs| :: Relevant(fs[j].name)
  {
    if exists j | 0 <= j < |fs| :: Relevant(fs[j].name) {
      var j :| 0 <= j < |fs| && Relevant(fs[j].name);
      FinderRunRelevant(t, d, fs, j);
    } else {
      FinderRunIrrelevant(t, d, fs);
    }
  }

  /** The transform produces output exactly when the file declares a
      data-fetching function or `getStaticPaths`; any other file is left alone. */
  lemma TransformSomeIff(body: seq<Stmt>)
    ensures Transform(body).Some? <==> HasRelevantFunction(body)
  {
    ApplyRankDecreases();
    var ffd := FindFunctionDeclarations;
    var faf := FindArrowFunctionExpressions;
    assert [ffd, faf] == [ffd] + [faf];
    RunAllAppend(Apply, Rank, [ffd], [faf], body);
    RunAllSingle(Apply, Rank, ffd, body);
    var first := RunTask(Apply, Rank, ffd, body);
    RunAllSingle(Apply, Rank, faf, first.doc);
    FinderRun(ffd, body, DeclaredFunctions(body));
    if !first.dirty {
      FinderRun(faf, body, DeclaredArrows(body));
    }
  }

  // ---------------------------------------------------------------------------
  // Moving the default export behind getData

  /** `getExportDefaultName`: the identifier of `export default Name;`. */
  function DefaultExportName(s: Stmt): Option<string> {
    if s.ExportDefault? && s.target.DefaultIdentifier? then Some(s.target.name) else None
  }

  /** The declaration the move step carries along with the default export: a
      non-exported function declaration of that name, or an exported variable
      declaration whose first declarator binds it. */
  predicate IsMovedDeclaration(s: Stmt, name: Option<string>) {
    name.Some? && ((s.Function? && !s.exported && s.name == name.value) || DeclaresExported(s, name.value))
  }

  /** The first default export of the body, if any. */
  function FirstDefaultExport(body: seq<Stmt>): (r: Option<Stmt>)
    ensures r.Some? ==> r.value in body && r.value.ExportDefault?
    ensures r.None? <==> forall i | 0 <= i < |body| :: !body[i].ExportDefault?
  {
    var k := FindIndex(body, IsExportDefault);
    if k == -1 then None else Some(body[k])
  }

  /** `fi` is the first declaration the move step carries along. */
  predicate FirstMoved(rest: seq<Stmt>, name: Option<string>, fi: int) {
    0 <= fi < |rest| && IsMovedDeclaration(rest[fi], name)
    && forall j | 0 <= j < fi :: !IsMovedDeclaration(rest[j], name)
  }

  /** The index of the first declaration the move step carries along, -1 when there is none. */
  function MovedIndex(rest: seq<Stmt>, name: Option<string>): (fi: int)
    ensures fi == -1 <==> forall i | 0 <= i < |rest| :: !IsMovedDeclaration(rest[i], name)
    ensures fi != -1 ==> FirstMoved(rest, name, fi)
    ensures forall fj | FirstMoved(rest, name, fj) :: fj == fi
  {
    FindIndex(rest, s => IsMovedDeclaration(s, name))
  }

  /** Carries the declaration the default export names (if any) to just after
      the last `getData` declaration; `None` when it has to move but there is
      no `getData` to move it behind. */
  function CarryDeclaration(rest: seq<Stmt>, name: Option<string>): (m: Option<seq<Stmt>>)
    ensures m.Some? ==> multiset(m.value) == multiset(rest)
    ensures (forall i | 0 <= i < |rest| :: !IsMovedDeclaration(rest[i], name)) ==> m == Some(rest)
    ensures forall fi | FirstMoved(rest, name, fi) ::
              var without := rest[..fi] + rest[fi + 1..];
              (m.None? <==> forall i | 0 <= i < |without| :: !NamedAnchor(without[i], "getData"))
              && forall k | AfterLastAnchor(without, "getData", k) :: m == Some(without[..k] + [rest[fi]] + without[k..])
  {
    var fi := MovedIndex(rest, name);
    if fi == -1 then Some(rest)
    else
      var without := RemoveAt(rest, fi);
      PlaceAfter(without, rest[fi], "getData")
  }

  /** Inserts `e` just after the last declaration of `anchorName`; `None` when there is none. */
  function PlaceAfter(m: seq<Stmt>, e: Stmt, anchorName: string): (r: Option<seq<Stmt>>)
    ensures r.None? <==> forall i | 0 <= i < |m| :: !NamedAnchor(m[i], anchorName)
    ensures forall k | AfterLastAnchor(m, anchorName, k) :: r == Some(m[..k] + [e] + m[k..])
    ensures r.Some? ==> multiset(r.value) == multiset(m) + multiset{e}
    ensures r.Some? ==> exists k | 0 < k < |r.value| :: r.value[k] == e && NamedAnchor(r.value[k - 1], anchorName)
  {
    var k := FirstIndexAfterNamed(m, anchorName);
    if k == 0 then None
    else
      var r := InsertAt(m, k, [e]);
      assert r[k] == r[k..k + 1][0];
      assert r[k - 1] == r[..k][k - 1];
      assert forall k' | AfterLastAnchor(m, anchorName, k') :: k' == k by {
        forall k' | AfterLastAnchor(m, anchorName, k') ensures k' == k {
          AfterLastAnchorIsFirstIndexAfterNamed(m, anchorName, k');
        }
      }
      Some(r)
  }

  /** The move of the default export (and the declaration it names) behind
      `getData`, abandoned, leaving the body as it was, whenever an anchor is
      missing. */
  function MoveDefaultExport(body: seq<Stmt>): (r: seq<Stmt>)
    ensures multiset(r) == multiset(body)
    ensures FirstDefaultExport(body).None? ==> r == body
    ensures r != body ==>
              FirstDefaultExport(body).Some?
              && var e := FirstDefaultExport(body).value;
                 exists k | 0 < k < |r| :: r[k] == e && NamedAnchor(r[k - 1], DefaultExportName(e).GetOr("getData"))
  {
    var index := FindIndex(body, IsExportDefault);
    if index == -1 then body
    else
      var e := body[index];
      var name := DefaultExportName(e);
      var rest := RemoveAt(body, index);
      var moved := CarryDeclaration(rest, name);
      if moved.None? then body
      else
        var placed := PlaceAfter(moved.value, e, name.GetOr("getData"));
        if placed.None? then body else placed.value
  }

  /** `index` is the position of the first default export. */
  predicate FirstDefault(body: seq<Stmt>, index: int) {
    0 <= index < |body| && body[index].ExportDefault?
    && forall j | 0 <= j < index :: !body[j].ExportDefault?
  }

  /** The move takes out the first default export, carries the named
      declaration, then places the export behind its anchor; either step
      failing leaves the body as it was. */
  lemma MoveDefaultExportSteps(body: seq<Stmt>, index: int)
    requires FirstDefault(body, index)
    ensures var e := body[index];
            var name := DefaultExportName(e);
            var carried := CarryDeclaration(body[..index] + body[index + 1..], name);
            MoveDefaultExport(body)
              == if carried.None? then body else PlaceAfter(carried.value, e, name.GetOr("getData")).GetOr(body)
  {
    assert FindIndex(body, IsExportDefault) == index;
  }

  /** With no declaration to carry, the default export lands right after the
      last declaration of its anchor, every other statement keeping its order;
      without an anchor the body is unchanged. */
  lemma {:induction false} MoveDefaultExportLands(body: seq<Stmt>, index: int)
    requires FirstDefault(body, index)
    requires var rest := body[..index] + body[index + 1..];
             forall i | 0 <= i < |rest| :: !IsMovedDeclaration(rest[i], DefaultExportName(body[index]))
    ensures var e := body[index];
            var rest := body[..index] + body[index + 1..];
            var anchor := DefaultExportName(e).GetOr("getData");
            ((forall i | 0 <= i < |rest| :: !NamedAnchor(rest[i], anchor)) ==> MoveDefaultExport(body) == body)
            && forall k | AfterLastAnchor(rest, anchor, k) :: MoveDefaultExport(body) == rest[..k] + [e] + rest[k..]
  {
    MoveDefaultExportSteps(body, index);
  }

  /** When the default export names a declaration, that declaration lands
      right after the last `getData` and the export right after the last
      declaration of its name; with no `getData` the body is unchanged. */
  lemma {:induction false} MoveDefaultExportCarries(body: seq<Stmt>, index: int, fi: int)
    requires FirstDefault(body, index)
    requires FirstMoved(body[..index] + body[index + 1..], DefaultExportName(body[index]), fi)
    ensures var e := body[index];
            var rest := body[..index] + body[index + 1..];
            var without := rest[..fi] + rest[fi + 1..];
            var anchor := DefaultExportName(e).GetOr("getData");
            ((forall i | 0 <= i < |without| :: !NamedAnchor(without[i], "getData")) ==> MoveDefaultExport(body) == body)
            && forall k1 | AfterLastAnchor(without, "getData", k1) ::
                 var m := without[..k1] + [rest[fi]] + without[k1..];
                 forall k2 | AfterLastAnchor(m, anchor, k2) :: MoveDefaultExport(body) == m[..k2] + [e] + m[k2..]
  {
    MoveDefaultExportSteps(body, index);
  }
}

=== FILE: static_props_edits.dfy ===
/** Statement-level edits of the Next.js 13 `remove-get-static-props` codemod:
    where new statements are inserted, the guarded `export const` appends, the
    guarded import insertion, and the fixed statements the codemod builds. */
module StaticPropsEdits {
  import opened Common
  import opened Syntax

  // ---------------------------------------------------------------------------
  // Anchors

  /** `getFirstIndexAfterImports`: one past the last import declaration, 0 when there is none. */
  function FirstIndexAfterImports(body: seq<Stmt>): (r: nat)
    ensures r <= |body|
    ensures r == 0 <==> forall i | 0 <= i < |body| :: !body[i].Import?
    ensures r > 0 ==> body[r - 1].Import?
    ensures forall i | r <= i < |body| :: !body[i].Import?
  {
    AnchorAfterLast(body, IsImport)
  }

  /** The statements `getFirstIndexAfterExportNamedFunctionDeclaration` treats
      as declaring `name`: a function declaration named `name`, exported or
      not, or an exported variable declaration whose first declarator binds
      `name`. */
  predicate NamedAnchor(s: Stmt, name: string) {
    (s.Function? && s.name == name) || DeclaresExported(s, name)
  }

  /** One past the last statement declaring `name`, 0 when there is none. */
  function FirstIndexAfterNamed(body: seq<Stmt>, name: string): (r: nat)
    ensures r <= |body|
    ensures r == 0 <==> forall i | 0 <= i < |body| :: !NamedAnchor(body[i], name)
    ensures r > 0 ==> NamedAnchor(body[r - 1], name)
    ensures forall i | r <= i < |body| :: !NamedAnchor(body[i], name)
  {
    AnchorAfterLast(body, s => NamedAnchor(s, name))
  }

  /** `k` is one past the last statement declaring `name`. */
  predicate AfterLastAnchor(body: seq<Stmt>, name: string, k: int) {
    0 < k <= |body| && NamedAnchor(body[k - 1], name)
    && forall i | k <= i < |body| :: !NamedAnchor(body[i], name)
  }

  /** The insertion point after the last declaration is the only such point,
      and it exists exactly when some statement declares `name`. */
  lemma AfterLastAnchorIsFirstIndexAfterNamed(body: seq<Stmt>, name: string, k: int)
    ensures AfterLastAnchor(body, name, k) <==> k > 0 && k == FirstIndexAfterNamed(body, name)
  {
  }

  // ---------------------------------------------------------------------------
  // Guarded `export const` appends

  /** Some exported variable declaration's first declarator binds `name`
      (the `find(ExportNamedDeclaration, { declaration: { declarations: [...] } })`
      guard, whose array pattern constrains only the first declarator). */
  predicate HasExported(body: seq<Stmt>, name: string) {
    exists i | 0 <= i < |body| :: DeclaresExported(body[i], name)
  }

  /** Appends `export const <name> = <value>` at the end of the program unless
      such an export exists; the flag says whether anything was appended. */
  function AppendExportOnce(body: seq<Stmt>, name: string, value: Expr): (r: (bool, seq<Stmt>))
    ensures r.0 <==> !HasExported(body, name)
    ensures |r.1| == |body| + (if r.0 then 1 else 0)
    ensures r.1[..|body|] == body
    ensures r.0 ==> r.1[|body|] == ExportConst(name, value)
    ensures HasExported(r.1, name)
  {
    if HasExported(body, name) then (false, body)
    else
      var r := body + [ExportConst(name, value)];
      assert DeclaresExported(r[|body|], name);
      (true, r)
  }

  // ---------------------------------------------------------------------------
  // Guarded import insertion

  /** `s` matches the pattern `{ specifiers: names.map(named), source: {
      type: 'StringLiteral', value: source } }`: an import from `source`,
      written as a string literal node, whose first `|names|` specifiers are
      named imports of `names`, in order; later specifiers are not
      constrained. */
  predicate ImportMatches(s: Stmt, names: seq<string>, source: string) {
    s.Import? && s.source == source && s.sourceType == StringLiteralSource && |names| <= |s.specifiers|
    && forall i | 0 <= i < |names| :: s.specifiers[i] == ImportNamed(names[i], s.specifiers[i].local)
  }

  predicate ImportExists(body: seq<Stmt>, names: seq<string>, source: string) {
    exists i | 0 <= i < |body| :: ImportMatches(body[i], names, source)
  }

  /** `import { n1, n2, ... } from "<source>"`, its source built with `j.literal`. */
  function NamedImport(names: seq<string>, source: string): (r: Stmt)
    ensures r.Import? && r.source == source && r.sourceType == PlainLiteralSource && |r.specifiers| == |names|
    ensures forall i | 0 <= i < |names| :: r.specifiers[i] == ImportNamed(names[i], names[i])
  {
    Import(seq(|names|, i requires 0 <= i < |names| => ImportNamed(names[i], names[i])), source, PlainLiteralSource)
  }

  /** Inserts the import before the first statement unless a matching import
      exists. The inserted import is not a string literal node, so it never
      matches the guard: a later insertion of the same import in the same
      run adds it again. */
  function InsertImportOnce(body: seq<Stmt>, names: seq<string>, source: string): (r: seq<Stmt>)
    ensures r == body <==> ImportExists(body, names, source)
    ensures r != body ==> |r| == |body| + 1 && r[0] == NamedImport(names, source) && r[1..] == body
    ensures ImportExists(r, names, source) <==> ImportExists(body, names, source)
  {
    if ImportExists(body, names, source) then body
    else
      var r := [NamedImport(names, source)] + body;
      assert !ImportMatches(r[0], names, source);
      assert forall i | 1 <= i < |r| :: r[i] == body[i - 1];
      assert |r| != |body|;
      r
  }

  // ---------------------------------------------------------------------------
  // Statements the codemod builds from templates. Template bodies are kept
  // only as far as the rules inspect them (see the "## Left out" notes).

  /** `export async function generateStaticParams() { return (await getStaticPaths({})).paths; }` */
  function GenerateStaticParamsFunction(): Stmt {
    Function(true, "generateStaticParams",
      Fn([], BlockBody, [Return(OtherExpr([Call("getStaticPaths", [ObjectExpr([])])]))], [], [], false))
  }

  /** The wrapper `getData({ params }: { params: Params })` that builds a legacy
      context, calls the original function and returns its props. */
  function GetDataWrapperFunction(): Stmt {
    Function(false, "getData",
      Fn([ObjectParam(Some("{ params: Params }"))], BlockBody, [Return(OtherExpr([ObjectExpr([])]))], [], [], false))
  }

  /** The `Params` and `PageProps` type aliases. */
  function PageParamsAliases(): seq<Stmt> {
    [TypeAlias("Params"), TypeAlias("PageProps")]
  }

  /** Inserting `xs` at the import anchor keeps every original import before
      the new statements and every original non-import statement after them. */
  lemma {:induction false} InsertAfterImportsKeepsImportsFirst(body: seq<Stmt>, xs: seq<Stmt>)
    requires forall j | 0 <= j < |xs| :: !xs[j].Import?
    ensures var k := FirstIndexAfterImports(body);
            var r := InsertAt(body, k, xs);
            forall i | 0 <= i < |r| && r[i].Import? :: i < k
  {
    var k := FirstIndexAfterImports(body);
    var r := InsertAt(body, k, xs);
    forall i | k <= i < |r|
      ensures !r[i].Import?
    {
      if i < k + |xs| {
        assert r[i] == r[k..k + |xs|][i - k];
      } else {
        assert r[i] == r[k + |xs|..][i - k - |xs|];
      }
    }
  }
}

=== FILE: static_props_example.dfy ===
/** A worked run of the Next.js 13 `remove-get-static-props` transform on a
    page with `getStaticProps` returning `{ props: {}, revalidate: 10 }` and a
    default-exported component `function Page() { return <div />; }`. */
module StaticPropsExample {
  import opened Common
  import opened Syntax
  import opened Engine
  import opened StaticPropsEdits
  import opened StaticProps

  const PropsReturn := Return(ObjectExpr([Property(IdentKey("props"), ObjectExpr([])), Property(IdentKey("revalidate"), NumLit(10))]))
  const GetStaticPropsFn := Fn([IdentParam("context", None)], BlockBody, [PropsReturn], [], [], false)
  const PageFn := Fn([], BlockBody, [Return(OtherExpr([]))], [], [], false)
  const PageAwaiting := Fn([ObjectParam(Some("PageProps"))], BlockBody, [Return(OtherExpr([]))], [], [], true)

  const GetStaticProps := Function(true, "getStaticProps", GetStaticPropsFn)
  const GetData := GetDataInline("getStaticProps", GetStaticPropsFn)
  const ContextImport := Import([ImportNamed("GetStaticPropsContext", "GetStaticPropsContext")], "next", PlainLiteralSource)
  const Revalidate := ExportConst("revalidate", NumLit(10))
  const Dynamic := ExportConst("dynamic", StrLit("force-static"))

  const FindReturns := FindReturnStatements("getStaticProps", GetStaticPropsFn)
  const Inline := AddGetDataFunctionInline("getStaticProps", GetStaticPropsFn)
  const ContextImportTask := AddImportStatement(Some("GetStaticPropsContext"), Some("next"))

  const Page := ExportDefault(DefaultFunction(Some("Page"), PageFn))
  const PageAwaitingExport := ExportDefault(DefaultFunction(Some("Page"), PageAwaiting))
  const ParamsAlias := TypeAlias("Params")
  const PagePropsAlias := TypeAlias("PageProps")

  /** The input file and the program body after each change. */
  const B0: seq<Stmt> := [GetStaticProps, Page]
  const B1: seq<Stmt> := [GetStaticProps, Page, Revalidate]
  const B2: seq<Stmt> := [GetStaticProps, GetData, Page, Revalidate]
  const B3: seq<Stmt> := [ContextImport, GetStaticProps, GetData, Page, Revalidate]
  const B4: seq<Stmt> := [ContextImport, ParamsAlias, PagePropsAlias, GetStaticProps, GetData, Page, Revalidate]
  const B5: seq<Stmt> := [ContextImport, ParamsAlias, PagePropsAlias, GetStaticProps, GetData, PageAwaitingExport, Revalidate]
  const B6: seq<Stmt> := [ContextImport, ParamsAlias, PagePropsAlias, GetStaticProps, GetData, PageAwaitingExport, Revalidate, Dynamic]

  /** B6 without its default export. */
  const Rest6: seq<Stmt> := [ContextImport, ParamsAlias, PagePropsAlias, GetStaticProps, GetData, Revalidate, Dynamic]

  lemma FindsGetStaticProps()
    ensures Apply(FindFunctionDeclarations, B0)
         == Step(false, [FindReturns, FindComponentFunctionDefinition, AddDynamicVariableDeclaration], B0)
  {
    assert DeclaredFunctions(B0[1..]) == [Named("Page", PageFn)];
    assert DeclaredFunctions(B0) == [Named("getStaticProps", GetStaticPropsFn), Named("Page", PageFn)];
  }

  lemma FindsOneReturn()
    ensures Apply(FindReturns, B0) == Step(false, [FindRevalidateObjectProperty(PropsReturn), Inline], B0)
  {
    assert CanBeInlined(GetStaticPropsFn.returnStmts);
  }

  lemma FindsRevalidate()
    ensures Apply(FindRevalidateObjectProperty(PropsReturn), B0) == Step(false, [AddRevalidateVariableDeclaration(10)], B0)
  {
    var ps := PropsReturn.argument.properties;
    assert PropsOf(ObjectExpr([])) == [];
    assert PropsOfList(ps[1..]) == [ps[1]];
    assert PropsOf(PropsReturn.argument) == ps;
    assert RevalidateTasks(ps[1..]) == [AddRevalidateVariableDeclaration(10)];
  }

  lemma AppendsRevalidate()
    ensures Apply(AddRevalidateVariableDeclaration(10), B0) == Step(true, [], B1)
  {
    assert !HasExported(B0, "revalidate");
    assert B0 + [ExportConst("revalidate", NumLit(10))] == B1;
  }

  lemma NoNavigationNames()
    ensures NavigationNames(GetStaticPropsFn.returnStmts) == []
  {
    var ps := PropsReturn.argument.properties;
    assert PropsOf(ObjectExpr([])) == [];
    assert PropsOfList(ps[1..]) == [ps[1]];
    assert PropsOf(PropsReturn.argument) == ps;
  }

  /** `r` is `s` with `xs` inserted at `k`, slice by slice. */
  lemma InsertedAt<T>(s: seq<T>, k: nat, xs: seq<T>, r: seq<T>)
    requires k <= |s| && |r| == |s| + |xs|
    requires r[..k] == s[..k] && r[k..k + |xs|] == xs && r[k + |xs|..] == s[k..]
    ensures InsertAt(s, k, xs) == r
  {
    assert r == r[..k] + r[k..k + |xs|] + r[k + |xs|..];
  }

  lemma B2Slices() ensures B2[..1] == B1[..1] && B2[1..2] == [GetData] && B2[2..] == B1[1..] { }

  lemma GetDataInserted()
    ensures InsertAt(B1, 1, [GetData]) == B2
  {
    B2Slices();
    InsertedAt(B1, 1, [GetData], B2);
  }

  lemma B4Slices() ensures B4[..1] == B3[..1] && B4[1..3] == PageParamsAliases() && B4[3..] == B3[1..] { }

  lemma AliasesInserted()
    ensures InsertAt(B3, 1, PageParamsAliases()) == B4
  {
    B4Slices();
    InsertedAt(B3, 1, PageParamsAliases(), B4);
  }

  lemma GetStaticPropsAnchor()
    ensures FirstIndexAfterNamed(B1, "getStaticProps") == 1
  {
    assert NamedAnchor(B1[0], "getStaticProps");
    assert forall i | 1 <= i < |B1| :: !NamedAnchor(B1[i], "getStaticProps");
  }

  lemma ApplyInline(name: string, fn: Fn, body: seq<Stmt>)
    ensures Apply(AddGetDataFunctionInline(name, fn), body)
         == InsertStep(true, InlineSpawns(name, fn), body, FirstIndexAfterNamed(body, name), [GetDataInline(name, fn)])
  {
  }

  lemma InsertsGetData()
    ensures Apply(Inline, B1) == Step(true, [ContextImportTask, AddPageParamsTypeAlias], B2)
  {
    ApplyInline("getStaticProps", GetStaticPropsFn, B1);
    GetStaticPropsAnchor();
    NoNavigationNames();
    GetDataInserted();
  }

  lemma ApplyImport(specs: Option<string>, src: Option<string>, body: seq<Stmt>)
    ensures Apply(AddImportStatement(specs, src), body) == ImportStep(specs, src, body)
  {
  }

  lemma ContextSpecifiers()
    ensures Split("GetStaticPropsContext", ',') == ["GetStaticPropsContext"]
  {
    assert ',' !in "GetStaticPropsContext";
  }

  lemma ContextImportInserted()
    ensures InsertImportOnce(B2, ["GetStaticPropsContext"], "next") == B3
  {
    assert forall i | 0 <= i < |B2| :: !B2[i].Import?;
    assert !ImportExists(B2, ["GetStaticPropsContext"], "next");
    assert NamedImport(["GetStaticPropsContext"], "next") == ContextImport;
    assert [ContextImport] + B2 == B3;
  }

  lemma ImportsContextType()
    ensures Apply(ContextImportTask, B2) == Step(false, [], B3)
  {
    ApplyImport(Some("GetStaticPropsContext"), Some("next"), B2);
    ContextSpecifiers();
    ContextImportInserted();
  }

  lemma ImportAnchor()
    ensures FirstIndexAfterImports(B3) == 1
  {
    assert B3[0].Import?;
    assert forall i | 1 <= i < |B3| :: !B3[i].Import?;
  }

  lemma ApplyAliases(body: seq<Stmt>)
    ensures Apply(AddPageParamsTypeAlias, body) == InsertStep(true, [], body, FirstIndexAfterImports(body), PageParamsAliases())
  {
  }

  lemma InsertsTypeAliases()
    ensures Apply(AddPageParamsTypeAlias, B3) == Step(true, [], B4)
  {
    ApplyAliases(B3);
    ImportAnchor();
    AliasesInserted();
  }

  lemma FindsComponent()
    ensures Apply(FindComponentFunctionDefinition, B4) == Step(false, [AddGetDataVariableDeclaration(5)], B4)
  {
    assert IsExportDefault(B4[5]);
    assert forall i | 0 <= i < 5 :: !IsExportDefault(B4[i]);
    assert FindIndex(B4, IsExportDefault) == 5;
  }

  lemma AwaitsInComponent()
    ensures Apply(AddGetDataVariableDeclaration(5), B4) == Step(true, [], B5)
  {
    assert ComponentFn(B4[5]) == Some(PageFn);
    assert AwaitGetData(PageFn) == Some(PageAwaiting);
    assert WithComponentFn(B4[5], PageAwaiting) == PageAwaitingExport;
    assert B4[5 := PageAwaitingExport] == B5;
  }

  lemma AppendsDynamic()
    ensures Apply(AddDynamicVariableDeclaration, B5) == Step(true, [], B6)
  {
    assert !HasExported(B5, "dynamic");
    assert B5 + [ExportConst("dynamic", StrLit("force-static"))] == B6;
  }

  lemma {:induction false} NoDeclaredArrows(body: seq<Stmt>)
    requires forall i | 0 <= i < |body| && body[i].Variables? :: ArrowsOf(body[i].declarators) == []
    ensures DeclaredArrows(body) == []
    decreases |body|
  {
    if body != [] {
      assert forall i | 1 <= i < |body| :: body[1..][i - 1] == body[i];
      NoDeclaredArrows(body[1..]);
    }
  }

  lemma FindsNoArrow()
    ensures Apply(FindArrowFunctionExpressions, B6) == Step(false, [], B6)
  {
    forall i | 0 <= i < |B6| && B6[i].Variables?
      ensures ArrowsOf(B6[i].declarators) == []
    {
      var ds := B6[i].declarators;
      assert |ds| == 1 && ds[0].init.ExprInit?;
      assert ArrowsOf(ds[1..]) == [];
    }
    NoDeclaredArrows(B6);
  }

  /** A default export that names nothing carries no declaration along. */
  lemma CarriesNothing(rest: seq<Stmt>)
    ensures CarryDeclaration(rest, None) == Some(rest)
  {
    var fi := FindIndex(rest, s => IsMovedDeclaration(s, None));
    assert fi >= 0 ==> IsMovedDeclaration(rest[fi], None);
  }

  lemma B6Head() ensures B6[..5] == Rest6[..5] { }
  lemma B6Tail() ensures B6[6..] == Rest6[5..] { }

  lemma RemovesDefaultExport()
    ensures RemoveAt(B6, 5) == Rest6
  {
    B6Head();
    B6Tail();
    SplitAt(Rest6, 5);
  }

  lemma GetDataAnchor()
    ensures FirstIndexAfterNamed(Rest6, "getData") == 5
  {
    assert NamedAnchor(Rest6[4], "getData");
    assert forall i | 5 <= i < |Rest6| :: !NamedAnchor(Rest6[i], "getData");
  }

  lemma PlacesAfterGetData()
    ensures PlaceAfter(Rest6, PageAwaitingExport, "getData") == Some(B6)
  {
    GetDataAnchor();
    assert Rest6[..5] + [PageAwaitingExport] + Rest6[5..] == B6;
  }

  lemma DefaultExportAtFive()
    ensures FindIndex(B6, IsExportDefault) == 5 && B6[5] == PageAwaitingExport
    ensures DefaultExportName(PageAwaitingExport) == None
  {
    assert IsExportDefault(B6[5]);
    assert forall i | 0 <= i < 5 :: !IsExportDefault(B6[i]);
  }

  lemma MoveKeepsOrder()
    ensures MoveDefaultExport(B6) == B6
  {
    DefaultExportAtFive();
    RemovesDefaultExport();
    CarriesNothing(Rest6);
    PlacesAfterGetData();
  }

  // ---------------------------------------------------------------------------
  // The stack machine's states along the run: pending tasks, document, dirty
  // flag and the tasks fired so far.

  const M0 := Machine([FindFunctionDeclarations, FindArrowFunctionExpressions], B0, false, [])
  const M1 := Machine([FindReturns, FindComponentFunctionDefinition, AddDynamicVariableDeclaration, FindArrowFunctionExpressions], B0, false, M0.trace + [Fired(FindFunctionDeclarations, false)])
  const M2 := Machine([FindRevalidateObjectProperty(PropsReturn), Inline, FindComponentFunctionDefinition, AddDynamicVariableDeclaration, FindArrowFunctionExpressions], B0, false, M1.trace + [Fired(FindReturns, false)])
  const M3 := Machine([AddRevalidateVariableDeclaration(10), Inline, FindComponentFunctionDefinition, AddDynamicVariableDeclaration, FindArrowFunctionExpressions], B0, false, M2.trace + [Fired(FindRevalidateObjectProperty(PropsReturn), false)])
  const M4 := Machine([Inline, FindComponentFunctionDefinition, AddDynamicVariableDeclaration, FindArrowFunctionExpressions], B1, true, M3.trace + [Fired(AddRevalidateVariableDeclaration(10), true)])
  const M5 := Machine([ContextImportTask, AddPageParamsTypeAlias, FindComponentFunctionDefinition, AddDynamicVariableDeclaration, FindArrowFunctionExpressions], B2, true, M4.trace + [Fired(Inline, true)])
  const M6 := Machine([AddPageParamsTypeAlias, FindComponentFunctionDefinition, AddDynamicVariableDeclaration, FindArrowFunctionExpressions], B3, true, M5.trace + [Fired(ContextImportTask, false)])
  const M7 := Machine([FindComponentFunctionDefinition, AddDynamicVariableDeclaration, FindArrowFunctionExpressions], B4, true, M6.trace + [Fired(AddPageParamsTypeAlias, true)])
  const M8 := Machine([AddGetDataVariableDeclaration(5), AddDynamicVariableDeclaration, FindArrowFunctionExpressions], B4, true, M7.trace + [Fired(FindComponentFunctionDefinition, false)])
  const M9 := Machine([AddDynamicVariableDeclaration, FindArrowFunctionExpressions], B5, true, M8.trace + [Fired(AddGetDataVariableDeclaration(5), true)])
  const M10 := Machine([FindArrowFunctionExpressions], B6, true, M9.trace + [Fired(AddDynamicVariableDeclaration, true)])
  const M11 := Machine([], B6, true, M10.trace + [Fired(FindArrowFunctionExpressions, false)])

  lemma Tick1() ensures Tick(Apply, M0) == M1 { FindsGetStaticProps(); }
  lemma Tick2() ensures Tick(Apply, M1) == M2 { FindsOneReturn(); }
  lemma Tick3() ensures Tick(Apply, M2) == M3 { FindsRevalidate(); }
  lemma Tick4() ensures Tick(Apply, M3) == M4 { AppendsRevalidate(); }
  lemma Tick5() ensures Tick(Apply, M4) == M5 { InsertsGetData(); }
  lemma Tick6() ensures Tick(Apply, M5) == M6 { ImportsContextType(); }
  lemma Tick7() ensures Tick(Apply, M6) == M7 { InsertsTypeAliases(); }
  lemma Tick8() ensures Tick(Apply, M7) == M8 { FindsComponent(); }
  lemma Tick9() ensures Tick(Apply, M8) == M9 { AwaitsInComponent(); }
  lemma Tick10() ensures Tick(Apply, M9) == M10 { AppendsDynamic(); }
  lemma Tick11() ensures Tick(Apply, M10) == M11 { FindsNoArrow(); }

  lemma TickThen(n: nat, m: Machine<Task, seq<Stmt>>, m': Machine<Task, seq<Stmt>>)
    requires Tick(Apply, m) == m'
    ensures Ticks(Apply, n + 1, m) == Ticks(Apply, n, m')
  {
  }

  /** Eleven ticks empty the stack, having fired every task of the run. */
  lemma ElevenTicks()
    ensures Ticks(Apply, 11, M0) == M11
  {
    Tick1(); TickThen(10, M0, M1);
    Tick2(); TickThen(9, M1, M2);
    Tick3(); TickThen(8, M2, M3);
    Tick4(); TickThen(7, M3, M4);
    Tick5(); TickThen(6, M4, M5);
    Tick6(); TickThen(5, M5, M6);
    Tick7(); TickThen(4, M6, M7);
    Tick8(); TickThen(3, M7, M8);
    Tick9(); TickThen(2, M8, M9);
    Tick10(); TickThen(1, M9, M10);
    Tick11(); TickThen(0, M10, M11);
  }

  /** The depth-first driver ends where the stack machine does. */
  lemma RunReachesB6()
    ensures RankDecreases(Apply, Rank)
    ensures var r := RunAll(Apply, Rank, [FindFunctionDeclarations, FindArrowFunctionExpressions], B0);
            r.doc == B6 && r.dirty
  {
    ApplyRankDecreases();
    ElevenTicks();
    RunAllFromTicks(Apply, Rank, [FindFunctionDeclarations, FindArrowFunctionExpressions], B0, 11);
  }

  lemma TransformsToB6()
    ensures Transform(B0) == Some(B6)
  {
    RunReachesB6();
    MoveKeepsOrder();
  }

  lemma B6Layout()
    ensures B6 == [ContextImport, TypeAlias("Params"), TypeAlias("PageProps"), GetStaticProps, GetData,
                   ExportDefault(DefaultFunction(Some("Page"), PageAwaiting)), Revalidate, Dynamic]
  {
  }

  /** The revalidate task, spawned below the return statements, runs before the
      dynamic task spawned as a later sibling, so `revalidate` is exported
      before `dynamic`; the context type is imported from `next`, the type
      aliases follow the imports, `getData` follows `getStaticProps` and the
      component awaits `getData`. */
  lemma RevalidateBeforeDynamic()
    ensures Transform(B0) == Some([ContextImport, TypeAlias("Params"), TypeAlias("PageProps"), GetStaticProps, GetData,
                                   ExportDefault(DefaultFunction(Some("Page"), PageAwaiting)), Revalidate, Dynamic])
  {
    TransformsToB6();
    B6Layout();
  }
}

=== FILE: static_props_repomod.dfy ===
/** The repomod around the Next.js 13 `remove-get-static-props` transform: a
    two-step run state, `handleFile` (which asks for the `buildLegacyCtx`
    helper file while the run is in its first step) and `handleData` (which
    writes the helper, moves the run to its second step and then rewrites
    pages). The source mutates the state object in place; here each handler
    returns the new state. Parsing and printing are function parameters. */
module StaticPropsRepomod {
  import opened Common
  import opened Syntax
  import opened Commands
  import StaticProps

  datatype RepomodStep = AddBuildLegacyCtxUtil | AddGetServerSideDataHooks

  datatype State = State(step: RepomodStep)

  const UtilPathKey := "buildLegacyCtxUtilAbsolutePath"
  const FileContentKey := "fileContent"

  /** Stands for the text of the `buildLegacyCtx` helper module. */
  const UtilContent := "export const buildLegacyCtx = (params) => ({ params });"

  /** `initializeState`: a fresh run starts by adding the helper; a resumed run keeps its state. */
  function InitializeState(previous: Option<State>): (r: State)
    ensures previous.None? ==> r.step == AddBuildLegacyCtxUtil
    ensures previous.Some? ==> r == previous.value
  {
    match previous
    case None => State(AddBuildLegacyCtxUtil)
    case Some(s) => s
  }

  /** The command that asks for the helper file at `utilPath`. */
  function UtilCommand(utilPath: string, options: Options): FileCommand {
    UpsertFile(utilPath, options[FileContentKey := Text(UtilContent)])
  }

  /** `handleFile`: throws when the helper path option is not a string (before
      looking at the state), emits nothing without a state, and otherwise
      emits the helper upsert while in the first step, then the file's own
      upsert. The state is left as it is. */
  function HandleFile(path: string, options: Options, state: Option<State>): (r: Result<seq<FileCommand>>)
    ensures r.Thrown? <==> TextOption(options, UtilPathKey).None?
    ensures r.Ok? && state.None? ==> r.value == []
    ensures r.Ok? && state.Some? ==>
              var first := state.value.step == AddBuildLegacyCtxUtil;
              |r.value| == (if first then 2 else 1)
              && r.value[|r.value| - 1] == UpsertFile(path, options)
              && (first ==> r.value[0] == UtilCommand(TextOption(options, UtilPathKey).value, options))
  {
    match TextOption(options, UtilPathKey)
    case None => Thrown("Expected buildLegacyCtxUtilAbsolutePath to be a string")
    case Some(utilPath) =>
      if state.None? then Ok([])
      else
        var helper := if state.value.step == AddBuildLegacyCtxUtil then [UtilCommand(utilPath, options)] else [];
        Ok(helper + [UpsertFile(path, options)])
  }

  /** A fresh run asks for the helper before the first file's own upsert;
      handling that request writes the helper's content and moves the run
      to its second step. Initialising a resumed run again changes nothing. */
  lemma FreshRunWritesUtilFirst(path: string, data: string, options: Options, previous: Option<State>,
                                parse: string -> seq<Stmt>, printer: seq<Stmt> -> string)
    requires TextOption(options, UtilPathKey).Some?
    ensures var s := InitializeState(None);
            var util := UtilCommand(TextOption(options, UtilPathKey).value, options);
            HandleFile(path, options, Some(s)) == Ok([util, UpsertFile(path, options)])
            && HandleData(util.path, data, util.options, Some(s), parse, printer)
               == (UpsertData(util.path, UtilContent), Some(State(AddGetServerSideDataHooks)))
    ensures InitializeState(Some(InitializeState(previous))) == InitializeState(previous)
  {
    var s := InitializeState(None);
    assert s == State(AddBuildLegacyCtxUtil);
    var util := UtilCommand(TextOption(options, UtilPathKey).value, options);
    assert [util] + [UpsertFile(path, options)] == [util, UpsertFile(path, options)];
    assert TextOption(util.options, FileContentKey) == Some(UtilContent);
  }

  /** The page transform on source text: parse, run the rules, print when dirty. */
  function TransformSource(parse: string -> seq<Stmt>, printer: seq<Stmt> -> string, source: string): (r: Option<string>)
    ensures r.Some? <==> StaticProps.HasRelevantFunction(parse(source))
  {
    StaticProps.TransformSomeIff(parse(source));
    match StaticProps.Transform(parse(source))
    case None => None
    case Some(body) => Some(printer(body))
  }

  /** `handleData`, returning the command and the state after the call. */
  function HandleData(path: string, data: string, options: Options, state: Option<State>,
                      parse: string -> seq<Stmt>, printer: seq<Stmt> -> string): (r: (DataCommand, Option<State>))
    ensures state.None? ==> r == (Noop, None)
    ensures state.Some? ==> r.1.Some?
    ensures state.Some? && state.value.step == AddGetServerSideDataHooks ==> r.1 == state
    ensures state.Some? ==>
              (r.1.value.step == AddGetServerSideDataHooks <==>
               state.value.step == AddGetServerSideDataHooks || TextOption(options, FileContentKey).Some?)
    ensures state.Some? && state.value.step == AddBuildLegacyCtxUtil ==>
              r.0 == (match TextOption(options, FileContentKey)
                      case Some(content) => UpsertData(path, content)
                      case None => Noop)
    ensures state.Some? && state.value.step == AddGetServerSideDataHooks ==>
              (r.0 == Noop <==> !StaticProps.HasRelevantFunction(parse(data)))
    ensures r.0.UpsertData? ==> r.0.path == path
  {
    match state
    case None => (Noop, None)
    case Some(st) =>
      match st.step
      case AddBuildLegacyCtxUtil =>
        (match TextOption(options, FileContentKey)
         case Some(content) => (UpsertData(path, content), Some(State(AddGetServerSideDataHooks)))
         case None => (Noop, state))
      case AddGetServerSideDataHooks =>
        (match TransformSource(parse, printer, data)
         case None => (Noop, state)
         case Some(rewritten) => (UpsertData(path, rewritten), state))
  }

  /** The step is never moved back, by either handler. */
  lemma StepNeverMovesBack(path: string, data: string, options: Options, s: State,
                           parse: string -> seq<Stmt>, printer: seq<Stmt> -> string)
    requires s.step == AddGetServerSideDataHooks
    ensures HandleData(path, data, options, Some(s), parse, printer).1 == Some(s)
  {
  }

  // ---------------------------------------------------------------------------
  // A run over several files. The engine's interleaving of `handleFile` and
  // `handleData` is not part of the repository, so both orders are modelled:
  // each file's commands handled before the next file is seen, and every
  // file seen before any command is handled.

  /** Handles a file's commands in order; `read` gives the current text at a path. */
  function HandleCommands(cmds: seq<FileCommand>, state: Option<State>, read: string -> string,
                          parse: string -> seq<Stmt>, printer: seq<Stmt> -> string): (r: (seq<DataCommand>, Option<State>))
    ensures |r.0| == |cmds|
    ensures state.Some? ==> r.1.Some?
    decreases |cmds|
  {
    if cmds == [] then ([], state)
    else
      var c := cmds[0];
      var (d, s) := HandleData(c.path, read(c.path), c.options, state, parse, printer);
      var rest := HandleCommands(cmds[1..], s, read, parse, printer);
      ([d] + rest.0, rest.1)
  }

  /** One file at a time: its commands are handled before the next file is seen. */
  function RunSequential(paths: seq<string>, options: Options, state: Option<State>, read: string -> string,
                         parse: string -> seq<Stmt>, printer: seq<Stmt> -> string): Result<(seq<FileCommand>, seq<DataCommand>, Option<State>)>
    decreases |paths|
  {
    if paths == [] then Ok(([], [], state))
    else
      match HandleFile(paths[0], options, state)
      case Thrown(m) => Thrown(m)
      case Ok(cmds) =>
        var (ds, s) := HandleCommands(cmds, state, read, parse, printer);
        match RunSequential(paths[1..], options, s, read, parse, printer)
        case Thrown(m) => Thrown(m)
        case Ok(rest) => Ok((cmds + rest.0, ds + rest.1, rest.2))
  }

  /** A non-empty run handles the first file's commands, then runs on from the state they leave. */
  lemma RunSequentialStep(paths: seq<string>, options: Options, state: Option<State>, read: string -> string,
                          parse: string -> seq<Stmt>, printer: seq<Stmt> -> string)
    requires paths != [] && HandleFile(paths[0], options, state).Ok?
    ensures var cmds := HandleFile(paths[0], options, state).value;
            var h := HandleCommands(cmds, state, read, parse, printer);
            var rest := RunSequential(paths[1..], options, h.1, read, parse, printer);
            rest.Ok? ==> RunSequential(paths, options, state, read, parse, printer) == Ok((cmds + rest.value.0, h.0 + rest.value.1, rest.value.2))
  {
  }

  /** In the second step a file yields its own upsert, and handling it keeps the state. */
  lemma SecondStepFile(path: string, options: Options, s: State, read: string -> string,
                       parse: string -> seq<Stmt>, printer: seq<Stmt> -> string)
    requires TextOption(options, UtilPathKey).Some?
    requires s.step == AddGetServerSideDataHooks
    ensures HandleFile(path, options, Some(s)) == Ok([UpsertFile(path, options)])
    ensures HandleCommands([UpsertFile(path, options)], Some(s), read, parse, printer).1 == Some(s)
  {
    var cmds := [UpsertFile(path, options)];
    assert [] + cmds == cmds;
    assert HandleCommands(cmds[1..], Some(s), read, parse, printer) == ([], Some(s));
  }

  /** In the second step each file yields only its own upsert and the state stays. */
  lemma {:induction false} SequentialInSecondStep(paths: seq<string>, options: Options, s: State, read: string -> string,
                                                  parse: string -> seq<Stmt>, printer: seq<Stmt> -> string)
    requires TextOption(options, UtilPathKey).Some?
    requires s.step == AddGetServerSideDataHooks
    ensures var r := RunSequential(paths, options, Some(s), read, parse, printer);
            r.Ok? && r.value.0 == OwnUpserts(paths, options) && r.value.2 == Some(s)
    decreases |paths|
  {
    if paths != [] {
      SecondStepFile(paths[0], options, s, read, parse, printer);
      SequentialInSecondStep(paths[1..], options, s, read, parse, printer);
      RunSequentialStep(paths, options, Some(s), read, parse, printer);
      OwnUpsertsCons(paths, options);
    }
  }

  /** In the first step a file yields the helper upsert, then its own. */
  lemma FirstStepFile(utilPath: string, path: string, options: Options)
    requires TextOption(options, UtilPathKey) == Some(utilPath)
    ensures HandleFile(path, options, Some(InitializeState(None))) == Ok([UtilCommand(utilPath, options), UpsertFile(path, options)])
  {
    assert InitializeState(None) == State(AddBuildLegacyCtxUtil);
    assert [UtilCommand(utilPath, options)] + [UpsertFile(path, options)] == [UtilCommand(utilPath, options), UpsertFile(path, options)];
  }

  /** Under the one-file-at-a-time order a fresh run asks for the helper
      exactly once, before the first file's own upsert, writes the helper
      text first and ends in the second step. */
  lemma SequentialAddsUtilOnce(paths: seq<string>, options: Options, read: string -> string,
                               parse: string -> seq<Stmt>, printer: seq<Stmt> -> string)
    requires |paths| > 0
    requires TextOption(options, UtilPathKey).Some?
    ensures var utilPath := TextOption(options, UtilPathKey).value;
            var r := RunSequential(paths, options, Some(InitializeState(None)), read, parse, printer);
            r.Ok?
            && r.value.0 == [UtilCommand(utilPath, options)] + OwnUpserts(paths, options)
            && r.value.1[0] == UpsertData(utilPath, UtilContent)
            && r.value.2 == Some(State(AddGetServerSideDataHooks))
  {
    var utilPath := TextOption(options, UtilPathKey).value;
    var util := UtilCommand(utilPath, options);
    var own := UpsertFile(paths[0], options);
    FirstStepFile(utilPath, paths[0], options);
    FirstFileMovesStep(utilPath, paths[0], options, read, parse, printer);
    SequentialInSecondStep(paths[1..], options, State(AddGetServerSideDataHooks), read, parse, printer);
    RunSequentialStep(paths, options, Some(InitializeState(None)), read, parse, printer);
    OwnUpsertsCons(paths, options);
    assert [util, own] == [util] + [own];
    ConcatAssoc([util], [own], OwnUpserts(paths[1..], options));
  }

  /** Handling the first file's two commands writes the helper text and
      moves the run to its second step. */
  lemma FirstFileMovesStep(utilPath: string, path: string, options: Options, read: string -> string,
                           parse: string -> seq<Stmt>, printer: seq<Stmt> -> string)
    ensures var h := HandleCommands([UtilCommand(utilPath, options), UpsertFile(path, options)],
                                    Some(InitializeState(None)), read, parse, printer);
            h.0[0] == UpsertData(utilPath, UtilContent) && h.1 == Some(State(AddGetServerSideDataHooks))
  {
    var hooks := State(AddGetServerSideDataHooks);
    var cmds := [UtilCommand(utilPath, options), UpsertFile(path, options)];
    assert TextOption(cmds[0].options, FileContentKey) == Some(UtilContent);
    var tail := HandleCommands(cmds[1..], Some(hooks), read, parse, printer);
    assert tail.1 == Some(hooks) by {
      assert HandleCommands(cmds[2..], Some(hooks), read, parse, printer) == ([], Some(hooks));
    }
  }

  /** Every file seen before any command is handled: the state stays in the
      first step throughout, so each file asks for the helper again. */
  function RunBatchedFiles(paths: seq<string>, options: Options, state: Option<State>): Result<seq<FileCommand>>
    decreases |paths|
  {
    if paths == [] then Ok([])
    else
      match HandleFile(paths[0], options, state)
      case Thrown(m) => Thrown(m)
      case Ok(cmds) =>
        match RunBatchedFiles(paths[1..], options, state)
        case Thrown(m) => Thrown(m)
        case Ok(rest) => Ok(cmds + rest)
  }

  /** Under the batched order the helper upsert is emitted once per file,
      in front of each file's own upsert. */
  lemma {:induction false} BatchedAddsUtilPerFile(paths: seq<string>, options: Options)
    requires TextOption(options, UtilPathKey).Some?
    ensures var utilPath := TextOption(options, UtilPathKey).value;
            var r := RunBatchedFiles(paths, options, Some(InitializeState(None)));
            r.Ok? && |r.value| == 2 * |paths|
            && forall i | 0 <= i < |paths| ::
                 r.value[2 * i] == UtilCommand(utilPath, options) && r.value[2 * i + 1] == UpsertFile(paths[i], options)
    decreases |paths|
  {
    if paths != [] {
      var utilPath := TextOption(options, UtilPathKey).value;
      assert InitializeState(None) == State(AddBuildLegacyCtxUtil);
      BatchedAddsUtilPerFile(paths[1..], options);
      var rest := RunBatchedFiles(paths[1..], options, Some(InitializeState(None))).value;
      var r := [UtilCommand(utilPath, options), UpsertFile(paths[0], options)] + rest;
      var own := HandleFile(paths[0], options, Some(State(AddBuildLegacyCtxUtil)));
      assert own.Ok? && |own.value| == 2;
      assert own.value == [UtilCommand(utilPath, options), UpsertFile(paths[0], options)];
      assert RunBatchedFiles(paths, options, Some(InitializeState(None))) == Ok(own.value + rest);
      forall i | 0 <= i < |paths|
        ensures r[2 * i] == UtilCommand(utilPath, options) && r[2 * i + 1] == UpsertFile(paths[i], options)
      {
        if i > 0 {
          assert r[2 * i] == rest[2 * (i - 1)];
          assert r[2 * i + 1] == rest[2 * (i - 1) + 1];
          assert paths[1..][i - 1] == paths[i];
        }
      }
    }
  }
}

=== FILE: syntax.dfy ===
/** The parsed file as the rewrite rules see it: a program body of top-level
    statements, and inside functions only what the rules query (return
    statements and the object properties under them, parameters, nested arrow
    functions, comments). Parsing and printing are not modelled. */
module Syntax {
  import opened Common

  /** One specifier of an import declaration. */
  datatype Specifier =
    | ImportNamed(imported: string, local: string)
    | ImportDefault(local: string)
    | ImportNamespace(local: string)

  /** An object property key: an identifier, or anything else (string, computed, ...). */
  datatype Key = IdentKey(name: string) | OtherKey

  /** Expressions, as far as the rules look into them: object literals with
      their properties, the literal kinds the rules test, and any other
      expression together with its sub-expressions. */
  datatype Expr =
    | ObjectExpr(properties: seq<Property>)
    | BoolLit(b: bool)
    | StrLit(s: string)
    | NumLit(n: nat)
    | Ident(name: string)
    | Call(callee: string, args: seq<Expr>)
    | OtherExpr(children: seq<Expr>)

  datatype Property = Property(key: Key, value: Expr)

  /** A return statement; `return;` has the argument `OtherExpr([])`. */
  datatype Return = Return(argument: Expr)

  /** A parameter: an identifier or an object pattern, each with an optional
      type annotation, or any other pattern. */
  datatype Param = IdentParam(name: string, annotation: Option<string>) | ObjectParam(annotation: Option<string>) | OtherParam

  /** The kind of a function body: a JSX element or fragment (arrow functions
      only), a block, or any other expression. */
  datatype FnBody = JsxBody | BlockBody | ExprBody

  /** A function declaration, function expression or arrow function.
      `returnStmts` lists every return statement found under it, in document
      order; `arrows` the arrow functions nested directly in it;
      `awaitsGetData` records that its body starts by awaiting `getData`. */
  datatype Fn = Fn(
    params: seq<Param>,
    body: FnBody,
    returnStmts: seq<Return>,
    arrows: seq<Fn>,
    comments: seq<string>,
    awaitsGetData: bool)

  datatype Binding = IdentBinding(name: string) | PatternBinding

  datatype Init = ArrowInit(fn: Fn) | FunctionInit(fn: Fn) | ExprInit(value: Expr) | NoInit

  datatype Declarator = Declarator(id: Binding, init: Init)

  /** What follows `export default`: an identifier, a function declaration
      (named or not), or anything else, such as an arrow function or another
      expression, which the component lookup does not follow. */
  datatype DefaultTarget =
    | DefaultIdentifier(name: string)
    | DefaultFunction(fnName: Option<string>, fn: Fn)
    | DefaultOther

  /** How an import's source string node was built: `StringLiteralSource`
      when it comes from the TSX parser or from `j.stringLiteral`,
      `PlainLiteralSource` when a rule built it with `j.literal` (node type
      `Literal`). Patterns that name `type: 'StringLiteral'` tell them apart. */
  datatype SourceType = StringLiteralSource | PlainLiteralSource

  /** A top-level statement of the program body. `Variables` with `exported`
      set is an `export const/let/var` declaration, `Function` with
      `exported` set an `export function` declaration. */
  datatype Stmt =
    | Import(specifiers: seq<Specifier>, source: string, sourceType: SourceType)
    | Variables(exported: bool, declarators: seq<Declarator>)
    | Function(exported: bool, name: string, fn: Fn)
    | TypeAlias(name: string)
    | ExportDefault(target: DefaultTarget)
    | OtherStmt

  predicate IsImport(s: Stmt) {
    s.Import?
  }

  predicate IsExportDefault(s: Stmt) {
    s.ExportDefault?
  }

  /** `export const <name> = <value>;` */
  function ExportConst(name: string, value: Expr): Stmt {
    Variables(true, [Declarator(IdentBinding(name), ExprInit(value))])
  }

  /** An exported variable declaration whose first declarator binds `name`. */
  predicate DeclaresExported(s: Stmt, name: string) {
    s.Variables? && s.exported && |s.declarators| > 0 && s.declarators[0].id == IdentBinding(name)
  }

  /** Every object property under `e`, in document (pre-order) order; `e`
      itself is never a property, so this is exactly what a property query
      rooted at `e` returns. */
  function PropsOf(e: Expr): seq<Property>
    decreases e
  {
    match e
    case ObjectExpr(ps) => PropsOfList(ps)
    case Call(_, args) => PropsOfExprs(args)
    case OtherExpr(cs) => PropsOfExprs(cs)
    case _ => []
  }

  /** A property followed by the properties nested in its value. */
  function PropsOfProperty(p: Property): seq<Property>
    decreases p
  {
    [p] + PropsOf(p.value)
  }

  function PropsOfList(ps: seq<Property>): seq<Property>
    decreases ps
  {
    if ps == [] then [] else PropsOfProperty(ps[0]) + PropsOfList(ps[1..])
  }

  function PropsOfExprs(cs: seq<Expr>): seq<Property>
    decreases cs
  {
    if cs == [] then [] else PropsOf(cs[0]) + PropsOfExprs(cs[1..])
  }
}

/** File commands exchanged with the filemod/repomod engine, and the option
    bags that travel with them. */
module Commands {
  import opened Common

  /** An option value: a string, or anything that is not a string. */
  datatype OptionValue = Text(s: string) | NonText

  type Options = map<string, OptionValue>

  /** `typeof options[key] === 'string' ? options[key] : undefined` */
  function TextOption(options: Options, key: string): (r: Option<string>)
    ensures r.Some? <==> key in options && options[key].Text?
    ensures r.Some? ==> options[key] == Text(r.value)
  {
    if key in options && options[key].Text? then Some(options[key].s) else None
  }

  /** A command produced by `handleFile`. */
  datatype FileCommand = UpsertFile(path: string, options: Options)

  /** A command produced by `handleData`. */
  datatype DataCommand = UpsertData(path: string, data: string) | Noop

  /** Each file's own upsert, in order. */
  function OwnUpserts(paths: seq<string>, options: Options): (r: seq<FileCommand>)
    ensures |r| == |paths|
    ensures forall i | 0 <= i < |paths| :: r[i] == UpsertFile(paths[i], options)
  {
    seq(|paths|, i requires 0 <= i < |paths| => UpsertFile(paths[i], options))
  }

  lemma OwnUpsertsCons(paths: seq<string>, options: Options)
    requires paths != []
    ensures OwnUpserts(paths, options) == [UpsertFile(paths[0], options)] + OwnUpserts(paths[1..], options)
  {
  }
}

=== FILE: todo_comments.dfy ===
/** The jscodeshift `remove-get-static-props` codemod: every `getStaticProps`
    function declaration gets a `TODO: remove this function` comment, and
    for the first identifier-keyed property inside each `props` object it
    returns, an empty `async function get<Name>()` with a `TODO: implement
    this function` comment is put at the top of the file. */
module TodoComments {
  import opened Common
  import opened Syntax
  import opened Engine

  const RemoveComment := " TODO: remove this function"
  const ImplementComment := " TODO: implement this function"

  /** A `getStaticProps` function declaration, plain, exported or default-exported. */
  predicate IsGetStaticProps(s: Stmt) {
    (s.Function? && s.name == "getStaticProps")
    || (s.ExportDefault? && s.target.DefaultFunction? && s.target.fnName == Some("getStaticProps"))
  }

  /** A statement that is a named function declaration. */
  predicate HoldsFunction(s: Stmt) {
    s.Function? || (s.ExportDefault? && s.target.DefaultFunction? && s.target.fnName.Some?)
  }

  function FunctionOf(s: Stmt): Fn
    requires HoldsFunction(s)
  {
    if s.Function? then s.fn else s.target.fn
  }

  /** The statement with `c` appended to its function's comments. */
  function WithComment(s: Stmt, c: string): (r: Stmt)
    requires HoldsFunction(s)
    ensures HoldsFunction(r) && FunctionOf(r).comments == FunctionOf(s).comments + [c]
    ensures FunctionOf(r) == FunctionOf(s).(comments := FunctionOf(s).comments + [c])
    ensures IsGetStaticProps(r) <==> IsGetStaticProps(s)
  {
    var fn := FunctionOf(s);
    var fn' := fn.(comments := fn.comments + [c]);
    if s.Function? then s.(fn := fn') else ExportDefault(s.target.(fn := fn'))
  }

  /** One lazy mod function. The comment task holds its function declaration
      as a position counted from the end of the body, so that statements
      unshifted meanwhile do not move it. */
  datatype Task =
    | FindGetStaticPropsFunctions
    | FindReturnStatements(fn: Fn)
    | AddCommentOnFunctionDeclaration(fromEnd: nat)
    | FindPropsObjectProperty(ret: Return)
    | FindObjectProperties(props: Property)
    | AddGetXFunctionDefinition(name: string)
    | FindComponentFunctionDefinition(name: string)

  function Rank(t: Task): nat {
    match t
    case FindGetStaticPropsFunctions => 4
    case FindReturnStatements(_) => 3
    case FindPropsObjectProperty(_) => 2
    case FindObjectProperties(_) => 1
    case _ => 0
  }

  /** `findReturnStatements` then `addCommentOnFunctionDeclaration` for each
      `getStaticProps` declaration at position `i` or later, in order. */
  function GetStaticPropsTasksFrom(body: seq<Stmt>, i: nat): (r: seq<Task>)
    requires i <= |body|
    ensures forall j | 0 <= j < |r| :: r[j].FindReturnStatements? || r[j].AddCommentOnFunctionDeclaration?
    ensures r == [] <==> forall j | i <= j < |body| :: !IsGetStaticProps(body[j])
    decreases |body| - i
  {
    if i == |body| then []
    else
      (if IsGetStaticProps(body[i]) then [FindReturnStatements(FunctionOf(body[i])), AddCommentOnFunctionDeclaration(|body| - i)] else [])
      + GetStaticPropsTasksFrom(body, i + 1)
  }

  predicate IsPropsKey(p: Property) {
    p.key == IdentKey("props")
  }

  predicate IsIdentKeyed(p: Property) {
    p.key.IdentKey?
  }

  /** The first identifier-keyed property under a `props` property, if any. */
  function FirstIdentKeyed(props: Property): (r: Option<string>)
    ensures r.None? <==> forall i | 0 <= i < |PropsOf(props.value)| :: !IsIdentKeyed(PropsOf(props.value)[i])
    ensures r.Some? ==> exists i | 0 <= i < |PropsOf(props.value)| ::
                          PropsOf(props.value)[i].key == IdentKey(r.value)
                          && forall j | 0 <= j < i :: !IsIdentKeyed(PropsOf(props.value)[j])
  {
    var ps := PropsOf(props.value);
    var k := FindIndex(ps, IsIdentKeyed);
    if k < 0 then None else Some(ps[k].key.name)
  }

  /** `get` followed by the name with its first character upper-cased. */
  function GetterName(name: string): (r: string)
    ensures |r| == 3 + |name| && r[..3] == "get"
    ensures name == "" ==> r == "get"
    ensures name != "" ==> r[3] == UpperAscii(name[0]) && r[4..] == name[1..]
  {
    "get" + CapitalizeFirst(name)
  }

  /** `async function get<Name>() {}` with its TODO comment. */
  function GetterFunction(name: string): Stmt {
    Function(false, GetterName(name), Fn([], BlockBody, [], [], [ImplementComment], false))
  }

  /** One `props` lookup per return statement. */
  function ReturnsStep(fn: Fn, body: seq<Stmt>): Step<Task, seq<Stmt>> {
    Step(false, seq(|fn.returnStmts|, i requires 0 <= i < |fn.returnStmts| => FindPropsObjectProperty(fn.returnStmts[i])), body)
  }

  /** One property scan per `props` property of the returned object. */
  function PropsStep(ret: Return, body: seq<Stmt>): Step<Task, seq<Stmt>> {
    var ps := Filter(PropsOf(ret.argument), IsPropsKey);
    Step(false, seq(|ps|, i requires 0 <= i < |ps| => FindObjectProperties(ps[i])), body)
  }

  /** The getter builder and the component lookup for the first identifier-keyed property. */
  function ObjectPropertiesStep(props: Property, body: seq<Stmt>): Step<Task, seq<Stmt>> {
    var first := FirstIdentKeyed(props);
    Step(false, if first.None? then [] else [AddGetXFunctionDefinition(first.value), FindComponentFunctionDefinition(first.value)], body)
  }

  /** The comment append at the handle counted from the end; reports a change even when the handle is stale. */
  function CommentStep(k: nat, body: seq<Stmt>): Step<Task, seq<Stmt>> {
    var i := |body| - k;
    Step(true, [], if 0 <= i < |body| && HoldsFunction(body[i]) then body[i := WithComment(body[i], RemoveComment)] else body)
  }

  function Apply(t: Task, body: seq<Stmt>): Step<Task, seq<Stmt>> {
    match t
    case FindGetStaticPropsFunctions => Step(false, GetStaticPropsTasksFrom(body, 0), body)
    case FindReturnStatements(fn) => ReturnsStep(fn, body)
    case FindPropsObjectProperty(ret) => PropsStep(ret, body)
    case FindObjectProperties(props) => ObjectPropertiesStep(props, body)
    case AddGetXFunctionDefinition(name) => Step(true, [], [GetterFunction(name)] + body)
    case FindComponentFunctionDefinition(_) => Step(false, [], body)
    case AddCommentOnFunctionDeclaration(k) => CommentStep(k, body)
  }

  lemma ApplyRankDecreases()
    ensures RankDecreases(Apply, Rank)
  {
    forall t, d, i | 0 <= i < |Apply(t, d).spawned|
      ensures Rank(Apply(t, d).spawned[i]) < Rank(t)
    {
      if t.FindGetStaticPropsFunctions? {
        var s := Apply(t, d).spawned[i];
        assert s.FindReturnStatements? || s.AddCommentOnFunctionDeclaration?;
      }
    }
  }

  /** `transform`: `None` (`undefined`) when no task reported a change. */
  function Transform(body: seq<Stmt>): Option<seq<Stmt>> {
    ApplyRankDecreases();
    var r := RunAll(Apply, Rank, [FindGetStaticPropsFunctions], body);
    if !r.dirty then None else Some(r.doc)
  }

  predicate HasGetStaticProps(body: seq<Stmt>) {
    exists i | 0 <= i < |body| :: IsGetStaticProps(body[i])
  }

  /** The comment task of the `getStaticProps` declaration at `j` is among the spawned tasks. */
  lemma {:induction false} CommentTaskSpawned(body: seq<Stmt>, i: nat, j: nat) returns (p: nat)
    requires i <= j < |body| && IsGetStaticProps(body[j])
    ensures p < |GetStaticPropsTasksFrom(body, i)|
    ensures GetStaticPropsTasksFrom(body, i)[p] == AddCommentOnFunctionDeclaration(|body| - j)
    decreases |body| - i
  {
    var head := if IsGetStaticProps(body[i]) then [FindReturnStatements(FunctionOf(body[i])), AddCommentOnFunctionDeclaration(|body| - i)] else [];
    if i == j {
      p := 1;
    } else {
      var q := CommentTaskSpawned(body, i + 1, j);
      p := |head| + q;
    }
  }

  /** The file is rewritten exactly when it declares `getStaticProps`: the
      comment task always reports a change, and nothing else can. */
  lemma TransformSomeIff(body: seq<Stmt>)
    ensures Transform(body).Some? <==> HasGetStaticProps(body)
  {
    ApplyRankDecreases();
    var f := FindGetStaticPropsFunctions;
    RunAllSingle(Apply, Rank, f, body);
    if HasGetStaticProps(body) {
      var j :| 0 <= j < |body| && IsGetStaticProps(body[j]);
      var p := CommentTaskSpawned(body, 0, j);
      assert SurelyChanges(Apply, AddCommentOnFunctionDeclaration(|body| - j), 0);
      SpawnsSurelyChanging(Apply, Rank, f, body, p, 0);
    } else {
      assert Apply(f, body).spawned == [];
    }
  }

  /** Unshifting a statement leaves every handle counted from the end on the same statement. */
  lemma UnshiftKeepsHandles(s: Stmt, body: seq<Stmt>, k: nat)
    requires 1 <= k <= |body|
    ensures var b := [s] + body; b[|b| - k] == body[|body| - k]
  {
  }

  /** The comment task appends its comment to the function at its handle,
      after the comments already there, and touches nothing else. */
  lemma CommentAppended(body: seq<Stmt>, k: nat)
    requires 1 <= k <= |body| && HoldsFunction(body[|body| - k])
    ensures var r := Apply(AddCommentOnFunctionDeclaration(k), body).doc;
            |r| == |body|
            && FunctionOf(r[|body| - k]).comments == FunctionOf(body[|body| - k]).comments + [RemoveComment]
            && forall i | 0 <= i < |body| && i != |body| - k :: r[i] == body[i]
  {
  }
}

=== FILE: todo_comments_example.dfy ===
/** A worked run of the jscodeshift `remove-get-static-props` codemod on
    `export function getStaticProps() { return { props: { user: u } }; }`:
    the getter is unshifted before the comment task runs, and the comment
    still lands on `getStaticProps`. */
module TodoCommentsExample {
  import opened Common
  import opened Syntax
  import opened Engine
  import opened TodoComments

  const UserProperty := Property(IdentKey("user"), Ident("u"))
  const PropsProperty := Property(IdentKey("props"), ObjectExpr([UserProperty]))
  const PropsReturn := Return(ObjectExpr([PropsProperty]))
  const GetStaticPropsFn := Fn([], BlockBody, [PropsReturn], [], [], false)

  const B0: seq<Stmt> := [Function(true, "getStaticProps", GetStaticPropsFn)]
  const B1: seq<Stmt> := [GetterFunction("user")] + B0
  const B2: seq<Stmt> := B1[1 := WithComment(B1[1], RemoveComment)]

  const Comment := AddCommentOnFunctionDeclaration(1)

  const M0 := Machine([FindGetStaticPropsFunctions], B0, false, [])
  const M1 := Machine([FindReturnStatements(GetStaticPropsFn), Comment], B0, false,
                      M0.trace + [Fired(FindGetStaticPropsFunctions, false)])
  const M2 := Machine([FindPropsObjectProperty(PropsReturn), Comment], B0, false,
                      M1.trace + [Fired(FindReturnStatements(GetStaticPropsFn), false)])
  const M3 := Machine([FindObjectProperties(PropsProperty), Comment], B0, false,
                      M2.trace + [Fired(FindPropsObjectProperty(PropsReturn), false)])
  const M4 := Machine([AddGetXFunctionDefinition("user"), FindComponentFunctionDefinition("user"), Comment], B0, false,
                      M3.trace + [Fired(FindObjectProperties(PropsProperty), false)])
  const M5 := Machine([FindComponentFunctionDefinition("user"), Comment], B1, true,
                      M4.trace + [Fired(AddGetXFunctionDefinition("user"), true)])
  const M6 := Machine([Comment], B1, true,
                      M5.trace + [Fired(FindComponentFunctionDefinition("user"), false)])
  const M7 := Machine([], B2, true, M6.trace + [Fired(Comment, true)])

  lemma Tick1() ensures Tick(Apply, M0) == M1 {
    assert GetStaticPropsTasksFrom(B0, 1) == [];
  }

  lemma Tick2() ensures Tick(Apply, M1) == M2 {
  }

  lemma PropsUnderProps()
    ensures PropsOf(PropsProperty.value) == [UserProperty]
    ensures PropsOf(PropsReturn.argument) == [PropsProperty, UserProperty]
  {
    assert PropsOf(UserProperty.value) == [];
    assert PropsOfProperty(UserProperty) == [UserProperty];
    assert PropsOfList([UserProperty][1..]) == [];
    assert PropsOfList([UserProperty]) == [UserProperty];
    assert PropsOfProperty(PropsProperty) == [PropsProperty, UserProperty];
    assert PropsOfList([PropsProperty][1..]) == [];
  }

  lemma PropsFilter()
    ensures Filter(PropsOf(PropsReturn.argument), IsPropsKey) == [PropsProperty]
  {
    PropsUnderProps();
    assert Filter([UserProperty], IsPropsKey) == [] by {
      assert [UserProperty][1..] == [];
    }
    assert Filter([PropsProperty, UserProperty], IsPropsKey) == [PropsProperty];
  }

  lemma FindsPropsProperty()
    ensures Apply(FindPropsObjectProperty(PropsReturn), B0) == Step(false, [FindObjectProperties(PropsProperty)], B0)
  {
    assert Apply(FindPropsObjectProperty(PropsReturn), B0) == PropsStep(PropsReturn, B0);
    PropsFilter();
  }

  lemma Tick3() ensures Tick(Apply, M2) == M3 {
    FindsPropsProperty();
  }

  lemma Tick4() ensures Tick(Apply, M3) == M4 {
    PropsUnderProps();
    assert FindIndex([UserProperty], IsIdentKeyed) == 0;
  }

  lemma Tick5() ensures Tick(Apply, M4) == M5 {
  }

  lemma Tick6() ensures Tick(Apply, M5) == M6 {
  }

  lemma Tick7() ensures Tick(Apply, M6) == M7 {
  }

  lemma TickThen(n: nat, m: Machine<Task, seq<Stmt>>, m': Machine<Task, seq<Stmt>>)
    requires Tick(Apply, m) == m'
    ensures Ticks(Apply, n + 1, m) == Ticks(Apply, n, m')
  {
  }

  lemma SevenTicks()
    ensures Ticks(Apply, 7, M0) == M7
  {
    Tick1(); TickThen(6, M0, M1);
    Tick2(); TickThen(5, M1, M2);
    Tick3(); TickThen(4, M2, M3);
    Tick4(); TickThen(3, M3, M4);
    Tick5(); TickThen(2, M4, M5);
    Tick6(); TickThen(1, M5, M6);
    Tick7(); TickThen(0, M6, M7);
  }

  lemma RunReachesB2()
    ensures RankDecreases(Apply, Rank)
    ensures var r := RunAll(Apply, Rank, [FindGetStaticPropsFunctions], B0); r.doc == B2 && r.dirty
  {
    ApplyRankDecreases();
    SevenTicks();
    RunAllFromTicks(Apply, Rank, [FindGetStaticPropsFunctions], B0, 7);
  }

  lemma B2Layout()
    ensures B2 == [Function(false, "getUser", Fn([], BlockBody, [], [], [ImplementComment], false)),
                   Function(true, "getStaticProps", GetStaticPropsFn.(comments := [RemoveComment]))]
  {
    assert UpperAscii('u') == 'U';
    assert CapitalizeFirst("user") == "User";
    assert GetterName("user") == "getUser";
    assert WithComment(B0[0], RemoveComment) == Function(true, "getStaticProps", GetStaticPropsFn.(comments := [RemoveComment]));
  }

  /** The getter `getUser` comes first, and `getStaticProps` carries the
      removal comment even though the getter was unshifted before the
      comment task ran. */
  lemma GetterFirstCommentKept()
    ensures Transform(B0) == Some([
              Function(false, "getUser", Fn([], BlockBody, [], [], [ImplementComment], false)),
              Function(true, "getStaticProps", GetStaticPropsFn.(comments := [RemoveComment]))])
  {
    RunReachesB2();
    B2Layout();
  }
}
